=== FILE: README.md ===
# bloqade core: waveforms, the builder parser and the constant analysis

A Dafny model of three parts of bloqade-python, with proofs about each.

- **The waveform IR** (`bloqade.ir.control.waveform`). It covers the thirteen
  waveform variants, their symbolic `duration` and their exact `eval_decimal`
  under a variable assignment. It also covers `Sample.samples`, the
  `canonicalize` rewrite, and `add` / `append`, which go through that rewrite.
- **The builder parser** (`bloqade.builder.parse.builder.Parser`). This pass
  lowers a builder chain into a register, a `Sequence` of pulses, fields and
  drives, and the execution parameters. The model includes `reset`,
  `read_address`, `read_waveform`, `read_drive`, `read_sequence`,
  `read_register` and `read_pragmas`. It also includes the four entry points
  `parse_register`, `parse_sequence`, `parse_circuit` and `parse`.
- **The constant analysis** (`bloqade.ir.analysis.is_constant`).
  - `IsConstantWaveform` decides whether a waveform is constant in time, and
    folds it into the `Constant` of its value at its end.
  - `IsConstantAnalogCircuit` does the same for every drive of a circuit. It
    also requires every folded waveform to last equally long. It rebuilds the
    circuit from the folded waveforms.

How the Python maps onto the model:

- Python's mutable attributes are threaded through as explicit values.
  - The parser's attributes form a `ParserState` record.
  - The builder stream is the chain of builder nodes plus a cursor.
  - The visitor's `is_constant` flag and its running duration are passed as arguments.
- Python `Decimal` arithmetic is modelled as exact `real` arithmetic.
- Scalar expressions are a small symbolic datatype, evaluated under an
  assignment (`map<string, real>`).
- Insertion-ordered Python dicts are association lists (`OrderedMaps`). Their
  `Put` keeps the position of an existing key and appends a new key at the end.
  Python's `dict` assignment behaves the same way.
- Raised exceptions become the `Failure` arm of a `Result`.

Modules, in dependency order:

- `Wrappers`: `Option` and `Result`.
- `Scalars`: the symbolic scalars.
- `OrderedMaps`: association lists.
- `Waveforms`: the IR, `Duration`, `Eval`, `Samples` and `Canonicalize`.
- `WaveformProps` and `CanonicalizeProps`: their properties.
- `Ir`: `Field` / `Pulse` / `Sequence` / `AnalogCircuit`, and `Field.add`.
- `Builder`: builder nodes.
- `Parser`: the parser.
- `ParserProps` and `ParseEntryProps`: properties of the parser.
- `IsConstant`: both visitors.
- `IsConstantProps`: the waveform verdict.
- `CircuitProps`, `FoldedCircuit` and `CircuitRebuild`: the circuit verdict and the rebuilt circuit.
- `IsConstantExamples`: every circuit of the repository's `test_is_constant.py` (`test_happy_path`, `test_fail_shape`, both circuits of `test_fail_duration`, `test_fail_value`), written as the circuit the parser builds from each chain, with literal scalars.

## Model

| member | source | states |
|---|---|---|
| Waveforms.Duration | src/bloqade/ir/control/waveform.py:675-682 | a duration mentions only the waveform's own variables; the only way to have none is a Slice with neither bound |
| Waveforms.BisectLeft | src/bloqade/ir/control/waveform.py:878-880 | the index is the first whose sample time is at least `t`: every earlier time is smaller |
| Waveforms.Samples | src/bloqade/ir/control/waveform.py:861-876 | clocks and values pair up one-to-one and always include the end point |
| Waveforms.Canonicalize | src/bloqade/ir/control/waveform.py:179-203 | every variant other than Append and Add comes back unchanged; the only failure is an unbounded Slice's duration |
| Waveforms.CanonicalizeAll | src/bloqade/ir/control/waveform.py:190 | the canonical list has one element per input element |
| WaveformProps.AppendDuration | src/bloqade/ir/control/waveform.py:710-716 | an Append has a duration exactly when every child does, and it is the sum of the children's |
| WaveformProps.AddDuration | src/bloqade/ir/control/waveform.py:801-803 | an Add's duration exists iff both operands' do, and it is the larger of the two |
| WaveformProps.LinearEval | src/bloqade/ir/control/waveform.py:301-310 | zero after the end; starts at `start` and ends at `stop`; a zero duration divides by zero |
| WaveformProps.PolyEval | src/bloqade/ir/control/waveform.py:379-392 | zero after the end; before it, the sum of coefficient i times t to the power i |
| WaveformProps.AppendEval | src/bloqade/ir/control/waveform.py:718-728 | the value is that of the first child whose end reaches `t`, taken at local time `t` minus the spans of the earlier children, all of which end before `t`; zero after the last end |
| WaveformProps.SamplesShape | src/bloqade/ir/control/waveform.py:861-876 | with a positive step, the clocks are 0, dt, 2dt, ... while they stay at most `duration - dt`; each value is the waveform's there; the last pair is the duration and the final value |
| WaveformProps.SamplesNonPositiveStep | src/bloqade/ir/control/waveform.py:868-871 | with a step of zero or less, the sampling loop never ends unless the duration is below the step; in that case only the end point is sampled |
| WaveformProps.SampleDefined | src/bloqade/ir/control/waveform.py:861-889 | a Sample with a positive step of a waveform defined at every time is defined at every time: the loop ends, its clocks strictly increase up to the end point, so linear interpolation never divides by zero |
| CanonicalizeProps.CanonicalizeAppend | src/bloqade/ir/control/waveform.py:181-190 | an Append is flattened by exactly one level and each element canonicalized in order; it fails iff one element does |
| CanonicalizeProps.CanonicalizeAddEval | src/bloqade/ir/control/waveform.py:192-195 | an Add of operands with equal canonical forms becomes that form scaled by 2, which has the value of the form added to itself at every time, and the same duration |
| CanonicalizeProps.ZeroDurationDropChangesValue | src/bloqade/ir/control/waveform.py:196-197 | dropping a literal zero-duration operand can change the value: 5 for no time plus 1 for 10 is 6 at time 0, while its canonical form is 1 there |
| CanonicalizeProps.CanonicalizeDuration | src/bloqade/ir/control/waveform.py:179-203 | canonicalizing keeps a waveform's duration: it exists exactly when the original's does and has the same value |
| CanonicalizeProps.CanonicalizeVars | src/bloqade/ir/control/waveform.py:179-203 | canonicalizing introduces no new variable |
| Ir.FieldAddMerges | src/bloqade/builder/parse/builder.py:138-139 | after `field.add(drive)` each spatial key holds the Add of both sides' waveforms if both have one, else the one it has; nothing is overwritten |
| Parser.Reset | src/bloqade/builder/parse/builder.py:29-36 | a fresh stream, sequence, register and parameters, while the selected coupling and field name survive from an earlier call |
| Parser.FindNext | src/bloqade/builder/parse/builder.py:39 | the found node is the first at or after the cursor of the wanted kind; when none is found, none exists |
| Parser.SampleInterpolation | src/bloqade/builder/parse/builder.py:75-80 | an explicit interpolation is kept; otherwise it is Constant exactly on the rabi phase field |
| Parser.ReadWaveform | src/bloqade/builder/parse/builder.py:64-103 | the fold never moves backwards along the chain |
| Parser.ReadDrive | src/bloqade/builder/parse/builder.py:105-112 | a drive is a single entry keyed by the spatial modulation it was read at, bound to the waveform read from the next node on; it fails with that read's error, or as an empty drive exactly when the read finds no waveform |
| Parser.SequenceLoop | src/bloqade/builder/parse/builder.py:118-144 | the drive loop runs on a copy of the stream: cursor, register, parameters and vector names are untouched |
| Parser.ReadSequence | src/bloqade/builder/parse/builder.py:114-144 | the sequence pass changes only the sequence, the selection and at most the cursor |
| Parser.ReadRegister | src/bloqade/builder/parse/builder.py:146-151 | the register is the arrangement at the head of the stream, and that node is consumed; nothing else changes |
| Parser.PragmaLoop | src/bloqade/builder/parse/builder.py:163-203 | pragmas change only the parameters and the register, and never lose a register |
| Parser.ReadPragmas | src/bloqade/builder/parse/builder.py:153-203 | the pragma pass runs on a copy of the stream and leaves the sequence and the selection as they were |
| ParserProps.ReadAddressSpec | src/bloqade/builder/parse/builder.py:38-62 | the first spatial modulation after the cursor is found; a field is reported iff its parent is a field node; a coupling only with a field, from two steps up (detuning) or three (rabi), and only if that node is a coupling |
| ParserProps.ReadPrimitives | src/bloqade/builder/parse/builder.py:93-97 | a run of n primitives ending the drive, each a leaf or a piecewise Append of leaves, reads as the first alone or as one flat Append of all their leaves in call order, and the fold stops right after the run |
| ParserProps.DriveOfPrimitives | src/bloqade/builder/parse/builder.py:105-112 | a spatial modulation followed by a run of chained primitives is a drive binding its key to the run's waveform |
| ParserProps.DriveWithoutWaveform | src/bloqade/builder/parse/builder.py:105-112 | a spatial modulation followed by no waveform node is an empty drive |
| ParserProps.FnThenSample | src/bloqade/builder/parse/builder.py:74-92 | a function followed by `.sample` contributes one Sample of that function, not the function itself |
| ParserProps.ReadWaveformHalts | src/bloqade/builder/parse/builder.py:98-99 | any node that is not a waveform node ends the fold where it stands, with the waveform read so far |
| ParserProps.MergeDriveRewritesOne | src/bloqade/builder/parse/builder.py:135-142 | one drive rewrites only the field at the current coupling and field name, merging by `Field.add`; every other pulse and field is unchanged, and new names go last |
| ParserProps.DuplicatesSpec | src/bloqade/builder/parse/builder.py:175-181 | each name is reported once per repeat occurrence, so the report is empty iff the names are distinct |
| ParserProps.ArgsCheckSpec | src/bloqade/builder/parse/builder.py:172-194 | `Args` is accepted iff its names are distinct and none is a run-time vector's; duplicates are reported before vector names |
| ParserProps.PragmasAbsent | src/bloqade/builder/parse/builder.py:162-165 | with no pragma after the cursor the pass is the identity and cannot fail |
| ParserProps.PragmaStopsAt | src/bloqade/builder/parse/builder.py:200-201 | the pragma run ends at the first other node: cutting the chain there changes neither the outcome nor the error |
| ParseEntryProps.ParseCircuitAdopts | src/bloqade/builder/parse/builder.py:114-117 | a SequenceBuilder right after the register is the circuit's sequence, whatever follows |
| ParseEntryProps.ParseAgrees | src/bloqade/builder/parse/builder.py:229-246 | `parse` succeeds iff `parse_circuit` and `parse_register` do; its sequence is the former's and its register the latter's |
| ParseEntryProps.ParseSequenceMatchesCircuit | src/bloqade/builder/parse/builder.py:213-227 | when at least one node follows the register and it is not a SequenceBuilder, `parse_sequence` and `parse_circuit` agree on the sequence |
| ParseEntryProps.RegisterOnlyDiverges | src/bloqade/builder/parse/builder.py:213-227 | on a chain holding only the register, `parse_circuit` fails at the end of the stream while `parse_sequence` returns the empty sequence |
| ParseEntryProps.ParseSequenceSkipsSequenceBuilder | src/bloqade/builder/parse/builder.py:213-216 | on register then SequenceBuilder, `parse_sequence` returns the empty sequence while `parse_circuit` returns the builder's |
| ParseEntryProps.ParseSequenceAfterRegisterAgrees | src/bloqade/builder/parse/builder.py:213-216 | reading past the register first makes `parse_sequence` agree with `parse_circuit` on every chain |
| ParseEntryProps.SequenceLoopFrame | src/bloqade/builder/parse/builder.py:118-144 | the drive loop's sequence and selection depend only on the chain, the sequence so far and the selection |
| ParseEntryProps.PragmaLoopFrame | src/bloqade/builder/parse/builder.py:163-203 | the pragma loop's result depends only on the chain, register, vector names and parameters |
| ParseEntryProps.StickyIrrelevant | src/bloqade/builder/parse/builder.py:120-130 | when the first drive names its coupling and field, a coupling left over from an earlier parse cannot change `parse_circuit` |
| ParseEntryProps.StickyLeaks | src/bloqade/builder/parse/builder.py:29-36 | a chain without a coupling fails on a fresh parser but parses after a previous call selected Rydberg detuning |
| ParseEntryProps.SameKeyDrivesAdd | src/bloqade/builder/parse/builder.py:133-142 | two drives on the same uniform key land in one field as their Add |
| ParseEntryProps.ChainedPrimitivesAppend | src/bloqade/builder/parse/builder.py:93-97 | two chained primitives under one drive become their Append, in call order |
| IsConstant.Emit | src/bloqade/ir/analysis/is_constant.py:88-95 | the folded value is the waveform's value at its duration, which is the waveform's own |
| IsConstantProps.LinearVerdictIff | src/bloqade/ir/analysis/is_constant.py:29-31 | a Linear of positive duration is judged constant exactly when it takes its starting value at every time up to its duration |
| IsConstantProps.PythonFnNeverConstant | src/bloqade/ir/analysis/is_constant.py:38-40 | a Python function is never judged constant, even one that returns the same value at every time |
| IsConstantProps.PolyVerdict | src/bloqade/ir/analysis/is_constant.py:33-36 | a Poly keeps the verdict iff every coefficient after the first evaluates to zero |
| IsConstantProps.EmitNegative | src/bloqade/ir/analysis/is_constant.py:70-71 | a negated waveform folds iff the waveform does, with its verdict and duration and the negated value |
| IsConstantProps.EmitScale | src/bloqade/ir/analysis/is_constant.py:79-80 | a scaled waveform folds iff the waveform does, with its verdict and duration and the value times the factor |
| IsConstantProps.EmitRecord | src/bloqade/ir/analysis/is_constant.py:73-74 | a recorded waveform folds to exactly what the waveform folds to |
| IsConstantProps.VisitConjunction | src/bloqade/ir/analysis/is_constant.py:42-86 | visiting can only lower the verdict: starting from `v` yields `v` and the fresh verdict |
| IsConstantProps.AppendVerdict | src/bloqade/ir/analysis/is_constant.py:42-54 | an Append is constant iff every child is constant and has the first child's value |
| IsConstantProps.AppendStopsAtFirstFailure | src/bloqade/ir/analysis/is_constant.py:53-54 | once a child clears the verdict the later children are not visited, so they cannot make it fail |
| IsConstantProps.AddVerdict | src/bloqade/ir/analysis/is_constant.py:56-65 | operands of unequal duration make an Add non-constant; of equal duration, it is constant iff both are |
| IsConstantProps.EmitFolds | src/bloqade/ir/analysis/is_constant.py:88-95 | the folded Constant has the waveform's duration and its value at that duration |
| IsConstantProps.ConstantVerdictSound | src/bloqade/ir/analysis/is_constant.py:88-95 | a constant verdict is sound: at every time from 0 to the duration the waveform evaluates to the folded value |
| CircuitProps.CircuitVerdict | src/bloqade/ir/analysis/is_constant.py:114-122 | the circuit folds iff each of its waveforms does; it is constant iff every waveform is constant and lasts as long as the first |
| CircuitRebuild.CircuitShape | src/bloqade/ir/analysis/is_constant.py:124-149 | the rebuilt circuit keeps the register and every coupling, field and spatial key in order, each drive replaced by its folded Constant |
| IsConstantExamples.ThreeFieldsVerdict | src/bloqade/ir/analysis/is_constant.py:114-122 | a circuit with detuning, amplitude and phase is constant iff all three are and they last as long as the detuning |
| IsConstantExamples.HappyPath | tests/test_is_constant.py:5-16 | a constant, two flat ramps and a flat polynomial, all lasting 10, make a constant circuit |
| IsConstantExamples.HappyPathSliced | tests/test_is_constant.py:18-33 | a constant 5 added to the middle 5 of a constant 10, the recorded middle 5 of two flat ramps, and a flat polynomial of 5 make a constant circuit |
| IsConstantExamples.FailShape | tests/test_is_constant.py:36-54 | the sliced circuit with the phase `poly([1, 1, 0, 0, 0], 5)` folds and is not constant |
| IsConstantExamples.SampledRampsEmit | tests/test_is_constant.py:56-68 | the amplitude becomes the sliced ramps plus a function sampled every 0.05; it folds, lasts 5 and is not constant |
| IsConstantExamples.FailShapeSampled | tests/test_is_constant.py:56-71 | the same circuit with that sampled function added to the amplitude folds and is not constant |
| IsConstantExamples.FailDuration | tests/test_is_constant.py:74-87 | the same with a detuning lasting 9 is not constant, although each waveform is |
| IsConstantExamples.FailDurationAdd | tests/test_is_constant.py:89-102 | adding constants of durations 10 and 9 is not constant and folds to 1 over 10 |
| IsConstantExamples.FailValue | tests/test_is_constant.py:105-116 | appending constants 1 and 1.1 is not constant and folds to 1.1 over 20 |
| IsConstantExamples.FailDurationAddCircuit | tests/test_is_constant.py:89-102 | the circuit whose detuning adds constants of durations 10 and 9, with flat ramps and a flat polynomial over 10, folds and is not constant |
| IsConstantExamples.DetuningOnlyVerdict | src/bloqade/ir/analysis/is_constant.py:114-122 | a circuit with one uniform detuning drive folds when that waveform does, and is constant exactly when the waveform is |
| IsConstantExamples.FailValueCircuit | tests/test_is_constant.py:105-116 | the circuit whose only detuning appends constants 1 and 1.1 folds and is not constant |

## Left out

- Scalars: bloqade/ir/scalar.py is not part of this model.
  - Scalars are literals, variables, sums, maxima and differences, with no simplification.
  - Durations are therefore built unsimplified.
  - `canonicalize`'s zero-duration test is structural equality with the literal 0, as the source's `==` on scalars is.
- A Slice's duration is taken as its stop (by default the whole duration) minus its start (by default 0). The slice arithmetic lives in the scalar module, which is not part of this model.
- Waveforms.Eval: does not model the float/Decimal split, and so computes a value where the source raises TypeError.
  - `Waveform.__call__` returns a float (src/bloqade/ir/control/waveform.py:76-77). Add, Record and Smooth evaluate their children through it.
  - Scale multiplies a Decimal by its child's `eval_decimal` (waveform.py:781), and linear Sample interpolation divides a difference of sample values by a Decimal time step (waveform.py:889).
  - So a Scale over an Add or a Record, or a linear Sample of one, raises TypeError in the source. An example is `Scale(2, Add(constant(1, 1), constant(2, 1)))` at time 0. The model evaluates exactly and returns 6.
  - The rounding can also change the constant-waveform verdict. `visit_append` compares each child's folded value with the first's (src/bloqade/ir/analysis/is_constant.py:49-51). In `Append([Add(constant(0.1, 5), constant(0.2, 5)), constant(0.3, 5)])` the Add's float sum is 0.30000000000000004, so the source would judge it not constant while the model, on exact reals, judges it constant. How a float literal becomes a scalar is in the scalar module, which is not part of this model.
- A PythonFn's value inside its duration and a Smooth's value depend on user Python code and a floating-point convolution. Both are supplied by an oracle parameter.
- The base class's `eval_decimal` raises for an AlignedWaveform; the model returns `NotImplemented`. `align` and the alignment payloads are carried but not evaluated.
- Plotting, printing, `figure`, `_repr_pretty_` and the emulator, hamiltonian, task and submission code.
- Field.add: field.py is not part of this model.
  - It is modelled as the behaviour `read_sequence` relies on: a new spatial key is appended and an existing key gets the Add of the two waveforms.
  - The result is not re-canonicalized.
- Drive waveforms: a spatial modulation followed by no waveform gives `Field({sm: None})` in the source. The model reports `EmptyDrive`, because a Field holds waveforms only.
- Parser.ParseRegister, Parser.ParseCircuit and Parser.Parse require the chain to start with the register's arrangement node, as `read_register` assumes. A builder without a location is rejected earlier, by the builder code, which is not part of this model.
- Parser.PragmaLoop: the source has no guard for Parallelize without a register. The model fails with `NoRegister`, which the entry points never reach because the register is always read first.
- BuilderStream is not part of this model. The stream is the list of nodes from the head to the last call, and `read_next` is modelled as a forward search (Parser.FindNext).
- `vector_node_names` is emptied by `reset` and never filled by the code modelled here. ArgsCheck takes it as a parameter.
- CanonicalizeProps.CanonicalizeDuration requires every duration inside the waveform to be non-negative. Only then is a literal-zero operand the shorter one, so dropping it cannot change an Add's duration.
- IsConstantProps.ConstantVerdictSound covers waveforms built from Constant, Linear, Poly, PythonFn, Append, Add, Negative, Scale, Record and Aligned. Slice, Sample and Smooth are excluded: their values depend on scalar arithmetic or on the oracle, in ways the verdict does not follow.
- CircuitRebuild.CircuitShape assumes every key of the circuit's pulses, fields and drives is distinct, as it is in the dicts the source iterates.
- Waveforms.Samples' own contract states only the pairing. The full shape is in WaveformProps.SamplesShape.
- ParserProps.ReadPrimitives: requires each primitive's IR to be a leaf (Constant, Linear, Poly or PythonFn) or an Append of leaves, which is what the builder's primitives (`constant`, `linear`, `poly`, `fn`, `piecewise_linear`, `piecewise_constant`) lower to. The waveform builder classes are not part of this model, so a node's IR is a parameter and the lemma says nothing about other IRs.
- ParseEntryProps.ParseSequenceMatchesCircuit: requires a node after the register. On a chain holding only the register the two entry points disagree, as ParseEntryProps.RegisterOnlyDiverges shows: `parse_circuit` reads past the end of the stream while `parse_sequence` returns the empty sequence.
- Parser.ReadWaveform's own contract states only that the fold moves forward. What it reads is in ParserProps.ReadPrimitives, ParserProps.FnThenSample and ParserProps.ReadWaveformHalts.

## Findings

| source | as written | input that shows it | evidently intended | confidence | as-written member | corrected member |
|---|---|---|---|---|---|---|
| src/bloqade/builder/parse/builder.py:213-216 | `parse_sequence` resets and calls `read_sequence` without reading the register, so the stream's current node is the register and a SequenceBuilder after it is never adopted | a chain of an arrangement followed by a SequenceBuilder holding a Rydberg pulse: `parse_sequence` returns the empty sequence, `parse_circuit` the builder's; also a chain holding only the arrangement, where `parse_sequence` returns the empty sequence and `parse_circuit` fails at the end of the stream (ParseEntryProps.RegisterOnlyDiverges) | `parse_sequence` returns the same sequence as `parse_circuit` | medium, not executed | ParseEntryProps.ParseSequenceSkipsSequenceBuilder | ParseEntryProps.ParseSequenceAfterRegisterAgrees |

=== FILE: builder.dfy ===
/**
 * The builder chain as the parser sees it: the fluent calls in order, root first.
 * A node's parent (`__parent__`) is the node just before it in the chain.
 */
module Builder {
  import opened Wrappers
  import opened Scalars
  import opened Waveforms
  import opened Ir

  datatype Node =
      /** The root: an atom arrangement. */
    | ArrangementNode(name: string)
      /** A SequenceBuilder carrying a ready-made Sequence. */
    | SequenceBuilderNode(sequence: Sequence)
    | RydbergNode
    | HyperfineNode
    | DetuningNode
      /** The `rabi` router between a coupling and the amplitude/phase field. */
    | RabiNode
    | RabiAmplitudeNode
    | RabiPhaseNode
      /** Spatial modulations; each lowers to the IR key of its drive. */
    | LocationNode(sites: seq<(nat, Scalar)>)
    | UniformNode
    | ScaleNode(vectorName: string)
      /** A waveform primitive with its IR; `isFn` marks the function-wrapper kind `Fn`. */
    | PrimitiveNode(ir: Waveform, isFn: bool)
    | SliceNode(start: Option<Scalar>, stop: Option<Scalar>)
    | RecordNode(name: string)
    | SampleNode(interpolation: Option<Interpolation>, dt: Scalar)
    | AssignNode(staticParams: ParamMap)
    | BatchAssignNode(batchParams: seq<ParamMap>)
    | ListAssignNode(batchParams: seq<ParamMap>)
    | ArgsNode(order: seq<string>)
    | ParallelizeNode(spacing: Scalar)
      /** Any node kind the parser does not dispatch on. */
    | OtherNode(tag: string)

  /** `Location`, `Uniform` or `Scale`. */
  predicate IsSpatial(n: Node)
  {
    n.LocationNode? || n.UniformNode? || n.ScaleNode?
  }

  /** `Detuning`, `RabiAmplitude` or `RabiPhase`. */
  predicate IsField(n: Node)
  {
    n.DetuningNode? || n.RabiAmplitudeNode? || n.RabiPhaseNode?
  }

  /** `Assign`, `BatchAssign`, `ListAssign`, `Args` or `Parallelize`. */
  predicate IsPragma(n: Node)
  {
    n.AssignNode? || n.BatchAssignNode? || n.ListAssignNode? || n.ArgsNode? || n.ParallelizeNode?
  }

  /** The IR key a spatial node lowers to. */
  function SpatialKey(n: Node): Spatial
    requires IsSpatial(n)
  {
    match n
    case LocationNode(sites) => ScaledLocations(sites)
    case UniformNode => UniformModulation
    case ScaleNode(name) => RunTimeVector(name)
  }

  /** The field name a field node lowers to. */
  function FieldNameOf(n: Node): FieldName
    requires IsField(n)
  {
    match n
    case DetuningNode => Detuning
    case RabiAmplitudeNode => RabiAmplitude
    case RabiPhaseNode => RabiPhase
  }

  /** The coupling a node lowers to, if it is a coupling node. */
  function CouplingOf(n: Node): Option<Coupling>
  {
    match n
    case RydbergNode => Some(Rydberg)
    case HyperfineNode => Some(Hyperfine)
    case _ => None
  }
}

=== FILE: canonicalize_props.dfy ===
/**
 * Properties of `Waveform.canonicalize`: how it splices nested Appends and rewrites
 * Adds, and that on waveforms whose durations are non-negative it keeps the
 * evaluated duration unchanged.
 */
module CanonicalizeProps {
  import opened Wrappers
  import opened Scalars
  import opened Waveforms
  import opened WaveformProps

  /* ---------- splicing ---------- */

  lemma {:induction false} FlattenConcat(a: seq<Waveform>, b: seq<Waveform>)
    ensures Flatten(a + b) == Flatten(a) + Flatten(b)
  {
    if a == [] {
      assert a + b == b;
    } else {
      assert (a + b)[0] == a[0];
      assert (a + b)[1..] == a[1..] + b;
      FlattenConcat(a[1..], b);
    }
  }

  /**
   * Flattening puts each child's splice (its own children if it is an Append,
   * itself otherwise) in place, between the flattening of the children before it
   * and of the children after it.
   */
  lemma {:induction false} FlattenSplices(ws: seq<Waveform>, i: nat)
    requires i < |ws|
    ensures Flatten(ws) == Flatten(ws[..i]) + Splice(ws[i]) + Flatten(ws[i + 1..])
  {
    var pre, x, post := ws[..i], ws[i], ws[i + 1..];
    assert ws == (pre + [x]) + post;
    FlattenConcat(pre + [x], post);
    FlattenConcat(pre, [x]);
    FlattenOne(x);
  }

  lemma {:induction false} FlattenOne(w: Waveform)
    ensures Flatten([w]) == Splice(w)
  {
    assert [w][1..] == [];
  }

  /** A sequence with no Append among its elements is left as it is. */
  lemma {:induction false} FlattenFlat(ws: seq<Waveform>)
    requires forall i :: 0 <= i < |ws| ==> !ws[i].Append?
    ensures Flatten(ws) == ws
  {
    if ws != [] {
      FlattenFlat(ws[1..]);
    }
  }

  lemma {:induction false} CanonicalizeAllEach(ws: seq<Waveform>)
    ensures CanonicalizeAll(ws).Success? <==> forall i :: 0 <= i < |ws| ==> Canonicalize(ws[i]).Success?
    ensures CanonicalizeAll(ws).Success? ==>
      forall i :: 0 <= i < |ws| ==> CanonicalizeAll(ws).value[i] == Canonicalize(ws[i]).value
  {
    if ws != [] {
      CanonicalizeAllEach(ws[1..]);
      assert forall i :: 1 <= i < |ws| ==> ws[i] == ws[1..][i - 1];
    }
  }

  /**
   * Canonicalizing an Append flattens one level of nesting and canonicalizes every
   * element of the flattened sequence, in order.
   */
  lemma CanonicalizeAppend(ws: seq<Waveform>)
    ensures Canonicalize(Append(ws)).Success? <==>
      forall i :: 0 <= i < |Flatten(ws)| ==> Canonicalize(Flatten(ws)[i]).Success?
    ensures Canonicalize(Append(ws)).Success? ==>
      var c := Canonicalize(Append(ws)).value;
      c.Append? && |c.waveforms| == |Flatten(ws)| &&
      forall i :: 0 <= i < |Flatten(ws)| ==> c.waveforms[i] == Canonicalize(Flatten(ws)[i]).value
  {
    var flat := Flatten(ws);
    CanonicalizeAllEach(flat);
    CanonicalizeAppendUnfold(ws);
  }

  lemma CanonicalizeAppendUnfold(ws: seq<Waveform>)
    ensures var all := CanonicalizeAll(Flatten(ws));
      Canonicalize(Append(ws)) == if all.Success? then Success(Append(all.value)) else Failure(all.error)
  {
  }

  /**
   * Equal canonical operands fold into `Scale(2, c)`, which means the same as adding
   * `c` to itself: the same value at every time and the same duration.
   */
  lemma CanonicalizeAddEval(l: Waveform, r: Waveform, t: real, env: Env, oracle: Oracle)
    requires Canonicalize(l).Success? && Canonicalize(r).Success?
    requires Canonicalize(l).value == Canonicalize(r).value
    requires Closed(Canonicalize(l).value, env)
    ensures var c := Canonicalize(l).value;
      Canonicalize(Add(l, r)) == Success(Scale(Lit(2.0), c)) &&
      Closed(Scale(Lit(2.0), c), env) && Closed(Add(c, c), env) &&
      Eval(Scale(Lit(2.0), c), t, env, oracle) == Eval(Add(c, c), t, env, oracle)
    ensures var c := Canonicalize(l).value;
      Duration(Scale(Lit(2.0), c)).Success? <==> Duration(Add(c, c)).Success?
    ensures var c := Canonicalize(l).value;
      Duration(c).Success? ==>
        Val(Duration(Scale(Lit(2.0), c)).value, env) == Val(Duration(Add(c, c)).value, env)
  {
  }

  /**
   * Dropping a literal zero-duration operand does not keep the value: `5` for no time
   * plus `1` for 10 is 6 at time 0, its canonical form is 1 there.
   */
  lemma ZeroDurationDropChangesValue(oracle: Oracle)
    ensures var w := Add(Constant(Lit(5.0), Lit(0.0)), Constant(Lit(1.0), Lit(10.0)));
      Closed(w, map[]) &&
      Eval(w, 0.0, map[], oracle) == Success(6.0) &&
      Canonicalize(w) == Success(Constant(Lit(1.0), Lit(10.0))) &&
      Eval(Constant(Lit(1.0), Lit(10.0)), 0.0, map[], oracle) == Success(1.0)
  {
  }

  /* ---------- variables ---------- */

  lemma {:induction false} WaveVarsSeqConcat(a: seq<Waveform>, b: seq<Waveform>)
    ensures WaveVarsSeq(a + b) == WaveVarsSeq(a) + WaveVarsSeq(b)
  {
    if a == [] {
      assert a + b == b;
    } else {
      assert (a + b)[0] == a[0];
      assert (a + b)[1..] == a[1..] + b;
      WaveVarsSeqConcat(a[1..], b);
    }
  }

  lemma {:induction false} FlattenVars(ws: seq<Waveform>)
    ensures WaveVarsSeq(Flatten(ws)) == WaveVarsSeq(ws)
  {
    if ws != [] {
      FlattenVars(ws[1..]);
      WaveVarsSeqConcat(Splice(ws[0]), Flatten(ws[1..]));
      assert [ws[0]][1..] == [];
    }
  }

  /** Canonicalizing never introduces a variable. */
  lemma {:induction false} CanonicalizeVars(w: Waveform)
    requires Canonicalize(w).Success?
    ensures WaveVars(Canonicalize(w).value) <= WaveVars(w)
    decreases Size(w), 0
  {
    match w
    case Append(ws) =>
      FlattenSize(ws);
      FlattenVars(ws);
      CanonicalizeAllVars(Flatten(ws));
    case Add(l, r) =>
      CanonicalizeVars(l);
      CanonicalizeVars(r);
    case _ =>
  }

  lemma {:induction false} CanonicalizeAllVars(ws: seq<Waveform>)
    requires CanonicalizeAll(ws).Success?
    ensures WaveVarsSeq(CanonicalizeAll(ws).value) <= WaveVarsSeq(ws)
    decreases SizeSeq(ws), 1
  {
    if ws != [] {
      CanonicalizeVars(ws[0]);
      CanonicalizeAllVars(ws[1..]);
      var cs := CanonicalizeAll(ws).value;
      assert cs[1..] == CanonicalizeAll(ws[1..]).value;
    }
  }

  /* ---------- durations ---------- */

  /** Every sub-waveform whose duration is defined has a non-negative evaluated duration. */
  predicate NonNeg(w: Waveform, env: Env)
  {
    (Closed(w, env) && Duration(w).Success? ==> Span(w, env) >= 0.0) &&
    match w
    case Append(ws) => NonNegAll(ws, env)
    case Add(l, r) => NonNeg(l, env) && NonNeg(r, env)
    case Negative(x) => NonNeg(x, env)
    case Scale(_, x) => NonNeg(x, env)
    case Record(x, _) => NonNeg(x, env)
    case Slice(x, _) => NonNeg(x, env)
    case Sample(x, _, _) => NonNeg(x, env)
    case Aligned(x, _, _) => NonNeg(x, env)
    case Smooth(_, _, x) => NonNeg(x, env)
    case _ => true
  }

  predicate NonNegAll(ws: seq<Waveform>, env: Env)
  {
    forall i :: 0 <= i < |ws| ==> NonNeg(ws[i], env)
  }

  lemma {:induction false} AllTimedConcat(a: seq<Waveform>, b: seq<Waveform>)
    ensures AllTimed(a + b) <==> AllTimed(a) && AllTimed(b)
  {
    assert forall i :: 0 <= i < |a| ==> (a + b)[i] == a[i];
    assert forall i :: 0 <= i < |b| ==> (a + b)[|a| + i] == b[i];
    if AllTimed(a) && AllTimed(b) {
      forall i | 0 <= i < |a + b|
        ensures Duration((a + b)[i]).Success?
      {
        if i >= |a| {
          assert (a + b)[i] == b[i - |a|];
        }
      }
    }
  }

  lemma {:induction false} TotalSpanConcat(a: seq<Waveform>, b: seq<Waveform>, env: Env)
    requires WaveVarsSeq(a) <= env.Keys && WaveVarsSeq(b) <= env.Keys
    requires AllTimed(a) && AllTimed(b)
    ensures WaveVarsSeq(a + b) <= env.Keys && AllTimed(a + b)
    ensures TotalSpan(a + b, env) == TotalSpan(a, env) + TotalSpan(b, env)
  {
    WaveVarsSeqConcat(a, b);
    AllTimedConcat(a, b);
    if a == [] {
      assert a + b == b;
    } else {
      assert (a + b)[0] == a[0];
      assert (a + b)[1..] == a[1..] + b;
      AllTimedTail(a);
      TotalSpanConcat(a[1..], b, env);
    }
  }

  /** Splicing nested Appends keeps the children's total duration. */
  lemma {:induction false} FlattenSpan(ws: seq<Waveform>, env: Env)
    requires WaveVarsSeq(ws) <= env.Keys
    ensures WaveVarsSeq(Flatten(ws)) <= env.Keys
    ensures AllTimed(Flatten(ws)) <==> AllTimed(ws)
    ensures AllTimed(ws) ==> TotalSpan(Flatten(ws), env) == TotalSpan(ws, env)
  {
    FlattenVars(ws);
    if ws == [] {
    } else {
      var w, rest := ws[0], ws[1..];
      FlattenSpan(rest, env);
      WaveVarsSeqConcat(Splice(w), Flatten(rest));
      AllTimedConcat(Splice(w), Flatten(rest));
      AllTimedConcat([w], rest);
      assert ws == [w] + rest;
      assert [w][1..] == [];
      if w.Append? {
        AppendDuration(w.waveforms, env);
      }
      assert AllTimed(Splice(w)) <==> Duration(w).Success?;
      if AllTimed(ws) {
        AllTimedTail(ws);
        TotalSpanConcat(Splice(w), Flatten(rest), env);
      }
    }
  }

  /**
   * On a waveform whose sub-waveforms all have non-negative durations, canonicalizing
   * keeps the duration: defined exactly when the original's is, and equal to it.
   */
  lemma {:induction false} CanonicalizeDuration(w: Waveform, env: Env)
    requires Closed(w, env) && NonNeg(w, env) && Canonicalize(w).Success?
    ensures Closed(Canonicalize(w).value, env)
    ensures Duration(Canonicalize(w).value).Success? <==> Duration(w).Success?
    ensures Duration(w).Success? ==> Span(Canonicalize(w).value, env) == Span(w, env)
    decreases Size(w), 1
  {
    CanonicalizeVars(w);
    match w
    case Append(ws) => CanonicalizeAppendDuration(ws, env);
    case Add(l, r) =>
      CanonicalizeDuration(l, env);
      CanonicalizeDuration(r, env);
      CanonicalizeAddDuration(l, r, env);
    case _ =>
  }

  lemma {:induction false} CanonicalizeAppendDuration(ws: seq<Waveform>, env: Env)
    requires Closed(Append(ws), env) && NonNeg(Append(ws), env) && Canonicalize(Append(ws)).Success?
    ensures Closed(Canonicalize(Append(ws)).value, env)
    ensures Duration(Canonicalize(Append(ws)).value).Success? <==> Duration(Append(ws)).Success?
    ensures Duration(Append(ws)).Success? ==>
      Span(Canonicalize(Append(ws)).value, env) == Span(Append(ws), env)
    decreases Size(Append(ws)), 0
  {
    FlattenSize(ws);
    var flat := Flatten(ws);
    var cs := CanonicalizeAll(flat).value;
    assert Canonicalize(Append(ws)).value == Append(cs);
    FlattenSpan(ws, env);
    FlattenNonNeg(ws, env);
    CanonicalizeAllDuration(flat, env);
    AppendDuration(ws, env);
    AppendDuration(cs, env);
  }

  /** The Add case, given that canonicalizing each operand keeps its duration. */
  lemma CanonicalizeAddDuration(l: Waveform, r: Waveform, env: Env)
    requires Closed(Add(l, r), env) && NonNeg(Add(l, r), env) && Canonicalize(Add(l, r)).Success?
    requires Closed(Canonicalize(l).value, env) && Closed(Canonicalize(r).value, env)
    requires Duration(Canonicalize(l).value).Success? <==> Duration(l).Success?
    requires Duration(l).Success? ==> Span(Canonicalize(l).value, env) == Span(l, env)
    requires Duration(Canonicalize(r).value).Success? <==> Duration(r).Success?
    requires Duration(r).Success? ==> Span(Canonicalize(r).value, env) == Span(r, env)
    ensures Closed(Canonicalize(Add(l, r)).value, env)
    ensures Duration(Canonicalize(Add(l, r)).value).Success? <==> Duration(Add(l, r)).Success?
    ensures Duration(Add(l, r)).Success? ==>
      Span(Canonicalize(Add(l, r)).value, env) == Span(Add(l, r), env)
  {
    var cl, cr := Canonicalize(l).value, Canonicalize(r).value;
    var c := Canonicalize(Add(l, r)).value;
    AddSpan(l, r, env);
    if cl == cr {
      assert c == Scale(Lit(2.0), cl);
      assert Duration(c) == Duration(cl);
    } else if Duration(cl) == Success(Lit(0.0)) {
      assert c == cr;
    } else {
      assert Duration(cl).Success?;
      if Duration(cr) == Success(Lit(0.0)) {
        assert c == cl;
      } else {
        assert c == Add(l, r);
      }
    }
  }

  /** An Add lasts as long as the longer of its operands. */
  lemma AddSpan(l: Waveform, r: Waveform, env: Env)
    requires Closed(Add(l, r), env)
    ensures Duration(Add(l, r)).Success? <==> Duration(l).Success? && Duration(r).Success?
    ensures Duration(Add(l, r)).Success? ==>
      Span(Add(l, r), env) == RealMax(Span(l, env), Span(r, env))
  {
  }

  lemma {:induction false} CanonicalizeAllDuration(ws: seq<Waveform>, env: Env)
    requires WaveVarsSeq(ws) <= env.Keys && NonNegAll(ws, env) && CanonicalizeAll(ws).Success?
    ensures WaveVarsSeq(CanonicalizeAll(ws).value) <= env.Keys
    ensures AllTimed(CanonicalizeAll(ws).value) <==> AllTimed(ws)
    ensures AllTimed(ws) ==> TotalSpan(CanonicalizeAll(ws).value, env) == TotalSpan(ws, env)
    decreases SizeSeq(ws), 2
  {
    CanonicalizeAllVars(ws);
    if ws != [] {
      var cs := CanonicalizeAll(ws).value;
      var rest := ws[1..];
      assert NonNegAll(rest, env) by {
        assert forall i :: 0 <= i < |rest| ==> rest[i] == ws[i + 1];
      }
      assert NonNeg(ws[0], env);
      CanonicalizeDuration(ws[0], env);
      CanonicalizeAllDuration(rest, env);
      assert cs == [cs[0]] + cs[1..];
      assert cs[1..] == CanonicalizeAll(rest).value;
      assert cs[0] == Canonicalize(ws[0]).value;
      AllTimedConcat([cs[0]], cs[1..]);
      AllTimedConcat([ws[0]], rest);
      assert ws == [ws[0]] + rest;
    }
  }

  lemma {:induction false} FlattenNonNeg(ws: seq<Waveform>, env: Env)
    requires NonNegAll(ws, env)
    ensures NonNegAll(Flatten(ws), env)
  {
    if ws != [] {
      FlattenNonNeg(ws[1..], env) by {
        assert forall i :: 0 <= i < |ws[1..]| ==> ws[1..][i] == ws[i + 1];
      }
      var a, b := Splice(ws[0]), Flatten(ws[1..]);
      assert NonNeg(ws[0], env);
      assert NonNegAll(a, env);
      forall i | 0 <= i < |a + b|
        ensures NonNeg((a + b)[i], env)
      {
        if i >= |a| {
          assert (a + b)[i] == b[i - |a|];
        }
      }
    }
  }
}

=== FILE: circuit_props.dfy ===
/**
 * What `IsConstantAnalogCircuit.emit` computes, against independent definitions:
 * the verdict over the circuit's waveforms taken in dictionary order, and the
 * rebuilt circuit with every waveform replaced by its folded Constant.
 */
module CircuitProps {
  import opened Wrappers
  import opened Scalars
  import opened Waveforms
  import opened OrderedMaps
  import opened Ir
  import opened IsConstant

  /* ---------- the waveforms in visiting order ---------- */

  function DriveWaves(drives: seq<(Spatial, Waveform)>): (ws: seq<Waveform>)
    ensures |ws| == |drives|
    ensures forall k :: 0 <= k < |drives| ==> ws[k] == drives[k].1
  {
    if drives == [] then [] else [drives[0].1] + DriveWaves(drives[1..])
  }

  function FieldWaves(fields: seq<(FieldName, Field)>): seq<Waveform>
  {
    if fields == [] then [] else DriveWaves(fields[0].1.drives) + FieldWaves(fields[1..])
  }

  /** Every waveform of the sequence: pulses, then fields, then drives, each in order. */
  function PulseWaves(pulses: seq<(Coupling, Pulse)>): seq<Waveform>
  {
    if pulses == [] then [] else FieldWaves(pulses[0].1.fields) + PulseWaves(pulses[1..])
  }

  lemma {:induction false} AllClosedConcat(a: seq<Waveform>, b: seq<Waveform>, env: Env)
    requires AllClosed(a, env) && AllClosed(b, env)
    ensures AllClosed(a + b, env)
  {
    assert forall i :: |a| <= i < |a + b| ==> (a + b)[i] == b[i - |a|];
  }

  lemma {:induction false} FieldWavesClosed(fields: seq<(FieldName, Field)>, env: Env)
    requires FieldsClosed(fields, env)
    ensures AllClosed(FieldWaves(fields), env)
  {
    if fields != [] {
      assert forall j :: 1 <= j < |fields| ==> fields[j] == fields[1..][j - 1];
      FieldWavesClosed(fields[1..], env);
      AllClosedConcat(DriveWaves(fields[0].1.drives), FieldWaves(fields[1..]), env);
    }
  }

  lemma {:induction false} PulseWavesClosed(pulses: seq<(Coupling, Pulse)>, env: Env)
    requires PulsesClosed(pulses, env)
    ensures AllClosed(PulseWaves(pulses), env)
  {
    if pulses != [] {
      assert forall i :: 1 <= i < |pulses| ==> pulses[i] == pulses[1..][i - 1];
      PulseWavesClosed(pulses[1..], env);
      FieldWavesClosed(pulses[0].1.fields, env);
      AllClosedConcat(FieldWaves(pulses[0].1.fields), PulseWaves(pulses[1..]), env);
    }
  }

  /* ---------- the verdict as a flat fold ---------- */

  /** `visit_waveform` applied to each waveform in turn, stopping at the first error. */
  function FoldAcc(acc: Acc, ws: seq<Waveform>, env: Env, oracle: Oracle): Result<Acc, WaveError>
    requires AllClosed(ws, env)
    decreases |ws|
  {
    if ws == [] then Success(acc)
    else
      assert forall i :: 1 <= i < |ws| ==> ws[i] == ws[1..][i - 1];
      var r :- Emit(ws[0], env, oracle);
      FoldAcc(Step(acc, r), ws[1..], env, oracle)
  }

  lemma {:induction false} FoldAccConcat(acc: Acc, a: seq<Waveform>, b: seq<Waveform>, env: Env, oracle: Oracle)
    requires AllClosed(a, env) && AllClosed(b, env)
    ensures AllClosed(a + b, env)
    ensures FoldAcc(acc, a + b, env, oracle) ==
      if FoldAcc(acc, a, env, oracle).Success? then FoldAcc(FoldAcc(acc, a, env, oracle).value, b, env, oracle)
      else FoldAcc(acc, a, env, oracle)
    decreases |a|
  {
    AllClosedConcat(a, b, env);
    if a != [] {
      assert (a + b)[0] == a[0];
      assert (a + b)[1..] == a[1..] + b;
      assert forall i :: 1 <= i < |a| ==> a[i] == a[1..][i - 1];
      if Emit(a[0], env, oracle).Success? {
        var acc' := Step(acc, Emit(a[0], env, oracle).value);
        assert FoldAcc(acc, a + b, env, oracle) == FoldAcc(acc', a[1..] + b, env, oracle);
        assert FoldAcc(acc, a, env, oracle) == FoldAcc(acc', a[1..], env, oracle);
        FoldAccConcat(acc', a[1..], b, env, oracle);
      } else {
        assert FoldAcc(acc, a + b, env, oracle) == Failure(Emit(a[0], env, oracle).error);
        assert FoldAcc(acc, a, env, oracle) == Failure(Emit(a[0], env, oracle).error);
      }
    } else {
      assert a + b == b;
    }
  }

  lemma {:induction false} VisitFieldFold(acc: Acc, drives: seq<(Spatial, Waveform)>, built: Field, env: Env, oracle: Oracle)
    requires DrivesClosed(drives, env)
    ensures AllClosed(DriveWaves(drives), env)
    ensures VisitField(acc, drives, built, env, oracle).Success? <==>
            FoldAcc(acc, DriveWaves(drives), env, oracle).Success?
    ensures VisitField(acc, drives, built, env, oracle).Success? ==>
            VisitField(acc, drives, built, env, oracle).value.0 == FoldAcc(acc, DriveWaves(drives), env, oracle).value
    decreases |drives|
  {
    if drives != [] {
      var (sm, w) := drives[0];
      assert DriveWaves(drives)[0] == w;
      assert DriveWaves(drives)[1..] == DriveWaves(drives[1..]);
      if Emit(w, env, oracle).Success? {
        var r := Emit(w, env, oracle).value;
        VisitFieldFold(Step(acc, r), drives[1..], FieldAdd(built, Field([(sm, r.Folded())])), env, oracle);
      }
    }
  }

  lemma {:induction false} VisitPulseFold(acc: Acc, fields: seq<(FieldName, Field)>, built: seq<(FieldName, Field)>,
                                          env: Env, oracle: Oracle)
    requires FieldsClosed(fields, env)
    ensures AllClosed(FieldWaves(fields), env)
    ensures VisitPulse(acc, fields, built, env, oracle).Success? <==>
            FoldAcc(acc, FieldWaves(fields), env, oracle).Success?
    ensures VisitPulse(acc, fields, built, env, oracle).Success? ==>
            VisitPulse(acc, fields, built, env, oracle).value.0 == FoldAcc(acc, FieldWaves(fields), env, oracle).value
    decreases |fields|
  {
    FieldWavesClosed(fields, env);
    if fields != [] {
      var (name, f) := fields[0];
      assert forall j :: 1 <= j < |fields| ==> fields[j] == fields[1..][j - 1];
      FieldWavesClosed(fields[1..], env);
      VisitFieldFold(acc, f.drives, Field([]), env, oracle);
      FoldAccConcat(acc, DriveWaves(f.drives), FieldWaves(fields[1..]), env, oracle);
      var v := VisitField(acc, f.drives, Field([]), env, oracle);
      if v.Success? {
        VisitPulseFold(v.value.0, fields[1..], Put(built, name, v.value.1), env, oracle);
      }
    }
  }

  lemma {:induction false} VisitSequenceFold(acc: Acc, pulses: seq<(Coupling, Pulse)>, built: seq<(Coupling, Pulse)>,
                                             env: Env, oracle: Oracle)
    requires PulsesClosed(pulses, env)
    ensures AllClosed(PulseWaves(pulses), env)
    ensures VisitSequence(acc, pulses, built, env, oracle).Success? <==>
            FoldAcc(acc, PulseWaves(pulses), env, oracle).Success?
    ensures VisitSequence(acc, pulses, built, env, oracle).Success? ==>
            VisitSequence(acc, pulses, built, env, oracle).value.0 == FoldAcc(acc, PulseWaves(pulses), env, oracle).value
    decreases |pulses|
  {
    PulseWavesClosed(pulses, env);
    if pulses != [] {
      var (c, p) := pulses[0];
      assert forall i :: 1 <= i < |pulses| ==> pulses[i] == pulses[1..][i - 1];
      PulseWavesClosed(pulses[1..], env);
      VisitPulseFold(acc, p.fields, [], env, oracle);
      FoldAccConcat(acc, FieldWaves(p.fields), PulseWaves(pulses[1..]), env, oracle);
      var v := VisitPulse(acc, p.fields, [], env, oracle);
      if v.Success? {
        VisitSequenceFold(v.value.0, pulses[1..], Put(built, c, Pulse(v.value.1)), env, oracle);
      }
    }
  }

  /* ---------- the verdict ---------- */

  predicate AllEmit(ws: seq<Waveform>, env: Env, oracle: Oracle)
    requires AllClosed(ws, env)
  {
    forall i :: 0 <= i < |ws| ==> Emit(ws[i], env, oracle).Success?
  }

  /** Every waveform folds as constant and lasts exactly `d`. */
  predicate Alike(ws: seq<Waveform>, d: real, env: Env, oracle: Oracle)
    requires AllClosed(ws, env) && AllEmit(ws, env, oracle)
  {
    forall i :: 0 <= i < |ws| ==>
      Emit(ws[i], env, oracle).value.isConstant && Emit(ws[i], env, oracle).value.duration == d
  }

  lemma {:induction false} FoldAccFixed(c: bool, d: real, ws: seq<Waveform>, env: Env, oracle: Oracle)
    requires AllClosed(ws, env)
    ensures FoldAcc(Acc(c, Some(d)), ws, env, oracle).Success? <==> AllEmit(ws, env, oracle)
    ensures AllEmit(ws, env, oracle) ==>
      FoldAcc(Acc(c, Some(d)), ws, env, oracle) == Success(Acc(c && Alike(ws, d, env, oracle), Some(d)))
  {
    if ws != [] {
      var rest := ws[1..];
      assert forall i :: 1 <= i < |ws| ==> ws[i] == rest[i - 1];
      if Emit(ws[0], env, oracle).Success? {
        var r := Emit(ws[0], env, oracle).value;
        var c' := c && r.isConstant && r.duration == d;
        FoldAccFixed(c', d, rest, env, oracle);
        assert AllEmit(ws, env, oracle) <==> AllEmit(rest, env, oracle);
        if AllEmit(ws, env, oracle) {
          assert Alike(ws, d, env, oracle) <==> r.isConstant && r.duration == d && Alike(rest, d, env, oracle);
        }
      }
    }
  }

  /** From a fresh state the first waveform fixes the duration the rest must match. */
  lemma FoldAccFresh(ws: seq<Waveform>, env: Env, oracle: Oracle)
    requires AllClosed(ws, env)
    ensures FoldAcc(Acc(true, None), ws, env, oracle).Success? <==> AllEmit(ws, env, oracle)
    ensures AllEmit(ws, env, oracle) ==>
      (FoldAcc(Acc(true, None), ws, env, oracle).value.isConstant <==>
       ws == [] || Alike(ws, Emit(ws[0], env, oracle).value.duration, env, oracle))
  {
    if ws != [] && Emit(ws[0], env, oracle).Success? {
      var r := Emit(ws[0], env, oracle).value;
      var rest := ws[1..];
      assert forall i :: 1 <= i < |ws| ==> ws[i] == rest[i - 1];
      assert FoldAcc(Acc(true, None), ws, env, oracle) == FoldAcc(Acc(r.isConstant, Some(r.duration)), rest, env, oracle);
      FoldAccFixed(r.isConstant, r.duration, rest, env, oracle);
      assert AllEmit(ws, env, oracle) <==> AllEmit(rest, env, oracle);
      if AllEmit(ws, env, oracle) {
        assert Alike(ws, r.duration, env, oracle) <==> r.isConstant && Alike(rest, r.duration, env, oracle);
      }
    }
  }

  /**
   * The circuit analysis succeeds exactly when every waveform folds, and its verdict
   * is true exactly when every waveform is constant and lasts as long as the first.
   */
  lemma CircuitVerdict(c: AnalogCircuit, env: Env, oracle: Oracle)
    requires PulsesClosed(c.sequence.pulses, env)
    ensures AllClosed(PulseWaves(c.sequence.pulses), env)
    ensures EmitCircuit(c, env, oracle).Success? <==> AllEmit(PulseWaves(c.sequence.pulses), env, oracle)
    ensures EmitCircuit(c, env, oracle).Success? ==>
      var ws := PulseWaves(c.sequence.pulses);
      (EmitCircuit(c, env, oracle).value.isConstant <==>
       ws == [] || Alike(ws, Emit(ws[0], env, oracle).value.duration, env, oracle))
  {
    VisitSequenceFold(Acc(true, None), c.sequence.pulses, [], env, oracle);
    FoldAccFresh(PulseWaves(c.sequence.pulses), env, oracle);
  }
}

=== FILE: circuit_rebuild.dfy ===
/**
 * The circuit `IsConstantAnalogCircuit.emit` rebuilds is the reference fold of
 * its sequence: same register, same keys in the same order, folded waveforms.
 */
module CircuitRebuild {
  import opened Wrappers
  import opened Scalars
  import opened Waveforms
  import opened OrderedMaps
  import opened Ir
  import opened IsConstant
  import opened FoldedCircuit

  lemma ConcatAssoc<T>(a: seq<T>, b: seq<T>, c: seq<T>)
    ensures (a + b) + c == a + (b + c)
  {
  }

  lemma {:induction false} VisitFieldShape(acc: Acc, drives: seq<(Spatial, Waveform)>, built: Field, env: Env, oracle: Oracle)
    requires DrivesClosed(drives, env) && Unique(drives)
    requires forall k :: 0 <= k < |drives| ==> drives[k].0 !in Keys(built.drives)
    requires VisitField(acc, drives, built, env, oracle).Success?
    ensures FoldDrives(drives, env, oracle).Success?
    ensures VisitField(acc, drives, built, env, oracle).value.1.drives == built.drives + FoldDrives(drives, env, oracle).value
    decreases |drives|
  {
    if drives != [] {
      var sm := drives[0].0;
      var r := Emit(drives[0].1, env, oracle).value;
      var rest := drives[1..];
      UniqueTail(drives);
      VisitFieldUnfold(acc, drives, built, env, oracle);
      FreshAfter(rest, built.drives, sm, r.Folded());
      var built' := Field(built.drives + [(sm, r.Folded())]);
      VisitFieldShape(Step(acc, r), rest, built', env, oracle);
      FoldDrivesUnfold(drives, env, oracle);
      var o := VisitField(acc, drives, built, env, oracle).value.1;
      assert o == VisitField(Step(acc, r), rest, built', env, oracle).value.1;
      ConcatAssoc(built.drives, [(sm, r.Folded())], FoldDrives(rest, env, oracle).value);
    }
  }

  lemma {:induction false} VisitPulseShape(acc: Acc, fields: seq<(FieldName, Field)>, built: seq<(FieldName, Field)>,
                                           env: Env, oracle: Oracle)
    requires FieldsClosed(fields, env) && FieldsUnique(fields)
    requires forall j :: 0 <= j < |fields| ==> fields[j].0 !in Keys(built)
    requires VisitPulse(acc, fields, built, env, oracle).Success?
    ensures FoldFields(fields, env, oracle).Success?
    ensures VisitPulse(acc, fields, built, env, oracle).value.1 == built + FoldFields(fields, env, oracle).value
    decreases |fields|
  {
    if fields != [] {
      var name := fields[0].0;
      var f := fields[0].1;
      var rest := fields[1..];
      UniqueTail(fields);
      assert FieldsUnique(rest) by {
        assert forall j :: 0 <= j < |rest| ==> rest[j] == fields[j + 1];
      }
      var v := VisitField(acc, f.drives, Field([]), env, oracle).value;
      VisitFieldShape(acc, f.drives, Field([]), env, oracle);
      assert v.1.drives == FoldDrives(f.drives, env, oracle).value;
      VisitPulseUnfold(acc, fields, built, env, oracle);
      FreshAfter(rest, built, name, v.1);
      var built' := built + [(name, v.1)];
      VisitPulseShape(v.0, rest, built', env, oracle);
      FoldFieldsUnfold(fields, env, oracle);
      var o := VisitPulse(acc, fields, built, env, oracle).value.1;
      assert o == VisitPulse(v.0, rest, built', env, oracle).value.1;
      ConcatAssoc(built, [(name, v.1)], FoldFields(rest, env, oracle).value);
    }
  }

  lemma {:induction false} VisitSequenceShape(acc: Acc, pulses: seq<(Coupling, Pulse)>, built: seq<(Coupling, Pulse)>,
                                              env: Env, oracle: Oracle)
    requires PulsesClosed(pulses, env) && PulsesUnique(pulses)
    requires forall i :: 0 <= i < |pulses| ==> pulses[i].0 !in Keys(built)
    requires VisitSequence(acc, pulses, built, env, oracle).Success?
    ensures FoldPulses(pulses, env, oracle).Success?
    ensures VisitSequence(acc, pulses, built, env, oracle).value.1 == built + FoldPulses(pulses, env, oracle).value
    decreases |pulses|
  {
    if pulses != [] {
      var c := pulses[0].0;
      var p := pulses[0].1;
      var rest := pulses[1..];
      UniqueTail(pulses);
      assert PulsesUnique(rest) by {
        assert forall i :: 0 <= i < |rest| ==> rest[i] == pulses[i + 1];
      }
      var v := VisitPulse(acc, p.fields, [], env, oracle).value;
      VisitPulseShape(acc, p.fields, [], env, oracle);
      assert v.1 == FoldFields(p.fields, env, oracle).value;
      VisitSequenceUnfold(acc, pulses, built, env, oracle);
      FreshAfter(rest, built, c, Pulse(v.1));
      var built' := built + [(c, Pulse(v.1))];
      VisitSequenceShape(v.0, rest, built', env, oracle);
      FoldPulsesUnfold(pulses, env, oracle);
      var o := VisitSequence(acc, pulses, built, env, oracle).value.1;
      assert o == VisitSequence(v.0, rest, built', env, oracle).value.1;
      ConcatAssoc(built, [(c, Pulse(v.1))], FoldPulses(rest, env, oracle).value);
    }
  }

  /**
   * The rebuilt circuit keeps the register and every coupling, field name and spatial
   * key in order, with each waveform replaced by its folded Constant.
   */
  lemma CircuitShape(c: AnalogCircuit, env: Env, oracle: Oracle)
    requires PulsesClosed(c.sequence.pulses, env) && PulsesUnique(c.sequence.pulses)
    requires EmitCircuit(c, env, oracle).Success?
    ensures EmitCircuit(c, env, oracle).value.circuit.register == c.register
    ensures PulsesFolded(EmitCircuit(c, env, oracle).value.circuit.sequence.pulses, c.sequence.pulses, env, oracle)
  {
    VisitSequenceShape(Acc(true, None), c.sequence.pulses, [], env, oracle);
    FoldPulsesFolded(c.sequence.pulses, env, oracle);
    assert [] + FoldPulses(c.sequence.pulses, env, oracle).value == FoldPulses(c.sequence.pulses, env, oracle).value;
  }
}

=== FILE: circuit_shape.dfy ===
/**
 * A reference for the circuit `IsConstantAnalogCircuit.emit` rebuilds: every
 * waveform replaced by its folded Constant, every key kept in place.
 */
module FoldedCircuit {
  import opened Wrappers
  import opened Scalars
  import opened Waveforms
  import opened OrderedMaps
  import opened Ir
  import opened IsConstant

  /* ---------- the rebuilt circuit ---------- */

  /** Same keys in the same order, each waveform replaced by its folded Constant. */
  predicate DrivesFolded(out: seq<(Spatial, Waveform)>, inp: seq<(Spatial, Waveform)>, env: Env, oracle: Oracle)
    requires DrivesClosed(inp, env)
  {
    |out| == |inp| &&
    forall k :: 0 <= k < |inp| ==>
      out[k].0 == inp[k].0 && Emit(inp[k].1, env, oracle).Success? &&
      out[k].1 == Emit(inp[k].1, env, oracle).value.Folded()
  }

  predicate FieldsFolded(out: seq<(FieldName, Field)>, inp: seq<(FieldName, Field)>, env: Env, oracle: Oracle)
    requires FieldsClosed(inp, env)
  {
    |out| == |inp| &&
    forall j :: 0 <= j < |inp| ==> out[j].0 == inp[j].0 && DrivesFolded(out[j].1.drives, inp[j].1.drives, env, oracle)
  }

  predicate PulsesFolded(out: seq<(Coupling, Pulse)>, inp: seq<(Coupling, Pulse)>, env: Env, oracle: Oracle)
    requires PulsesClosed(inp, env)
  {
    |out| == |inp| &&
    forall i :: 0 <= i < |inp| ==> out[i].0 == inp[i].0 && FieldsFolded(out[i].1.fields, inp[i].1.fields, env, oracle)
  }

  /** Every dictionary of the sequence has distinct keys, as Python dicts do. */
  predicate FieldsUnique(fields: seq<(FieldName, Field)>)
  {
    Unique(fields) && forall j :: 0 <= j < |fields| ==> Unique(fields[j].1.drives)
  }

  predicate PulsesUnique(pulses: seq<(Coupling, Pulse)>)
  {
    Unique(pulses) && forall i :: 0 <= i < |pulses| ==> FieldsUnique(pulses[i].1.fields)
  }

  /** Adding a drive under a key the field lacks appends it. */
  lemma FieldAddFresh(f: Field, k: Spatial, w: Waveform)
    requires k !in Keys(f.drives)
    ensures FieldAdd(f, Field([(k, w)])) == Field(f.drives + [(k, w)])
  {
    PutAppends(f.drives, k, w);
  }

  /** Reference: each drive's waveform replaced by its folded Constant. */
  function FoldDrives(drives: seq<(Spatial, Waveform)>, env: Env, oracle: Oracle)
    : Result<seq<(Spatial, Waveform)>, WaveError>
    requires DrivesClosed(drives, env)
    decreases |drives|
  {
    if drives == [] then Success([])
    else
      var r :- Emit(drives[0].1, env, oracle);
      var rest :- FoldDrives(drives[1..], env, oracle);
      Success([(drives[0].0, r.Folded())] + rest)
  }

  function FoldFields(fields: seq<(FieldName, Field)>, env: Env, oracle: Oracle)
    : Result<seq<(FieldName, Field)>, WaveError>
    requires FieldsClosed(fields, env)
    decreases |fields|
  {
    if fields == [] then Success([])
    else
      var f :- FoldDrives(fields[0].1.drives, env, oracle);
      var rest :- FoldFields(fields[1..], env, oracle);
      Success([(fields[0].0, Field(f))] + rest)
  }

  function FoldPulses(pulses: seq<(Coupling, Pulse)>, env: Env, oracle: Oracle)
    : Result<seq<(Coupling, Pulse)>, WaveError>
    requires PulsesClosed(pulses, env)
    decreases |pulses|
  {
    if pulses == [] then Success([])
    else
      var p :- FoldFields(pulses[0].1.fields, env, oracle);
      var rest :- FoldPulses(pulses[1..], env, oracle);
      Success([(pulses[0].0, Pulse(p))] + rest)
  }

  lemma {:induction false} UniqueTail<K, V>(m: seq<(K, V)>)
    requires m != [] && Unique(m)
    ensures Unique(m[1..])
    ensures forall i :: 0 <= i < |m[1..]| ==> m[1..][i].0 != m[0].0
  {
    assert forall i :: 0 <= i < |m[1..]| ==> m[1..][i] == m[i + 1];
  }

  lemma FoldDrivesUnfold(drives: seq<(Spatial, Waveform)>, env: Env, oracle: Oracle)
    requires DrivesClosed(drives, env) && drives != [] && Emit(drives[0].1, env, oracle).Success?
    requires FoldDrives(drives[1..], env, oracle).Success?
    ensures FoldDrives(drives, env, oracle) ==
      Success([(drives[0].0, Emit(drives[0].1, env, oracle).value.Folded())] + FoldDrives(drives[1..], env, oracle).value)
  {
  }

  lemma FoldFieldsUnfold(fields: seq<(FieldName, Field)>, env: Env, oracle: Oracle)
    requires FieldsClosed(fields, env) && fields != [] && FoldDrives(fields[0].1.drives, env, oracle).Success?
    requires FoldFields(fields[1..], env, oracle).Success?
    ensures FoldFields(fields, env, oracle) ==
      Success([(fields[0].0, Field(FoldDrives(fields[0].1.drives, env, oracle).value))] + FoldFields(fields[1..], env, oracle).value)
  {
  }

  lemma FoldPulsesUnfold(pulses: seq<(Coupling, Pulse)>, env: Env, oracle: Oracle)
    requires PulsesClosed(pulses, env) && pulses != [] && FoldFields(pulses[0].1.fields, env, oracle).Success?
    requires FoldPulses(pulses[1..], env, oracle).Success?
    ensures FoldPulses(pulses, env, oracle) ==
      Success([(pulses[0].0, Pulse(FoldFields(pulses[0].1.fields, env, oracle).value))] + FoldPulses(pulses[1..], env, oracle).value)
  {
  }

  lemma VisitFieldUnfold(acc: Acc, drives: seq<(Spatial, Waveform)>, built: Field, env: Env, oracle: Oracle)
    requires DrivesClosed(drives, env) && drives != [] && Emit(drives[0].1, env, oracle).Success?
    requires drives[0].0 !in Keys(built.drives)
    ensures VisitField(acc, drives, built, env, oracle) ==
      VisitField(Step(acc, Emit(drives[0].1, env, oracle).value), drives[1..],
                 Field(built.drives + [(drives[0].0, Emit(drives[0].1, env, oracle).value.Folded())]), env, oracle)
  {
    FieldAddFresh(built, drives[0].0, Emit(drives[0].1, env, oracle).value.Folded());
  }

  lemma VisitPulseUnfold(acc: Acc, fields: seq<(FieldName, Field)>, built: seq<(FieldName, Field)>, env: Env, oracle: Oracle)
    requires FieldsClosed(fields, env) && fields != []
    requires VisitField(acc, fields[0].1.drives, Field([]), env, oracle).Success?
    requires fields[0].0 !in Keys(built)
    ensures
      var v := VisitField(acc, fields[0].1.drives, Field([]), env, oracle).value;
      VisitPulse(acc, fields, built, env, oracle) == VisitPulse(v.0, fields[1..], built + [(fields[0].0, v.1)], env, oracle)
  {
    var v := VisitField(acc, fields[0].1.drives, Field([]), env, oracle).value;
    PutAppends(built, fields[0].0, v.1);
  }

  lemma VisitSequenceUnfold(acc: Acc, pulses: seq<(Coupling, Pulse)>, built: seq<(Coupling, Pulse)>, env: Env, oracle: Oracle)
    requires PulsesClosed(pulses, env) && pulses != []
    requires VisitPulse(acc, pulses[0].1.fields, [], env, oracle).Success?
    requires pulses[0].0 !in Keys(built)
    ensures
      var v := VisitPulse(acc, pulses[0].1.fields, [], env, oracle).value;
      VisitSequence(acc, pulses, built, env, oracle) ==
      VisitSequence(v.0, pulses[1..], built + [(pulses[0].0, Pulse(v.1))], env, oracle)
  {
    var v := VisitPulse(acc, pulses[0].1.fields, [], env, oracle).value;
    PutAppends(built, pulses[0].0, Pulse(v.1));
  }

  /** After appending `k`, the keys still to come are still absent. */
  lemma {:induction false} FreshAfter<K, V, W>(rest: seq<(K, W)>, built: seq<(K, V)>, k: K, v: V)
    requires forall i :: 0 <= i < |rest| ==> rest[i].0 !in Keys(built) && rest[i].0 != k
    ensures forall i :: 0 <= i < |rest| ==> rest[i].0 !in Keys(built + [(k, v)])
  {
    var b := built + [(k, v)];
    assert Keys(b) == Keys(built) + [k] by {
      assert forall i :: 0 <= i < |built| ==> Keys(b)[i] == built[i].0;
    }
  }

  lemma {:induction false} FoldDrivesFolded(drives: seq<(Spatial, Waveform)>, env: Env, oracle: Oracle)
    requires DrivesClosed(drives, env) && FoldDrives(drives, env, oracle).Success?
    ensures DrivesFolded(FoldDrives(drives, env, oracle).value, drives, env, oracle)
    decreases |drives|
  {
    if drives != [] {
      var rest := drives[1..];
      assert forall k :: 0 <= k < |rest| ==> rest[k] == drives[k + 1];
      FoldDrivesFolded(rest, env, oracle);
      var out, tail := FoldDrives(drives, env, oracle).value, FoldDrives(rest, env, oracle).value;
      assert out == [(drives[0].0, Emit(drives[0].1, env, oracle).value.Folded())] + tail;
      forall k | 1 <= k < |drives|
        ensures out[k].0 == drives[k].0 && Emit(drives[k].1, env, oracle).Success?
        ensures out[k].1 == Emit(drives[k].1, env, oracle).value.Folded()
      {
        assert out[k] == tail[k - 1] && drives[k] == rest[k - 1];
      }
    }
  }

  lemma {:induction false} FoldFieldsFolded(fields: seq<(FieldName, Field)>, env: Env, oracle: Oracle)
    requires FieldsClosed(fields, env) && FoldFields(fields, env, oracle).Success?
    ensures FieldsFolded(FoldFields(fields, env, oracle).value, fields, env, oracle)
    decreases |fields|
  {
    if fields != [] {
      var rest := fields[1..];
      assert forall j :: 0 <= j < |rest| ==> rest[j] == fields[j + 1];
      FoldDrivesFolded(fields[0].1.drives, env, oracle);
      FoldFieldsFolded(rest, env, oracle);
    }
  }

  lemma {:induction false} FoldPulsesFolded(pulses: seq<(Coupling, Pulse)>, env: Env, oracle: Oracle)
    requires PulsesClosed(pulses, env) && FoldPulses(pulses, env, oracle).Success?
    ensures PulsesFolded(FoldPulses(pulses, env, oracle).value, pulses, env, oracle)
    decreases |pulses|
  {
    if pulses != [] {
      var rest := pulses[1..];
      assert forall i :: 0 <= i < |rest| ==> rest[i] == pulses[i + 1];
      FoldFieldsFolded(pulses[0].1.fields, env, oracle);
      FoldPulsesFolded(rest, env, oracle);
    }
  }
}

=== FILE: ir.dfy ===
/**
 * The program IR above waveforms: a Field maps spatial modulations to waveforms, a
 * Pulse maps field names to Fields, a Sequence maps couplings to Pulses, and an
 * AnalogCircuit pairs a register with a Sequence. Each mapping is an
 * insertion-ordered dictionary.
 */
module Ir {
  import opened Wrappers
  import opened Scalars
  import opened Waveforms
  import opened OrderedMaps

  /** The level coupling a pulse drives (`ir.rydberg`, `ir.hyperfine`). */
  datatype Coupling = Rydberg | Hyperfine

  /** The driven quantity (`ir.detuning`, `ir.rabi.amplitude`, `ir.rabi.phase`). */
  datatype FieldName = Detuning | RabiAmplitude | RabiPhase

  /** The lowered spatial modulation that keys a drive. */
  datatype Spatial =
    | UniformModulation
    | ScaledLocations(sites: seq<(nat, Scalar)>)
    | RunTimeVector(name: string)

  datatype Field = Field(drives: seq<(Spatial, Waveform)>)
  datatype Pulse = Pulse(fields: seq<(FieldName, Field)>)
  datatype Sequence = Sequence(pulses: seq<(Coupling, Pulse)>)

  /** An atom arrangement, or one tiled across the array with a cluster spacing. */
  datatype Register = Arrangement(name: string) | ParallelRegister(base: Register, spacing: Scalar)

  datatype AnalogCircuit = AnalogCircuit(register: Register, sequence: Sequence)

  /** Parameter assignments: variable name to value. */
  type ParamMap = map<string, real>

  datatype Params = Params(staticParams: ParamMap, batchParams: seq<ParamMap>, argsList: seq<string>)

  /** The circuit and its parameters; the originating builder is not kept. */
  datatype Routine = Routine(circuit: AnalogCircuit, params: Params)

  /**
   * `Field.add`: every drive of `other` is merged in, in order; a spatial key already
   * present gets the `Add` of the two waveforms, a new key is appended.
   */
  function FieldAdd(f: Field, other: Field): Field
    decreases |other.drives|
  {
    if other.drives == [] then f
    else
      var (k, w) := other.drives[0];
      var prev := Get(f.drives, k);
      var g := Field(Put(f.drives, k, if prev.Some? then Add(prev.value, w) else w));
      FieldAdd(g, Field(other.drives[1..]))
  }

  /**
   * After `Field.add`, each spatial key holds the sum of the two sides' waveforms when
   * both have one and otherwise whichever side has it; no drive is overwritten.
   */
  lemma {:induction false} FieldAddMerges(f: Field, other: Field, k: Spatial)
    requires Unique(other.drives)
    ensures Get(FieldAdd(f, other).drives, k) == MergedDrive(Get(f.drives, k), Get(other.drives, k))
    decreases |other.drives|
  {
    if other.drives != [] {
      var (k0, w) := other.drives[0];
      var rest := Field(other.drives[1..]);
      assert Keys(other.drives) == [k0] + Keys(rest.drives);
      assert Unique(rest.drives);
      var prev := Get(f.drives, k0);
      var g := Field(Put(f.drives, k0, if prev.Some? then Add(prev.value, w) else w));
      FieldAddMerges(g, rest, k);
      if k == k0 {
        assert k0 !in Keys(rest.drives) by {
          forall i | 0 <= i < |rest.drives|
            ensures Keys(rest.drives)[i] != k0
          {
            assert rest.drives[i] == other.drives[i + 1];
          }
        }
      }
    }
  }

  /** What one key ends up with after `Field.add`: the sum if both sides have it. */
  function MergedDrive(a: Option<Waveform>, b: Option<Waveform>): Option<Waveform>
  {
    match (a, b)
    case (Some(x), Some(y)) => Some(Add(x, y))
    case (Some(x), None) => Some(x)
    case (None, _) => b
  }
}

=== FILE: is_constant.dfy ===
/**
 * The constant analysis (bloqade/ir/analysis/is_constant.py). `IsConstantWaveform`
 * decides, under an assignment, whether a waveform is constant in time and folds it
 * to the Constant of its value at its end; `IsConstantAnalogCircuit` does the same
 * for every waveform of a circuit and also demands that they all last equally long.
 * The visitor's `is_constant` attribute is threaded through as a boolean.
 */
module IsConstant {
  import opened Wrappers
  import opened Scalars
  import opened Waveforms
  import opened OrderedMaps
  import opened Ir

  /** `IsConstantWaveformResult`: the verdict and the folded `Constant(value, duration)`. */
  datatype WaveResult = WaveResult(isConstant: bool, value: real, duration: real)
  {
    function Folded(): Waveform
    {
      Constant(Lit(value), Lit(duration))
    }
  }

  /** Some coefficient evaluates to a non-zero value. */
  predicate AnyNonZero(cs: seq<Scalar>, env: Env)
    requires SeqVars(cs) <= env.Keys
  {
    cs != [] && (Val(cs[0], env) != 0.0 || AnyNonZero(cs[1..], env))
  }

  /**
   * `visit`: the verdict after visiting `w` starting from verdict `v`. Visiting only
   * ever lowers the verdict; an Append emits its children with fresh visitors.
   */
  function Visit(w: Waveform, v: bool, env: Env, oracle: Oracle): (r: Result<bool, WaveError>)
    requires Closed(w, env)
    decreases w, 2
  {
    match w
    case Constant(_, _) => Success(v)
    case Linear(a, b, _) => Success(v && Val(b, env) - Val(a, env) == 0.0)
    case Poly(cs, _) => Success(if |cs| > 1 && AnyNonZero(cs[1..], env) then false else v)
    case PythonFn(_, _) => Success(false)
    case Append(ws) => VisitAppend(ws, v, None, env, oracle)
    case Add(l, r) =>
      var dl :- Duration(l);
      var dr :- Duration(r);
      if Val(dl, env) != Val(dr, env) then Success(false)
      else
        var vl :- Visit(l, v, env, oracle);
        Visit(r, vl, env, oracle)
    case Aligned(x, _, _) => Visit(x, v, env, oracle)
    case Negative(x) => Visit(x, v, env, oracle)
    case Record(x, _) => Visit(x, v, env, oracle)
    case Sample(x, _, _) => Visit(x, v, env, oracle)
    case Scale(_, x) => Visit(x, v, env, oracle)
    case Slice(x, _) => Visit(x, v, env, oracle)
    case Smooth(_, _, x) => Visit(x, v, env, oracle)
  }

  /**
   * The loop of `visit_append`: emit each child; the first child's value is the
   * reference; stop as soon as the verdict is false.
   */
  function VisitAppend(ws: seq<Waveform>, v: bool, reference: Option<real>, env: Env, oracle: Oracle)
    : Result<bool, WaveError>
    requires WaveVarsSeq(ws) <= env.Keys
    decreases ws, 1
  {
    if ws == [] then Success(v)
    else
      var r :- Emit(ws[0], env, oracle);
      var value := reference.GetOr(r.value);
      var v' := v && r.isConstant && r.value == value;
      if !v' then Success(false)
      else VisitAppend(ws[1..], v', Some(value), env, oracle)
  }

  /** `emit`: visit with a fresh verdict, then fold to the value at the duration. */
  function Emit(w: Waveform, env: Env, oracle: Oracle): (r: Result<WaveResult, WaveError>)
    requires Closed(w, env)
    ensures r.Success? ==> Duration(w).Success? && r.value.duration == Val(Duration(w).value, env)
    ensures r.Success? ==> Eval(w, r.value.duration, env, oracle) == Success(r.value.value)
    decreases w, 3
  {
    var verdict :- Visit(w, true, env, oracle);
    var d :- Duration(w);
    var span := Val(d, env);
    var value :- Eval(w, span, env, oracle);
    Success(WaveResult(verdict, value, span))
  }

  /* ---------- circuits ---------- */

  predicate AllClosed(ws: seq<Waveform>, env: Env)
  {
    forall i :: 0 <= i < |ws| ==> Closed(ws[i], env)
  }

  predicate DrivesClosed(drives: seq<(Spatial, Waveform)>, env: Env)
  {
    forall k :: 0 <= k < |drives| ==> Closed(drives[k].1, env)
  }

  predicate FieldsClosed(fields: seq<(FieldName, Field)>, env: Env)
  {
    forall j :: 0 <= j < |fields| ==> DrivesClosed(fields[j].1.drives, env)
  }

  /** Every waveform of the sequence has all its variables assigned. */
  predicate PulsesClosed(pulses: seq<(Coupling, Pulse)>, env: Env)
  {
    forall i :: 0 <= i < |pulses| ==> FieldsClosed(pulses[i].1.fields, env)
  }

  /** `IsConstantAnalogCircuit`'s running `is_constant` and `duration`. */
  datatype Acc = Acc(isConstant: bool, duration: Option<real>)

  /** One folded waveform's effect on the running verdict and duration. */
  function Step(acc: Acc, r: WaveResult): Acc
  {
    var c := acc.isConstant && r.isConstant;
    if acc.duration.None? then Acc(c, Some(r.duration))
    else Acc(c && acc.duration.value == r.duration, acc.duration)
  }

  /** `visit_waveform`: emit, fold into the running state, return the folded waveform. */
  function VisitWaveform(acc: Acc, w: Waveform, env: Env, oracle: Oracle): Result<(Acc, Waveform), WaveError>
    requires Closed(w, env)
  {
    var r :- Emit(w, env, oracle);
    Success((Step(acc, r), r.Folded()))
  }

  /** `visit_field`: fold each drive, adding it to the rebuilt field. */
  function VisitField(acc: Acc, drives: seq<(Spatial, Waveform)>, built: Field, env: Env, oracle: Oracle)
    : Result<(Acc, Field), WaveError>
    requires DrivesClosed(drives, env)
    decreases |drives|
  {
    if drives == [] then Success((acc, built))
    else
      var (sm, w) := drives[0];
      var (acc1, folded) :- VisitWaveform(acc, w, env, oracle);
      VisitField(acc1, drives[1..], FieldAdd(built, Field([(sm, folded)])), env, oracle)
  }

  /** `visit_pulse`: visit each field into a fresh Field, storing it under its name. */
  function VisitPulse(acc: Acc, fields: seq<(FieldName, Field)>, built: seq<(FieldName, Field)>, env: Env, oracle: Oracle)
    : Result<(Acc, seq<(FieldName, Field)>), WaveError>
    requires FieldsClosed(fields, env)
    decreases |fields|
  {
    if fields == [] then Success((acc, built))
    else
      var (name, f) := fields[0];
      var (acc1, folded) :- VisitField(acc, f.drives, Field([]), env, oracle);
      VisitPulse(acc1, fields[1..], Put(built, name, folded), env, oracle)
  }

  /** `visit_sequence`: visit each pulse into a fresh Pulse, storing it under its coupling. */
  function VisitSequence(acc: Acc, pulses: seq<(Coupling, Pulse)>, built: seq<(Coupling, Pulse)>, env: Env, oracle: Oracle)
    : Result<(Acc, seq<(Coupling, Pulse)>), WaveError>
    requires PulsesClosed(pulses, env)
    decreases |pulses|
  {
    if pulses == [] then Success((acc, built))
    else
      var (c, p) := pulses[0];
      var (acc1, folded) :- VisitPulse(acc, p.fields, [], env, oracle);
      VisitSequence(acc1, pulses[1..], Put(built, c, Pulse(folded)), env, oracle)
  }

  /** `IsConstantAnalogCircuitResult`. */
  datatype CircuitResult = CircuitResult(isConstant: bool, circuit: AnalogCircuit)

  /** `IsConstantAnalogCircuit.emit`: the verdict and the circuit with every waveform folded. */
  function EmitCircuit(c: AnalogCircuit, env: Env, oracle: Oracle): Result<CircuitResult, WaveError>
    requires PulsesClosed(c.sequence.pulses, env)
  {
    var (acc, pulses) :- VisitSequence(Acc(true, None), c.sequence.pulses, [], env, oracle);
    Success(CircuitResult(acc.isConstant, AnalogCircuit(c.register, Sequence(pulses))))
  }
}

=== FILE: is_constant_examples.dfy ===
/**
 * The constant analysis on the circuits and waveforms of bloqade's own
 * `test_is_constant.py` (the happy-path, fail-shape, fail-duration and fail-value
 * tests), with literal scalars and no assignment.
 */
module IsConstantExamples {
  import opened Wrappers
  import opened Scalars
  import opened Waveforms
  import opened Ir
  import opened IsConstant
  import opened IsConstantProps
  import opened CircuitProps
  import opened WaveformProps

  function C(v: real, d: real): Waveform
  {
    Constant(Lit(v), Lit(d))
  }

  function L(a: real, b: real, d: real): Waveform
  {
    Linear(Lit(a), Lit(b), Lit(d))
  }

  /** `poly([1.0, 0.0, 0.0, 0.0, 0.0], d)`: a constant written as a polynomial. */
  function FlatPoly(d: real): Waveform
  {
    Poly([Lit(1.0), Lit(0.0), Lit(0.0), Lit(0.0), Lit(0.0)], Lit(d))
  }

  /** `.linear(1.0, 1.0, 5.0).linear(1.0, 1.0, 5.0)`: two flat ramps, appended. */
  function FlatRamps(): Waveform
  {
    Append([L(1.0, 1.0, 5.0), L(1.0, 1.0, 5.0)])
  }

  /** Rydberg detuning, amplitude and phase, each a single uniform drive. */
  function ThreeFields(detuning: Waveform, amplitude: Waveform, phase: Waveform): AnalogCircuit
  {
    AnalogCircuit(Arrangement("chain"), Sequence([(Rydberg, Pulse([
      (Detuning, Field([(UniformModulation, detuning)])),
      (RabiAmplitude, Field([(UniformModulation, amplitude)])),
      (RabiPhase, Field([(UniformModulation, phase)]))]))]))
  }

  /** The circuit's waveforms in visiting order are its three drives. */
  lemma ThreeFieldsWaves(detuning: Waveform, amplitude: Waveform, phase: Waveform)
    ensures PulseWaves(ThreeFields(detuning, amplitude, phase).sequence.pulses) == [detuning, amplitude, phase]
  {
    var p := ThreeFields(detuning, amplitude, phase).sequence.pulses;
    var fs := p[0].1.fields;
    assert DriveWaves(fs[0].1.drives) == [detuning];
    assert DriveWaves(fs[1].1.drives) == [amplitude];
    assert DriveWaves(fs[2].1.drives) == [phase];
    assert FieldWaves(fs[2..]) == [phase];
    assert FieldWaves(fs[1..]) == [amplitude, phase];
    assert FieldWaves(fs) == [detuning, amplitude, phase];
    assert PulseWaves(p[1..]) == [];
  }

  lemma ThreeFieldsClosed(detuning: Waveform, amplitude: Waveform, phase: Waveform, env: Env)
    requires Closed(detuning, env) && Closed(amplitude, env) && Closed(phase, env)
    ensures PulsesClosed(ThreeFields(detuning, amplitude, phase).sequence.pulses, env)
  {
    var fs := ThreeFields(detuning, amplitude, phase).sequence.pulses[0].1.fields;
    assert DrivesClosed(fs[0].1.drives, env) && DrivesClosed(fs[1].1.drives, env) && DrivesClosed(fs[2].1.drives, env);
    assert FieldsClosed(fs, env);
  }

  /**
   * A three-field circuit folds when each of its waveforms does, and is constant
   * exactly when all three are constant and last as long as the detuning.
   */
  lemma ThreeFieldsVerdict(detuning: Waveform, amplitude: Waveform, phase: Waveform, env: Env, oracle: Oracle)
    requires Closed(detuning, env) && Closed(amplitude, env) && Closed(phase, env)
    requires Emit(detuning, env, oracle).Success? && Emit(amplitude, env, oracle).Success?
    requires Emit(phase, env, oracle).Success?
    ensures var c := ThreeFields(detuning, amplitude, phase);
      PulsesClosed(c.sequence.pulses, env) &&
      EmitCircuit(c, env, oracle).Success? &&
      var r0, r1, r2 := Emit(detuning, env, oracle).value, Emit(amplitude, env, oracle).value, Emit(phase, env, oracle).value;
      (EmitCircuit(c, env, oracle).value.isConstant <==>
       r0.isConstant && r1.isConstant && r2.isConstant && r1.duration == r0.duration && r2.duration == r0.duration)
  {
    ThreeFieldsWaves(detuning, amplitude, phase);
    ThreeFieldsClosed(detuning, amplitude, phase, env);
    ThreeWavesVerdict(ThreeFields(detuning, amplitude, phase), detuning, amplitude, phase, env, oracle);
  }

  /** Any circuit whose waveforms are exactly three folding waveforms gets the three-field verdict. */
  lemma ThreeWavesVerdict(c: AnalogCircuit, detuning: Waveform, amplitude: Waveform, phase: Waveform, env: Env, oracle: Oracle)
    requires PulseWaves(c.sequence.pulses) == [detuning, amplitude, phase] && PulsesClosed(c.sequence.pulses, env)
    requires Closed(detuning, env) && Closed(amplitude, env) && Closed(phase, env)
    requires Emit(detuning, env, oracle).Success? && Emit(amplitude, env, oracle).Success?
    requires Emit(phase, env, oracle).Success?
    ensures EmitCircuit(c, env, oracle).Success?
    ensures var r0, r1, r2 := Emit(detuning, env, oracle).value, Emit(amplitude, env, oracle).value, Emit(phase, env, oracle).value;
      (EmitCircuit(c, env, oracle).value.isConstant <==>
       r0.isConstant && r1.isConstant && r2.isConstant && r1.duration == r0.duration && r2.duration == r0.duration)
  {
    CircuitVerdict(c, env, oracle);
    AlikeThree([detuning, amplitude, phase], env, oracle);
  }

  /** Three waveforms that fold constant over the same duration make a constant circuit. */
  lemma ThreeConstant(detuning: Waveform, amplitude: Waveform, phase: Waveform, span: real, env: Env, oracle: Oracle)
    requires Closed(detuning, env) && Closed(amplitude, env) && Closed(phase, env)
    requires Emit(detuning, env, oracle).Success? && Emit(detuning, env, oracle).value.isConstant
    requires Emit(amplitude, env, oracle).Success? && Emit(amplitude, env, oracle).value.isConstant
    requires Emit(phase, env, oracle).Success? && Emit(phase, env, oracle).value.isConstant
    requires Emit(detuning, env, oracle).value.duration == span
    requires Emit(amplitude, env, oracle).value.duration == span
    requires Emit(phase, env, oracle).value.duration == span
    ensures PulsesClosed(ThreeFields(detuning, amplitude, phase).sequence.pulses, env)
    ensures EmitCircuit(ThreeFields(detuning, amplitude, phase), env, oracle).Success?
    ensures EmitCircuit(ThreeFields(detuning, amplitude, phase), env, oracle).value.isConstant
  {
    ThreeFieldsVerdict(detuning, amplitude, phase, env, oracle);
  }

  lemma AlikeThree(ws: seq<Waveform>, env: Env, oracle: Oracle)
    requires |ws| == 3 && AllClosed(ws, env)
    requires Emit(ws[0], env, oracle).Success? && Emit(ws[1], env, oracle).Success? && Emit(ws[2], env, oracle).Success?
    ensures AllEmit(ws, env, oracle)
    ensures var r0, r1, r2 := Emit(ws[0], env, oracle).value, Emit(ws[1], env, oracle).value, Emit(ws[2], env, oracle).value;
      Alike(ws, r0.duration, env, oracle) <==>
      r0.isConstant && r1.isConstant && r2.isConstant && r1.duration == r0.duration && r2.duration == r0.duration
  {
  }

  lemma FlatRampsEmit(oracle: Oracle)
    ensures Emit(FlatRamps(), map[], oracle) == Success(WaveResult(true, 1.0, 10.0))
  {
    var env: Env := map[];
    assert Emit(L(1.0, 1.0, 5.0), env, oracle) == Success(WaveResult(true, 1.0, 5.0));
    assert VisitAppend([L(1.0, 1.0, 5.0)], true, Some(1.0), env, oracle) == Success(true);
    assert Visit(FlatRamps(), true, env, oracle) == Success(true);
    assert Duration(FlatRamps()) == Success(Plus(Plus(Lit(0.0), Lit(5.0)), Lit(5.0)));
    assert EvalAppend([L(1.0, 1.0, 5.0)], 10.0, 5.0, env, oracle) == Success(1.0);
    assert Eval(FlatRamps(), 10.0, env, oracle) == Success(1.0);
  }

  lemma FlatPolyEmit(d: real, oracle: Oracle)
    ensures Emit(FlatPoly(d), map[], oracle) == Success(WaveResult(true, 1.0, d))
  {
    var env: Env := map[];
    var cs := [Lit(1.0), Lit(0.0), Lit(0.0), Lit(0.0), Lit(0.0)];
    assert SeqVars(cs) == Vars(cs[0]) + SeqVars(cs[1..]);
    assert SeqVars(cs[1..]) == {} && WaveVars(Poly(cs, Lit(d))) == {};
    PolyVerdict(cs, Lit(d), true, env, oracle);
    AnyNonZeroIff(cs[1..], env);
    PolyLoopZero(cs[1..], env, d, 1.0 * d);
    assert PolyLoop(cs, env, d, 1.0) == 1.0;
  }

  /**
   * `test_happy_path`: detuning `constant(1, 10)`, amplitude two flat ramps of 5,
   * phase a flat polynomial of 10: every waveform is constant and lasts 10.
   */
  lemma HappyPath(oracle: Oracle)
    ensures EmitCircuit(ThreeFields(C(1.0, 10.0), FlatRamps(), FlatPoly(10.0)), map[], oracle).Success?
    ensures EmitCircuit(ThreeFields(C(1.0, 10.0), FlatRamps(), FlatPoly(10.0)), map[], oracle).value.isConstant
  {
    FlatRampsEmit(oracle);
    FlatPolyEmit(10.0, oracle);
    assert Emit(C(1.0, 10.0), map[], oracle) == Success(WaveResult(true, 1.0, 10.0));
    ThreeFieldsVerdict(C(1.0, 10.0), FlatRamps(), FlatPoly(10.0), map[], oracle);
  }

  /** `.slice(2.5, 7.5)`: the middle 5 of a waveform. */
  function Middle(): Interval
  {
    Interval(Some(Lit(2.5)), Some(Lit(7.5)))
  }

  /**
   * `.uniform.constant(1.0, 5.0).uniform.constant(1.0, 10.0).slice(2.5, 7.5)`: two
   * drives on the same uniform location, which the field adds.
   */
  function SlicedDetuning(): Waveform
  {
    Add(C(1.0, 5.0), Slice(C(1.0, 10.0), Middle()))
  }

  /** `.linear(1.0, 1.0, 5.0).linear(1.0, 1.0, 5.0).slice(2.5, 7.5).record("var")`. */
  function SlicedRamps(): Waveform
  {
    Record(Slice(FlatRamps(), Middle()), "var")
  }

  lemma SlicedClosed()
    ensures Closed(SlicedDetuning(), map[]) && Closed(SlicedRamps(), map[]) && Closed(FlatPoly(5.0), map[])
    ensures PulsesClosed(ThreeFields(SlicedDetuning(), SlicedRamps(), FlatPoly(5.0)).sequence.pulses, map[])
  {
    ThreeFieldsClosed(SlicedDetuning(), SlicedRamps(), FlatPoly(5.0), map[]);
  }

  lemma SlicedDetuningEmit(oracle: Oracle)
    ensures Emit(SlicedDetuning(), map[], oracle) == Success(WaveResult(true, 2.0, 5.0))
  {
    var env: Env := map[];
    var s := Slice(C(1.0, 10.0), Middle());
    assert Duration(s) == Success(Minus(Lit(7.5), Lit(2.5)));
    assert Visit(s, true, env, oracle) == Success(true);
    assert Eval(s, 5.0, env, oracle) == Success(1.0);
    assert Visit(SlicedDetuning(), true, env, oracle) == Success(true);
    assert Duration(SlicedDetuning()) == Success(Max(Lit(5.0), Minus(Lit(7.5), Lit(2.5))));
    assert Eval(SlicedDetuning(), 5.0, env, oracle) == Success(2.0);
  }

  lemma SlicedRampsEmit(oracle: Oracle)
    ensures Emit(SlicedRamps(), map[], oracle) == Success(WaveResult(true, 1.0, 5.0))
  {
    var env: Env := map[];
    var s := Slice(FlatRamps(), Middle());
    FlatRampsEmit(oracle);
    assert Visit(FlatRamps(), true, env, oracle) == Success(true);
    assert Visit(s, true, env, oracle) == Success(true);
    assert Duration(s) == Success(Minus(Lit(7.5), Lit(2.5)));
    assert EvalAppend([L(1.0, 1.0, 5.0)], 7.5, 5.0, env, oracle) == Success(1.0);
    assert Eval(FlatRamps(), 7.5, env, oracle) == Success(1.0);
    assert Eval(s, 5.0, env, oracle) == Success(1.0);
    assert Visit(SlicedRamps(), true, env, oracle) == Success(true);
    assert Eval(SlicedRamps(), 5.0, env, oracle) == Success(1.0);
  }

  /**
   * `test_happy_path`, second circuit: the detuning adds a constant 5 to the middle 5
   * of a constant 10, the amplitude is the middle 5 of two flat ramps, recorded, and
   * the phase a flat polynomial of 5: every waveform is constant and lasts 5.
   */
  lemma HappyPathSliced(oracle: Oracle)
    ensures EmitCircuit(ThreeFields(SlicedDetuning(), SlicedRamps(), FlatPoly(5.0)), map[], oracle).Success?
    ensures EmitCircuit(ThreeFields(SlicedDetuning(), SlicedRamps(), FlatPoly(5.0)), map[], oracle).value.isConstant
  {
    var env: Env := map[];
    SlicedClosed();
    SlicedDetuningEmit(oracle);
    SlicedRampsEmit(oracle);
    FlatPolyEmit(5.0, oracle);
    ThreeConstant(SlicedDetuning(), SlicedRamps(), FlatPoly(5.0), 5.0, env, oracle);
  }

  /** `poly([1.0, 1.0, 0.0, 0.0, 0.0], 5)`: the phase 1 + t, which is not flat. */
  function TiltedPoly(): Waveform
  {
    Poly([Lit(1.0), Lit(1.0), Lit(0.0), Lit(0.0), Lit(0.0)], Lit(5.0))
  }

  /** `.fn(lambda t: t, 5).sample(0.05)` on the amplitude: linear interpolation between samples. */
  function FnSample(): Waveform
  {
    Sample(PythonFn("lambda t: t", Lit(5.0)), LinearInterpolation, Lit(0.05))
  }

  /** The amplitude of the second circuit: the sampled function is added to the sliced ramps. */
  function SampledRamps(): Waveform
  {
    Add(SlicedRamps(), FnSample())
  }

  lemma TiltedPolyEmit(oracle: Oracle)
    ensures Closed(TiltedPoly(), map[])
    ensures Emit(TiltedPoly(), map[], oracle).Success?
    ensures !Emit(TiltedPoly(), map[], oracle).value.isConstant
  {
    var env: Env := map[];
    var cs := [Lit(1.0), Lit(1.0), Lit(0.0), Lit(0.0), Lit(0.0)];
    assert SeqVars(cs) == Vars(cs[0]) + SeqVars(cs[1..]);
    assert SeqVars(cs[1..]) == Vars(cs[1]) + SeqVars(cs[2..]);
    assert SeqVars(cs[2..]) == {} && WaveVars(Poly(cs, Lit(5.0))) == {};
    PolyVerdict(cs, Lit(5.0), true, env, oracle);
    assert Val(cs[1], env) != 0.0;
  }

  /** The sampled function is defined at every time, lasts 5 and is never judged constant. */
  lemma FnSampleEmit(t: real, oracle: Oracle)
    ensures Closed(FnSample(), map[])
    ensures Duration(FnSample()) == Success(Lit(5.0))
    ensures Visit(FnSample(), true, map[], oracle) == Success(false)
    ensures Eval(FnSample(), t, map[], oracle).Success?
  {
    var env: Env := map[];
    var x := PythonFn("lambda t: t", Lit(5.0));
    assert Closed(FnSample(), env);
    assert forall s :: Eval(x, s, env, oracle).Success?;
    SampleDefined(x, LinearInterpolation, Lit(0.05), t, env, oracle);
  }

  lemma SampledClosed()
    ensures Closed(SlicedRamps(), map[]) && Closed(FnSample(), map[]) && Closed(SampledRamps(), map[])
  {
    SlicedClosed();
    assert WaveVars(FnSample()) == {};
    assert WaveVars(SampledRamps()) == WaveVars(SlicedRamps()) + WaveVars(FnSample());
  }

  /**
   * Adding a waveform that is never judged constant to one that folds, over the same
   * duration, folds to a waveform that is not constant and lasts as long.
   */
  lemma AddOfVarying(l: Waveform, r: Waveform, env: Env, oracle: Oracle)
    requires Closed(l, env) && Closed(r, env) && Emit(l, env, oracle).Success?
    requires Duration(r).Success? && Val(Duration(r).value, env) == Emit(l, env, oracle).value.duration
    requires Visit(r, true, env, oracle) == Success(false)
    requires Eval(r, Emit(l, env, oracle).value.duration, env, oracle).Success?
    ensures Closed(Add(l, r), env) && Emit(Add(l, r), env, oracle).Success?
    ensures !Emit(Add(l, r), env, oracle).value.isConstant
    ensures Emit(Add(l, r), env, oracle).value.duration == Emit(l, env, oracle).value.duration
  {
    var w := Add(l, r);
    EmitUnfold(l, env, oracle);
    EmitUnfold(w, env, oracle);
    VisitConjunction(r, Visit(l, true, env, oracle).value, env, oracle);
    AddVerdict(l, r, true, env, oracle);
  }

  lemma SampledRampsEmit(oracle: Oracle)
    ensures Closed(SampledRamps(), map[])
    ensures Emit(SampledRamps(), map[], oracle).Success?
    ensures !Emit(SampledRamps(), map[], oracle).value.isConstant
    ensures Emit(SampledRamps(), map[], oracle).value.duration == 5.0
  {
    SampledClosed();
    SlicedRampsEmit(oracle);
    FnSampleEmit(5.0, oracle);
    AddOfVarying(SlicedRamps(), FnSample(), map[], oracle);
  }

  /**
   * `test_fail_shape`, first circuit: the sliced circuit of `test_happy_path` with the
   * phase `poly([1, 1, 0, 0, 0], 5)`, which varies, so the circuit is not constant.
   */
  lemma FailShape(oracle: Oracle)
    ensures PulsesClosed(ThreeFields(SlicedDetuning(), SlicedRamps(), TiltedPoly()).sequence.pulses, map[])
    ensures EmitCircuit(ThreeFields(SlicedDetuning(), SlicedRamps(), TiltedPoly()), map[], oracle).Success?
    ensures !EmitCircuit(ThreeFields(SlicedDetuning(), SlicedRamps(), TiltedPoly()), map[], oracle).value.isConstant
  {
    SlicedClosed();
    SlicedDetuningEmit(oracle);
    SlicedRampsEmit(oracle);
    TiltedPolyEmit(oracle);
    ThreeFieldsVerdict(SlicedDetuning(), SlicedRamps(), TiltedPoly(), map[], oracle);
  }

  /**
   * `test_fail_shape`, second circuit: as the first, with a function of time sampled
   * every 0.05 added to the amplitude, which is then not constant either.
   */
  lemma FailShapeSampled(oracle: Oracle)
    ensures PulsesClosed(ThreeFields(SlicedDetuning(), SampledRamps(), TiltedPoly()).sequence.pulses, map[])
    ensures EmitCircuit(ThreeFields(SlicedDetuning(), SampledRamps(), TiltedPoly()), map[], oracle).Success?
    ensures !EmitCircuit(ThreeFields(SlicedDetuning(), SampledRamps(), TiltedPoly()), map[], oracle).value.isConstant
  {
    SlicedClosed();
    SlicedDetuningEmit(oracle);
    SampledRampsEmit(oracle);
    TiltedPolyEmit(oracle);
    ThreeFieldsVerdict(SlicedDetuning(), SampledRamps(), TiltedPoly(), map[], oracle);
  }

  /**
   * `test_fail_duration`, first circuit: the same, but the detuning lasts 9, so the
   * circuit is not constant although each of its waveforms is.
   */
  lemma FailDuration(oracle: Oracle)
    ensures EmitCircuit(ThreeFields(C(1.0, 9.0), FlatRamps(), FlatPoly(10.0)), map[], oracle).Success?
    ensures !EmitCircuit(ThreeFields(C(1.0, 9.0), FlatRamps(), FlatPoly(10.0)), map[], oracle).value.isConstant
  {
    FlatRampsEmit(oracle);
    FlatPolyEmit(10.0, oracle);
    assert Emit(C(1.0, 9.0), map[], oracle) == Success(WaveResult(true, 1.0, 9.0));
    ThreeFieldsVerdict(C(1.0, 9.0), FlatRamps(), FlatPoly(10.0), map[], oracle);
  }

  /**
   * `test_fail_duration`, second circuit: `constant(1, 10)` then `constant(1, 9)` on the
   * same uniform drive are added; the Add's operands differ in duration, so it is not
   * constant, and its folded value is the left one's at 10, the right having ended.
   */
  lemma FailDurationAdd(oracle: Oracle)
    ensures Emit(Add(C(1.0, 10.0), C(1.0, 9.0)), map[], oracle) == Success(WaveResult(false, 1.0, 10.0))
  {
  }

  /**
   * `test_fail_value`: `constant(1, 10)` then `constant(1.1, 10)` append; both are
   * constant but their values differ, so the Append is not, and it folds to its value
   * at 20, which is the second one's.
   */
  lemma FailValue(oracle: Oracle)
    ensures Emit(Append([C(1.0, 10.0), C(1.1, 10.0)]), map[], oracle) == Success(WaveResult(false, 1.1, 20.0))
  {
    var env: Env := map[];
    var ws := [C(1.0, 10.0), C(1.1, 10.0)];
    assert Emit(ws[0], env, oracle) == Success(WaveResult(true, 1.0, 10.0));
    assert Emit(ws[1], env, oracle) == Success(WaveResult(true, 1.1, 10.0));
    assert VisitAppend(ws[1..], true, Some(1.0), env, oracle) == Success(false);
    assert Visit(Append(ws), true, env, oracle) == Success(false);
    assert Duration(Append(ws)) == Success(Plus(Plus(Lit(0.0), Lit(10.0)), Lit(10.0)));
    assert EvalAppend(ws[1..], 20.0, 10.0, env, oracle) == Success(1.1);
    assert Eval(Append(ws), 20.0, env, oracle) == Success(1.1);
  }

  /** `test_fail_duration`, second circuit, as a whole: its detuning is not constant, so neither is the circuit. */
  lemma FailDurationAddCircuit(oracle: Oracle)
    ensures PulsesClosed(ThreeFields(Add(C(1.0, 10.0), C(1.0, 9.0)), FlatRamps(), FlatPoly(10.0)).sequence.pulses, map[])
    ensures EmitCircuit(ThreeFields(Add(C(1.0, 10.0), C(1.0, 9.0)), FlatRamps(), FlatPoly(10.0)), map[], oracle).Success?
    ensures !EmitCircuit(ThreeFields(Add(C(1.0, 10.0), C(1.0, 9.0)), FlatRamps(), FlatPoly(10.0)), map[], oracle).value.isConstant
  {
    var env: Env := map[];
    assert Closed(Add(C(1.0, 10.0), C(1.0, 9.0)), env) && Closed(FlatRamps(), env) && Closed(FlatPoly(10.0), env);
    FailDurationAdd(oracle);
    FlatRampsEmit(oracle);
    FlatPolyEmit(10.0, oracle);
    ThreeFieldsVerdict(Add(C(1.0, 10.0), C(1.0, 9.0)), FlatRamps(), FlatPoly(10.0), env, oracle);
  }

  /** A circuit with a single uniform Rydberg detuning drive. */
  function DetuningOnly(detuning: Waveform): AnalogCircuit
  {
    AnalogCircuit(Arrangement("chain"), Sequence([(Rydberg, Pulse([(Detuning, Field([(UniformModulation, detuning)]))]))]))
  }

  /** The one-drive circuit's only waveform is its detuning. */
  lemma DetuningOnlyWaves(w: Waveform)
    ensures PulseWaves(DetuningOnly(w).sequence.pulses) == [w]
  {
    var p := DetuningOnly(w).sequence.pulses;
    var fs := p[0].1.fields;
    assert DriveWaves(fs[0].1.drives) == [w];
    assert FieldWaves(fs[1..]) == [];
    assert FieldWaves(fs) == [w];
    assert PulseWaves(p[1..]) == [];
  }

  lemma DetuningOnlyClosed(w: Waveform, env: Env)
    requires Closed(w, env)
    ensures PulsesClosed(DetuningOnly(w).sequence.pulses, env)
  {
    var fs := DetuningOnly(w).sequence.pulses[0].1.fields;
    assert DrivesClosed(fs[0].1.drives, env);
    assert FieldsClosed(fs, env);
  }

  /** Any circuit whose only waveform folds gets that waveform's verdict. */
  lemma OneWaveVerdict(c: AnalogCircuit, w: Waveform, env: Env, oracle: Oracle)
    requires PulseWaves(c.sequence.pulses) == [w] && PulsesClosed(c.sequence.pulses, env)
    requires Closed(w, env) && Emit(w, env, oracle).Success?
    ensures EmitCircuit(c, env, oracle).Success?
    ensures EmitCircuit(c, env, oracle).value.isConstant <==> Emit(w, env, oracle).value.isConstant
  {
    CircuitVerdict(c, env, oracle);
    assert AllEmit([w], env, oracle);
  }

  /** A one-drive circuit folds when its waveform does, and is constant exactly when the waveform is. */
  lemma DetuningOnlyVerdict(w: Waveform, env: Env, oracle: Oracle)
    requires Closed(w, env) && Emit(w, env, oracle).Success?
    ensures PulsesClosed(DetuningOnly(w).sequence.pulses, env)
    ensures EmitCircuit(DetuningOnly(w), env, oracle).Success?
    ensures EmitCircuit(DetuningOnly(w), env, oracle).value.isConstant <==> Emit(w, env, oracle).value.isConstant
  {
    DetuningOnlyWaves(w);
    DetuningOnlyClosed(w, env);
    OneWaveVerdict(DetuningOnly(w), w, env, oracle);
  }

  /** `test_fail_value` as a whole: the circuit of the appended constants 1 and 1.1 is not constant. */
  lemma FailValueCircuit(oracle: Oracle)
    ensures PulsesClosed(DetuningOnly(Append([C(1.0, 10.0), C(1.1, 10.0)])).sequence.pulses, map[])
    ensures EmitCircuit(DetuningOnly(Append([C(1.0, 10.0), C(1.1, 10.0)])), map[], oracle).Success?
    ensures !EmitCircuit(DetuningOnly(Append([C(1.0, 10.0), C(1.1, 10.0)])), map[], oracle).value.isConstant
  {
    var w := Append([C(1.0, 10.0), C(1.1, 10.0)]);
    assert WaveVarsSeq([C(1.1, 10.0)]) == {};
    assert Closed(w, map[]);
    FailValue(oracle);
    DetuningOnlyVerdict(w, map[], oracle);
  }
}

=== FILE: is_constant_props.dfy ===
/**
 * What the waveform verdict of `IsConstantWaveform` means: its per-variant rules,
 * that visiting only ever lowers the verdict, and that a constant verdict is sound:
 * the waveform then takes its folded value at every time up to its duration.
 */
module IsConstantProps {
  import opened Wrappers
  import opened Scalars
  import opened Waveforms
  import opened WaveformProps
  import opened IsConstant

  /* ---------- per-variant rules ---------- */

  /**
   * A Linear with a positive duration is judged constant exactly when it really is:
   * when it takes its starting value at every time up to its duration.
   */
  lemma LinearVerdictIff(a: Scalar, b: Scalar, d: Scalar, env: Env, oracle: Oracle)
    requires Closed(Linear(a, b, d), env) && Val(d, env) > 0.0
    ensures Emit(Linear(a, b, d), env, oracle).Success?
    ensures Emit(Linear(a, b, d), env, oracle).value.isConstant <==>
      forall t :: 0.0 <= t <= Val(d, env) ==>
        Eval(Linear(a, b, d), t, env, oracle) == Eval(Linear(a, b, d), 0.0, env, oracle)
  {
    var w := Linear(a, b, d);
    var span := Val(d, env);
    LinearEval(a, b, d, 0.0, env, oracle);
    if Val(a, env) == Val(b, env) {
      forall t | 0.0 <= t <= span
        ensures Eval(w, t, env, oracle) == Eval(w, 0.0, env, oracle)
      {
        LinearInside(a, b, d, t, env, oracle);
        var slope := (Val(b, env) - Val(a, env)) / span;
        assert slope == 0.0;
        assert slope * t == 0.0;
        assert Eval(w, t, env, oracle).value == Val(a, env);
      }
    } else {
      assert Eval(w, span, env, oracle) != Eval(w, 0.0, env, oracle);
    }
  }

  /** Inside its positive duration a Linear is its start plus its slope times the time. */
  lemma LinearInside(a: Scalar, b: Scalar, d: Scalar, t: real, env: Env, oracle: Oracle)
    requires Closed(Linear(a, b, d), env) && Val(d, env) > 0.0 && t <= Val(d, env)
    ensures Eval(Linear(a, b, d), t, env, oracle).Success?
    ensures Eval(Linear(a, b, d), t, env, oracle).value ==
      (Val(b, env) - Val(a, env)) / Val(d, env) * t + Val(a, env)
  {
  }

  /**
   * The analysis cannot see into a Python function: even one whose value never changes
   * is judged not constant.
   */
  lemma PythonFnNeverConstant(name: string, d: Scalar, c: real, env: Env, oracle: Oracle)
    requires Closed(PythonFn(name, d), env) && Val(d, env) >= 0.0
    requires forall t :: oracle(PythonFn(name, d), t) == c
    ensures Emit(PythonFn(name, d), env, oracle).Success?
    ensures !Emit(PythonFn(name, d), env, oracle).value.isConstant
    ensures forall t :: 0.0 <= t <= Val(d, env) ==> Eval(PythonFn(name, d), t, env, oracle) == Success(c)
  {
  }

  lemma {:induction false} AnyNonZeroIff(cs: seq<Scalar>, env: Env)
    requires SeqVars(cs) <= env.Keys
    ensures forall i :: 0 <= i < |cs| ==> Bound(cs[i], env)
    ensures AnyNonZero(cs, env) <==> exists i :: 0 <= i < |cs| && Val(cs[i], env) != 0.0
  {
    if cs != [] {
      AnyNonZeroIff(cs[1..], env);
      assert forall i :: 1 <= i < |cs| ==> cs[i] == cs[1..][i - 1];
      if AnyNonZero(cs[1..], env) {
        var j :| 0 <= j < |cs[1..]| && Val(cs[1..][j], env) != 0.0;
        assert Val(cs[j + 1], env) != 0.0;
      }
    }
  }

  /** A Poly keeps the verdict exactly when every coefficient past the first evaluates to 0. */
  lemma PolyVerdict(cs: seq<Scalar>, d: Scalar, v: bool, env: Env, oracle: Oracle)
    requires Closed(Poly(cs, d), env)
    ensures forall i :: 0 <= i < |cs| ==> Bound(cs[i], env)
    ensures Visit(Poly(cs, d), v, env, oracle) ==
      Success(v && forall i :: 1 <= i < |cs| ==> Val(cs[i], env) == 0.0)
  {
    AnyNonZeroIff(cs, env);
    if |cs| > 1 {
      AnyNonZeroIff(cs[1..], env);
      assert forall i :: 1 <= i < |cs| ==> cs[i] == cs[1..][i - 1];
      if AnyNonZero(cs[1..], env) {
        var j :| 0 <= j < |cs[1..]| && Val(cs[1..][j], env) != 0.0;
        assert Val(cs[j + 1], env) != 0.0;
      }
    }
  }

  /**
   * Negating folds with the waveform it wraps: constant exactly when the wrapped
   * waveform is, as long, and folding to the negated value.
   */
  lemma EmitNegative(x: Waveform, env: Env, oracle: Oracle)
    requires Closed(x, env)
    ensures Closed(Negative(x), env)
    ensures Emit(Negative(x), env, oracle).Success? <==> Emit(x, env, oracle).Success?
    ensures Emit(x, env, oracle).Success? ==>
      var e := Emit(x, env, oracle).value;
      Emit(Negative(x), env, oracle).value == WaveResult(e.isConstant, -e.value, e.duration)
  {
    assert Visit(Negative(x), true, env, oracle) == Visit(x, true, env, oracle);
    assert Duration(Negative(x)) == Duration(x);
  }

  /**
   * Scaling folds with the waveform it wraps: constant exactly when the wrapped
   * waveform is, as long, and folding to the scaled value.
   */
  lemma EmitScale(k: Scalar, x: Waveform, env: Env, oracle: Oracle)
    requires Closed(x, env) && Bound(k, env)
    ensures Closed(Scale(k, x), env)
    ensures Emit(Scale(k, x), env, oracle).Success? <==> Emit(x, env, oracle).Success?
    ensures Emit(x, env, oracle).Success? ==>
      Emit(Scale(k, x), env, oracle).value.isConstant == Emit(x, env, oracle).value.isConstant &&
      Emit(Scale(k, x), env, oracle).value.duration == Emit(x, env, oracle).value.duration
    ensures Emit(x, env, oracle).Success? ==>
      Emit(Scale(k, x), env, oracle).value.value == Val(k, env) * Emit(x, env, oracle).value.value
  {
    ScaleEmitShape(k, x, env, oracle);
    if Emit(x, env, oracle).Success? {
      ScaleEmitValue(k, x, env, oracle);
    }
  }

  /** The verdict and duration half of EmitScale. */
  lemma ScaleEmitShape(k: Scalar, x: Waveform, env: Env, oracle: Oracle)
    requires Closed(x, env) && Bound(k, env)
    ensures Closed(Scale(k, x), env)
    ensures Emit(Scale(k, x), env, oracle).Success? <==> Emit(x, env, oracle).Success?
    ensures Emit(x, env, oracle).Success? ==>
      Emit(Scale(k, x), env, oracle).value.isConstant == Emit(x, env, oracle).value.isConstant &&
      Emit(Scale(k, x), env, oracle).value.duration == Emit(x, env, oracle).value.duration
  {
    var w := Scale(k, x);
    assert Visit(w, true, env, oracle) == Visit(x, true, env, oracle);
    assert Duration(w) == Duration(x);
    EmitUnfold(x, env, oracle);
    EmitUnfold(w, env, oracle);
    if Duration(x).Success? {
      ScaleEval(k, x, Val(Duration(x).value, env), env, oracle);
    }
  }

  /** The value half of EmitScale. */
  lemma ScaleEmitValue(k: Scalar, x: Waveform, env: Env, oracle: Oracle)
    requires Closed(x, env) && Bound(k, env) && Emit(x, env, oracle).Success?
    ensures Closed(Scale(k, x), env) && Emit(Scale(k, x), env, oracle).Success?
    ensures Emit(Scale(k, x), env, oracle).value.value == Val(k, env) * Emit(x, env, oracle).value.value
  {
    var w := Scale(k, x);
    var span := Emit(x, env, oracle).value.duration;
    assert Visit(w, true, env, oracle) == Visit(x, true, env, oracle);
    assert Duration(w) == Duration(x);
    EmitUnfold(x, env, oracle);
    EmitUnfold(w, env, oracle);
    ScaleEval(k, x, span, env, oracle);
  }

  /** A Scale evaluates to its factor times its waveform's value, failing when that fails. */
  lemma ScaleEval(k: Scalar, x: Waveform, t: real, env: Env, oracle: Oracle)
    requires Closed(x, env) && Bound(k, env)
    ensures Closed(Scale(k, x), env)
    ensures Eval(Scale(k, x), t, env, oracle).Success? <==> Eval(x, t, env, oracle).Success?
    ensures Eval(x, t, env, oracle).Success? ==>
      Eval(Scale(k, x), t, env, oracle).value == Val(k, env) * Eval(x, t, env, oracle).value
  {
  }

  /** Emit succeeds exactly when visiting, the duration and the value at the duration do. */
  lemma EmitUnfold(w: Waveform, env: Env, oracle: Oracle)
    requires Closed(w, env)
    ensures Emit(w, env, oracle).Success? <==>
      Visit(w, true, env, oracle).Success? && Duration(w).Success? &&
      Eval(w, Val(Duration(w).value, env), env, oracle).Success?
    ensures Emit(w, env, oracle).Success? ==>
      Emit(w, env, oracle).value.isConstant == Visit(w, true, env, oracle).value &&
      Emit(w, env, oracle).value.value == Eval(w, Val(Duration(w).value, env), env, oracle).value
  {
  }

  /** Recording folds to exactly what the recorded waveform folds to. */
  lemma EmitRecord(x: Waveform, name: string, env: Env, oracle: Oracle)
    requires Closed(x, env)
    ensures Closed(Record(x, name), env)
    ensures Emit(Record(x, name), env, oracle) == Emit(x, env, oracle)
  {
    assert Visit(Record(x, name), true, env, oracle) == Visit(x, true, env, oracle);
    assert Duration(Record(x, name)) == Duration(x);
  }

  /* ---------- the verdict only moves from true to false ---------- */

  /**
   * Visiting from verdict `v` gives `v` and the fresh verdict; visiting from false
   * stays false. (From false an Append stops after its first child, so it can
   * succeed where the fresh visit fails later on.)
   */
  lemma {:induction false} VisitConjunction(w: Waveform, v: bool, env: Env, oracle: Oracle)
    requires Closed(w, env)
    ensures Visit(w, true, env, oracle).Success? ==>
      Visit(w, v, env, oracle) == Success(v && Visit(w, true, env, oracle).value)
    ensures Visit(w, false, env, oracle).Success? ==> Visit(w, false, env, oracle) == Success(false)
    decreases w
  {
    match w
    case Add(l, r) =>
      if Duration(l).Success? && Duration(r).Success? && Visit(l, true, env, oracle).Success? {
        var a := Visit(l, true, env, oracle).value;
        VisitConjunction(l, v, env, oracle);
        VisitConjunction(r, v && a, env, oracle);
        VisitConjunction(r, a, env, oracle);
      }
      if Duration(l).Success? && Duration(r).Success? && Visit(l, false, env, oracle).Success? {
        VisitConjunction(l, false, env, oracle);
        VisitConjunction(r, false, env, oracle);
      }
    case Aligned(x, _, _) => VisitConjunction(x, v, env, oracle);
    case Negative(x) => VisitConjunction(x, v, env, oracle);
    case Record(x, _) => VisitConjunction(x, v, env, oracle);
    case Sample(x, _, _) => VisitConjunction(x, v, env, oracle);
    case Scale(_, x) => VisitConjunction(x, v, env, oracle);
    case Slice(x, _) => VisitConjunction(x, v, env, oracle);
    case Smooth(_, _, x) => VisitConjunction(x, v, env, oracle);
    case Append(ws) =>
      assert Visit(w, v, env, oracle) == VisitAppend(ws, v, None, env, oracle);
      assert Visit(w, true, env, oracle) == VisitAppend(ws, true, None, env, oracle);
      assert Visit(w, false, env, oracle) == VisitAppend(ws, false, None, env, oracle);
    case _ =>
  }

  /* ---------- Append ---------- */

  /**
   * Every child emits, is constant, and folds to the reference value: the given one,
   * or else the first child's.
   */
  predicate ChildrenAgree(ws: seq<Waveform>, reference: Option<real>, env: Env, oracle: Oracle)
    requires AllClosed(ws, env)
  {
    ws == [] ||
    (Emit(ws[0], env, oracle).Success? &&
     forall i :: 0 <= i < |ws| ==>
       Emit(ws[i], env, oracle).Success? && Emit(ws[i], env, oracle).value.isConstant &&
       Emit(ws[i], env, oracle).value.value == reference.GetOr(Emit(ws[0], env, oracle).value.value))
  }

  lemma {:induction false} VisitAppendAgree(ws: seq<Waveform>, reference: Option<real>, env: Env, oracle: Oracle)
    requires WaveVarsSeq(ws) <= env.Keys
    ensures AllClosed(ws, env)
    ensures VisitAppend(ws, true, reference, env, oracle) == Success(true) <==>
      ChildrenAgree(ws, reference, env, oracle)
    decreases ws
  {
    ClosedSeq(ws, env);
    if ws != [] {
      var rest := ws[1..];
      assert forall i :: 1 <= i < |ws| ==> ws[i] == rest[i - 1];
      ClosedSeq(rest, env);
      if Emit(ws[0], env, oracle).Success? {
        var r := Emit(ws[0], env, oracle).value;
        var value := reference.GetOr(r.value);
        if r.isConstant && r.value == value {
          VisitAppendAgree(rest, Some(value), env, oracle);
          if ChildrenAgree(rest, Some(value), env, oracle) {
            forall i | 0 <= i < |ws|
              ensures Emit(ws[i], env, oracle).Success? && Emit(ws[i], env, oracle).value.isConstant &&
                      Emit(ws[i], env, oracle).value.value == value
            {
              if i > 0 {
                assert ws[i] == rest[i - 1];
              }
            }
          }
          if ChildrenAgree(ws, reference, env, oracle) && rest != [] {
            forall i | 0 <= i < |rest|
              ensures Emit(rest[i], env, oracle).Success? && Emit(rest[i], env, oracle).value.isConstant &&
                      Emit(rest[i], env, oracle).value.value == value
            {
              assert rest[i] == ws[i + 1];
            }
          }
        }
      }
    }
  }

  /**
   * An Append is constant exactly when every child is constant and folds to the
   * same value as the first.
   */
  lemma AppendVerdict(ws: seq<Waveform>, env: Env, oracle: Oracle)
    requires Closed(Append(ws), env)
    ensures AllClosed(ws, env)
    ensures Visit(Append(ws), true, env, oracle) == Success(true) <==> ChildrenAgree(ws, None, env, oracle)
  {
    VisitAppendAgree(ws, None, env, oracle);
  }

  /**
   * Once a child clears the verdict the loop returns: the children after it are
   * never emitted, so nothing they could raise matters.
   */
  lemma {:induction false} AppendStopsAtFirstFailure(ws: seq<Waveform>, rest: seq<Waveform>, v: bool,
                                                     reference: Option<real>, env: Env, oracle: Oracle)
    requires WaveVarsSeq(ws + rest) <= env.Keys
    requires ws != []
    ensures WaveVarsSeq(ws) <= env.Keys
    ensures VisitAppend(ws, v, reference, env, oracle) == Success(false) ==>
      VisitAppend(ws + rest, v, reference, env, oracle) == Success(false)
    decreases ws
  {
    ClosedSeq(ws + rest, env);
    ClosedSeq(ws, env);
    assert forall i :: 0 <= i < |ws| ==> ws[i] == (ws + rest)[i];
    assert (ws + rest)[0] == ws[0];
    assert (ws + rest)[1..] == ws[1..] + rest;
    if VisitAppend(ws, v, reference, env, oracle) == Success(false) {
      var r := Emit(ws[0], env, oracle).value;
      var value := reference.GetOr(r.value);
      var v' := v && r.isConstant && r.value == value;
      if v' {
        assert VisitAppend(ws, v, reference, env, oracle) == VisitAppend(ws[1..], v', Some(value), env, oracle);
        assert ws[1..] != [];
        AppendStopsAtFirstFailure(ws[1..], rest, v', Some(value), env, oracle);
      }
    }
  }

  /* ---------- Add ---------- */

  /**
   * Unequal operand durations make an Add non-constant without visiting the operands;
   * equal ones make it constant exactly when both operands are.
   */
  lemma AddVerdict(l: Waveform, r: Waveform, v: bool, env: Env, oracle: Oracle)
    requires Closed(Add(l, r), env)
    ensures Duration(l).Failure? || Duration(r).Failure? ==>
      Visit(Add(l, r), v, env, oracle) == Failure(UnboundedSlice)
    ensures Duration(l).Success? && Duration(r).Success? &&
            Val(Duration(l).value, env) != Val(Duration(r).value, env) ==>
      Visit(Add(l, r), v, env, oracle) == Success(false)
    ensures Duration(l).Success? && Duration(r).Success? &&
            Val(Duration(l).value, env) == Val(Duration(r).value, env) ==>
      (Visit(Add(l, r), true, env, oracle) == Success(true) <==>
       Visit(l, true, env, oracle) == Success(true) && Visit(r, true, env, oracle) == Success(true))
  {
    if Visit(l, true, env, oracle) == Success(false) {
      VisitConjunction(r, false, env, oracle);
    }
  }

  /* ---------- emit ---------- */

  /**
   * The folded Constant lasts as long as the waveform and takes, at that duration,
   * the value the waveform takes there.
   */
  lemma EmitFolds(w: Waveform, env: Env, oracle: Oracle)
    requires Closed(w, env) && Emit(w, env, oracle).Success?
    ensures Closed(Emit(w, env, oracle).value.Folded(), env)
    ensures Duration(Emit(w, env, oracle).value.Folded()) == Success(Lit(Span(w, env)))
    ensures Eval(Emit(w, env, oracle).value.Folded(), Span(w, env), env, oracle) ==
            Eval(w, Span(w, env), env, oracle)
  {
  }

  /* ---------- soundness ---------- */

  /**
   * The variants whose evaluation the analysis can see through: not Slice (its span
   * is scalar arithmetic outside this model), not Sample, not Smooth.
   */
  predicate Plain(w: Waveform)
  {
    match w
    case Slice(_, _) => false
    case Sample(_, _, _) => false
    case Smooth(_, _, _) => false
    case Append(ws) => forall i :: 0 <= i < |ws| ==> Plain(ws[i])
    case Add(l, r) => Plain(l) && Plain(r)
    case Negative(x) => Plain(x)
    case Scale(_, x) => Plain(x)
    case Record(x, _) => Plain(x)
    case _ => true
  }

  lemma {:induction false} PolyLoopZero(cs: seq<Scalar>, env: Env, t: real, power: real)
    requires SeqVars(cs) <= env.Keys && !AnyNonZero(cs, env)
    ensures PolyLoop(cs, env, t, power) == 0.0
  {
    if cs != [] {
      PolyLoopZero(cs[1..], env, t, power * t);
    }
  }

  /** Within its duration, an Append whose every child is constant at `c` is `c`. */
  lemma {:induction false} EvalAppendConstant(ws: seq<Waveform>, t: real, acc: real, c: real, env: Env, oracle: Oracle)
    requires WaveVarsSeq(ws) <= env.Keys && AllClosed(ws, env) && AllTimed(ws)
    requires forall i, s :: 0 <= i < |ws| && 0.0 <= s <= Span(ws[i], env) ==>
      Eval(ws[i], s, env, oracle) == Success(c)
    requires acc <= t <= acc + TotalSpan(ws, env)
    requires ws != [] || acc < t
    ensures EvalAppend(ws, t, acc, env, oracle) == Success(c)
    decreases ws
  {
    if ws == [] {
      assert false;
    } else {
      var rest := ws[1..];
      AllTimedTail(ws);
      assert forall i :: 1 <= i < |ws| ==> ws[i] == rest[i - 1];
      var span := Span(ws[0], env);
      if t <= acc + span {
        assert 0.0 <= t - acc <= Span(ws[0], env);
      } else {
        ClosedSeq(ws, env);
        forall i, s | 0 <= i < |rest| && 0.0 <= s <= Span(rest[i], env)
          ensures Eval(rest[i], s, env, oracle) == Success(c)
        {
          assert rest[i] == ws[i + 1];
        }
        EvalAppendConstant(rest, t, acc + span, c, env, oracle);
      }
    }
  }

  /** Constant, Linear and Poly leaves with a constant verdict are flat. */
  lemma SoundLeaf(w: Waveform, t: real, env: Env, oracle: Oracle)
    requires Closed(w, env) && (w.Constant? || w.Linear? || w.Poly?)
    requires Emit(w, env, oracle).Success? && Emit(w, env, oracle).value.isConstant
    requires 0.0 <= t <= Emit(w, env, oracle).value.duration
    ensures Eval(w, t, env, oracle) == Success(Emit(w, env, oracle).value.value)
  {
    var e := Emit(w, env, oracle).value;
    match w
    case Constant(_, _) =>
    case Linear(a, b, d) =>
      assert Val(b, env) - Val(a, env) == 0.0;
    case Poly(cs, d) =>
      if |cs| > 0 {
        var tail := cs[1..];
        assert !AnyNonZero(tail, env) by {
          if |cs| > 1 {
            assert Visit(w, true, env, oracle) == Success(!AnyNonZero(tail, env));
          }
        }
        PolyLoopZero(tail, env, t, 1.0 * t);
        PolyLoopZero(tail, env, e.duration, 1.0 * e.duration);
        assert PolyLoop(cs, env, t, 1.0) == Val(cs[0], env) * 1.0 + PolyLoop(tail, env, t, 1.0 * t);
        assert PolyLoop(cs, env, e.duration, 1.0) ==
          Val(cs[0], env) * 1.0 + PolyLoop(tail, env, e.duration, 1.0 * e.duration);
      }
  }

  lemma {:induction false} SoundAppend(ws: seq<Waveform>, t: real, env: Env, oracle: Oracle)
    requires Closed(Append(ws), env) && Plain(Append(ws))
    requires Emit(Append(ws), env, oracle).Success? && Emit(Append(ws), env, oracle).value.isConstant
    requires 0.0 <= t <= Emit(Append(ws), env, oracle).value.duration
    ensures Eval(Append(ws), t, env, oracle) == Success(Emit(Append(ws), env, oracle).value.value)
    decreases Append(ws), 0
  {
    var e := Emit(Append(ws), env, oracle).value;
    AppendVerdict(ws, env, oracle);
    ClosedSeq(ws, env);
    AppendDuration(ws, env);
    if ws != [] {
      assert Visit(Append(ws), true, env, oracle) == Success(true);
      var c := Emit(ws[0], env, oracle).value.value;
      forall i, s | 0 <= i < |ws| && 0.0 <= s <= Span(ws[i], env)
        ensures Eval(ws[i], s, env, oracle) == Success(c)
      {
        ConstantVerdictSound(ws[i], s, env, oracle);
      }
      EvalAppendConstant(ws, t, 0.0, c, env, oracle);
      EvalAppendConstant(ws, e.duration, 0.0, c, env, oracle);
    }
  }

  lemma {:induction false} SoundAdd(l: Waveform, r: Waveform, t: real, env: Env, oracle: Oracle)
    requires Closed(Add(l, r), env) && Plain(l) && Plain(r)
    requires Emit(Add(l, r), env, oracle).Success? && Emit(Add(l, r), env, oracle).value.isConstant
    requires 0.0 <= t <= Emit(Add(l, r), env, oracle).value.duration
    ensures Eval(Add(l, r), t, env, oracle) == Success(Emit(Add(l, r), env, oracle).value.value)
    decreases Add(l, r), 0
  {
    var w := Add(l, r);
    var e := Emit(w, env, oracle).value;
    assert Visit(w, true, env, oracle) == Success(true);
    var dl := Duration(l).value;
    var dr := Duration(r).value;
    assert Val(dl, env) == Val(dr, env);
    var a := Visit(l, true, env, oracle).value;
    assert Visit(r, a, env, oracle) == Success(true);
    if !a {
      VisitConjunction(r, false, env, oracle);
      assert false;
    }
    var span := e.duration;
    assert span == Val(dl, env) && span == Val(dr, env);
    assert Eval(l, span, env, oracle).Success? && Eval(r, span, env, oracle).Success?;
    assert Emit(l, env, oracle) == Success(WaveResult(true, Eval(l, span, env, oracle).value, span));
    assert Emit(r, env, oracle) == Success(WaveResult(true, Eval(r, span, env, oracle).value, span));
    ConstantVerdictSound(l, t, env, oracle);
    ConstantVerdictSound(r, t, env, oracle);
  }

  /** A time at which a waveform takes its folded value is one at which its scaling does. */
  lemma ScaleKeepsFold(k: Scalar, x: Waveform, t: real, env: Env, oracle: Oracle)
    requires Closed(x, env) && Bound(k, env) && Emit(x, env, oracle).Success?
    requires Eval(x, t, env, oracle) == Success(Emit(x, env, oracle).value.value)
    ensures Closed(Scale(k, x), env) && Emit(Scale(k, x), env, oracle).Success?
    ensures Eval(Scale(k, x), t, env, oracle) == Success(Emit(Scale(k, x), env, oracle).value.value)
  {
    var w := Scale(k, x);
    EmitScale(k, x, env, oracle);
    ScaleEval(k, x, t, env, oracle);
    var e := Eval(w, t, env, oracle);
    assert e.value == Emit(w, env, oracle).value.value;
    assert e == Success(e.value);
  }

  lemma {:induction false} SoundUnary(w: Waveform, t: real, env: Env, oracle: Oracle)
    requires Closed(w, env) && Plain(w) && (w.Negative? || w.Scale? || w.Record?)
    requires Emit(w, env, oracle).Success? && Emit(w, env, oracle).value.isConstant
    requires 0.0 <= t <= Emit(w, env, oracle).value.duration
    ensures Eval(w, t, env, oracle) == Success(Emit(w, env, oracle).value.value)
    decreases w, 0
  {
    var x := w.waveform;
    match w
    case Negative(_) =>
      EmitNegative(x, env, oracle);
      ConstantVerdictSound(x, t, env, oracle);
    case Scale(k, _) =>
      EmitScale(k, x, env, oracle);
      ConstantVerdictSound(x, t, env, oracle);
      ScaleKeepsFold(k, x, t, env, oracle);
    case Record(_, name) =>
      EmitRecord(x, name, env, oracle);
      ConstantVerdictSound(x, t, env, oracle);
  }


  /**
   * A constant verdict is sound: at every time from 0 to the duration the waveform
   * evaluates to the folded value.
   */
  lemma {:induction false} ConstantVerdictSound(w: Waveform, t: real, env: Env, oracle: Oracle)
    requires Closed(w, env) && Plain(w)
    requires Emit(w, env, oracle).Success? && Emit(w, env, oracle).value.isConstant
    requires 0.0 <= t <= Emit(w, env, oracle).value.duration
    ensures Eval(w, t, env, oracle) == Success(Emit(w, env, oracle).value.value)
    decreases w, 1
  {
    match w
    case Append(ws) => SoundAppend(ws, t, env, oracle);
    case Add(l, r) => SoundAdd(l, r, t, env, oracle);
    case Negative(_) => SoundUnary(w, t, env, oracle);
    case Scale(_, _) => SoundUnary(w, t, env, oracle);
    case Record(_, _) => SoundUnary(w, t, env, oracle);
    case Aligned(_, _, _) =>
    case PythonFn(_, _) =>
    case _ => SoundLeaf(w, t, env, oracle);
  }
}

=== FILE: ordered_maps.dfy ===
/**
 * Insertion-ordered dictionaries, as Python's `dict` behaves: a sequence of
 * key/value entries, lookup by the first entry with the key, and assignment
 * that overwrites an existing entry in place or appends a new one at the end.
 */
module OrderedMaps {
  import opened Wrappers

  /** The keys in entry order. */
  function Keys<K, V>(m: seq<(K, V)>): (ks: seq<K>)
    ensures |ks| == |m|
    ensures forall i :: 0 <= i < |m| ==> ks[i] == m[i].0
  {
    if m == [] then [] else [m[0].0] + Keys(m[1..])
  }

  /** No key occurs in two entries: what a Python dict guarantees. */
  predicate Unique<K(==), V>(m: seq<(K, V)>)
  {
    forall i, j :: 0 <= i < j < |m| ==> m[i].0 != m[j].0
  }

  /** `m.get(k)`: the value of the first entry with key `k`. */
  function Get<K(==), V>(m: seq<(K, V)>, k: K): (r: Option<V>)
    ensures r.None? <==> k !in Keys(m)
  {
    if m == [] then None
    else if m[0].0 == k then Some(m[0].1)
    else Get(m[1..], k)
  }

  /** `m.get(k, d)`. */
  function GetOr<K(==), V>(m: seq<(K, V)>, k: K, d: V): V
  {
    Get(m, k).GetOr(d)
  }

  /**
   * `m[k] = v`: overwrite the entry with key `k` in place, or append a new entry.
   * Every other key keeps its value and the key order is otherwise unchanged.
   */
  function Put<K(==,!new), V>(m: seq<(K, V)>, k: K, v: V): (r: seq<(K, V)>)
    ensures Get(r, k) == Some(v)
    ensures forall k' :: k' != k ==> Get(r, k') == Get(m, k')
    ensures Keys(r) == if k in Keys(m) then Keys(m) else Keys(m) + [k]
  {
    if m == [] then [(k, v)]
    else if m[0].0 == k then
      var r := [(k, v)] + m[1..];
      assert r[1..] == m[1..];
      r
    else
      var rest := Put(m[1..], k, v);
      var r := [m[0]] + rest;
      assert r[1..] == rest;
      r
  }

  /** Assignment keeps the keys distinct. */
  lemma PutUnique<K(!new), V>(m: seq<(K, V)>, k: K, v: V)
    requires Unique(m)
    ensures Unique(Put(m, k, v))
  {
    var r := Put(m, k, v);
    forall i, j | 0 <= i < j < |r|
      ensures r[i].0 != r[j].0
    {
      assert Keys(r)[i] == r[i].0 && Keys(r)[j] == r[j].0;
      if k !in Keys(m) {
        assert Keys(r)[..|m|] == Keys(m);
        if j < |m| {
          assert Keys(m)[i] == m[i].0 && Keys(m)[j] == m[j].0;
        } else {
          assert Keys(m)[i] == r[i].0;
        }
      } else {
        assert Keys(m)[i] == m[i].0 && Keys(m)[j] == m[j].0;
      }
    }
  }

  /** Assigning a key that is not yet present appends one entry at the end. */
  lemma {:induction false} PutAppends<K(!new), V>(m: seq<(K, V)>, k: K, v: V)
    requires k !in Keys(m)
    ensures Put(m, k, v) == m + [(k, v)]
  {
    if m != [] {
      var rest := m[1..];
      KeysCons(m);
      PutAppends(rest, k, v);
      PutCons(m, k, v);
      ConsAppend(m, (k, v));
    }
  }

  lemma KeysCons<K, V>(m: seq<(K, V)>)
    requires m != []
    ensures Keys(m) == [m[0].0] + Keys(m[1..])
  {
  }

  lemma PutCons<K(!new), V>(m: seq<(K, V)>, k: K, v: V)
    requires m != [] && m[0].0 != k
    ensures Put(m, k, v) == [m[0]] + Put(m[1..], k, v)
  {
  }

  lemma ConsAppend<T>(m: seq<T>, x: T)
    requires m != []
    ensures m + [x] == [m[0]] + (m[1..] + [x])
  {
    assert m == [m[0]] + m[1..];
  }
}

=== FILE: parse_entry_props.dfy ===
/**
 * How the parser's entry points relate, what the sticky coupling and field name do
 * across drives and across calls, and worked builder chains.
 */
module ParseEntryProps {
  import opened Wrappers
  import opened Scalars
  import opened Waveforms
  import opened OrderedMaps
  import opened Ir
  import opened Builder
  import opened Parser

  /* ---------- frames ---------- */

  /** What the drive loop leaves behind that a caller can observe: the sequence and the selection. */
  function Seen(r: Result<ParserState, ParseError>): Result<(Sequence, Option<Coupling>, Option<FieldName>), ParseError>
  {
    if r.Success? then Success((r.value.sequence, r.value.couplingName, r.value.fieldName))
    else Failure(r.error)
  }

  /** The drive loop reads only the chain, the running sequence and the sticky selection. */
  lemma {:induction false} SequenceLoopFrame(a: ParserState, b: ParserState, pos: nat)
    requires a.chain == b.chain && a.sequence == b.sequence
    requires a.couplingName == b.couplingName && a.fieldName == b.fieldName
    ensures Seen(SequenceLoop(a, pos)) == Seen(SequenceLoop(b, pos))
    decreases |a.chain| - pos
  {
    if pos < |a.chain| {
      var (addr, next) := ReadAddress(a.chain, pos);
      var a1 := a.(couplingName := if addr.coupling.Some? then addr.coupling else a.couplingName,
                   fieldName := if addr.field.Some? then addr.field else a.fieldName);
      var b1 := b.(couplingName := if addr.coupling.Some? then addr.coupling else b.couplingName,
                   fieldName := if addr.field.Some? then addr.field else b.fieldName);
      if addr.spatial.Some? && a1.couplingName.Some? && a1.fieldName.Some? {
        var drive := ReadDrive(a.chain, addr.spatial.value, a1.fieldName.value);
        if drive.Success? {
          var (c, f) := (a1.couplingName.value, a1.fieldName.value);
          var sq := MergeDrive(a1.sequence, c, f, drive.value);
          LoopDriveStep(a, pos, addr, next, c, f, drive.value);
          LoopDriveStep(b, pos, addr, next, c, f, drive.value);
          SequenceLoopFrame(a1.(sequence := sq), b1.(sequence := sq), next);
        }
      }
    }
  }

  /** The pragma loop reads only the chain, the register, the vector names and the parameters. */
  lemma {:induction false} PragmaLoopFrame(a: ParserState, b: ParserState, j: nat)
    requires a.chain == b.chain && a.register == b.register && a.vectorNodeNames == b.vectorNodeNames
    requires a.staticParams == b.staticParams && a.batchParams == b.batchParams && a.order == b.order
    ensures PragmaLoop(a, j).Success? == PragmaLoop(b, j).Success?
    ensures PragmaLoop(a, j).Success? ==>
      var (ra, rb) := (PragmaLoop(a, j).value, PragmaLoop(b, j).value);
      ra.register == rb.register && ra.staticParams == rb.staticParams &&
      ra.batchParams == rb.batchParams && ra.order == rb.order
    decreases |a.chain| - j
  {
    if j < |a.chain| {
      match a.chain[j]
      case AssignNode(p) => PragmaLoopFrame(a.(staticParams := p), b.(staticParams := p), j + 1);
      case BatchAssignNode(p) => PragmaLoopFrame(a.(batchParams := p), b.(batchParams := p), j + 1);
      case ListAssignNode(p) => PragmaLoopFrame(a.(batchParams := p), b.(batchParams := p), j + 1);
      case ArgsNode(order) =>
        if ArgsCheck(order, a.vectorNodeNames).Success? {
          PragmaLoopFrame(a.(order := order), b.(order := order), j + 1);
        }
      case ParallelizeNode(spacing) =>
        if a.register.Some? {
          var reg := Some(ParallelRegister(a.register.value, spacing));
          PragmaLoopFrame(a.(register := reg), b.(register := reg), j + 1);
        }
      case _ =>
    }
  }

  /* ---------- the entry points ---------- */

  /**
   * `parse_circuit` adopts a SequenceBuilder's sequence right after the register, with
   * the register as read and whatever follows ignored.
   */
  lemma ParseCircuitAdopts(st: ParserState, name: string, sq: Sequence, rest: seq<Node>)
    ensures var chain := [ArrangementNode(name), SequenceBuilderNode(sq)] + rest;
      ParseCircuit(st, chain).Success? &&
      ParseCircuit(st, chain).value.0 == AnalogCircuit(Arrangement(name), sq)
  {
    var chain := [ArrangementNode(name), SequenceBuilderNode(sq)] + rest;
    assert chain[0] == ArrangementNode(name) && chain[1] == SequenceBuilderNode(sq);
  }

  /**
   * `parse` succeeds exactly when `parse_circuit` and `parse_register` both do; its
   * sequence is `parse_circuit`'s and its register is `parse_register`'s.
   */
  lemma ParseAgrees(st: ParserState, chain: seq<Node>)
    requires |chain| > 0 && chain[0].ArrangementNode?
    ensures Parse(st, chain).Success? <==> ParseCircuit(st, chain).Success? && ParseRegister(st, chain).Success?
    ensures Parse(st, chain).Success? ==>
      var r := Parse(st, chain).value.0;
      r.circuit.sequence == ParseCircuit(st, chain).value.0.sequence &&
      r.circuit.register == ParseRegister(st, chain).value.0
  {
    var s1 := ReadRegister(Reset(st, chain));
    var s2 := ReadSequence(s1);
    if s2.Success? {
      var t := s2.value;
      assert t.cursor == 1 || t.cursor == 2;
      assert FindNext(chain, t.cursor, IsPragma) == FindNext(chain, s1.cursor, IsPragma) by {
        if t.cursor == 2 {
          assert chain[1].SequenceBuilderNode?;
        }
      }
      match FindNext(chain, s1.cursor, IsPragma)
      case None =>
      case Some(i) => PragmaLoopFrame(t, s1, i);
    }
  }

  /**
   * With at least one node after the register and no SequenceBuilder there,
   * `parse_sequence` and `parse_circuit` agree on the sequence.
   */
  lemma ParseSequenceMatchesCircuit(st: ParserState, chain: seq<Node>)
    requires |chain| >= 2 && chain[0].ArrangementNode? && !chain[1].SequenceBuilderNode?
    ensures ParseSequence(st, chain).Success? == ParseCircuit(st, chain).Success?
    ensures ParseSequence(st, chain).Success? ==>
      ParseSequence(st, chain).value.0 == ParseCircuit(st, chain).value.0.sequence
  {
    var s0 := Reset(st, chain);
    var s1 := ReadRegister(s0);
    assert ReadAddress(chain, 0) == ReadAddress(chain, 1);
    assert SequenceLoop(s0, 0) == SequenceLoop(s0, 1);
    SequenceLoopFrame(s0, s1, 1);
  }

  /**
   * On a chain holding only the register the two part ways: `parse_circuit` has
   * consumed the register and finds the stream at its end, while `parse_sequence`
   * scans the register, finds no spatial modulation and returns the empty sequence.
   */
  lemma RegisterOnlyDiverges(st: ParserState, name: string)
    ensures ParseSequence(st, [ArrangementNode(name)]) ==
      Success((Sequence([]), Reset(st, [ArrangementNode(name)])))
    ensures ParseCircuit(st, [ArrangementNode(name)]) == Failure(EndOfStream)
  {
    assert FindNext([ArrangementNode(name)], 0, IsSpatial) == None;
  }

  /* ---------- a SequenceBuilder under parse_sequence ---------- */

  /**
   * `parse_sequence` does not read the register first, so the node at the cursor is the
   * register and a SequenceBuilder after it is never adopted: the drive loop finds no
   * spatial node and the result is the empty sequence, where `parse_circuit` returns
   * the builder's sequence.
   */
  lemma ParseSequenceSkipsSequenceBuilder(st: ParserState)
    ensures var sq := Sequence([(Rydberg, Pulse([]))]);
      var chain := [ArrangementNode("atoms"), SequenceBuilderNode(sq)];
      ParseSequence(st, chain).Success? && ParseSequence(st, chain).value.0 == Sequence([]) &&
      ParseCircuit(st, chain).Success? && ParseCircuit(st, chain).value.0.sequence == sq
  {
    var sq := Sequence([(Rydberg, Pulse([]))]);
    var chain := [ArrangementNode("atoms"), SequenceBuilderNode(sq)];
    assert FindNext(chain, 0, IsSpatial) == None;
  }

  /** `parse_sequence` reading past the register first, as `parse_circuit` does. */
  function ParseSequenceAfterRegister(st: ParserState, chain: seq<Node>): Result<(Sequence, ParserState), ParseError>
    requires |chain| > 0 && chain[0].ArrangementNode?
  {
    var s0 := Reset(st, chain);
    var s1 :- ReadSequence(s0.(cursor := 1));
    Success((s1.sequence, s1))
  }

  /** Reading past the register makes `parse_sequence` agree with `parse_circuit` on every chain. */
  lemma ParseSequenceAfterRegisterAgrees(st: ParserState, chain: seq<Node>)
    requires |chain| > 0 && chain[0].ArrangementNode?
    ensures ParseSequenceAfterRegister(st, chain).Success? == ParseCircuit(st, chain).Success?
    ensures ParseSequenceAfterRegister(st, chain).Success? ==>
      ParseSequenceAfterRegister(st, chain).value.0 == ParseCircuit(st, chain).value.0.sequence
  {
    var s0 := Reset(st, chain);
    var a := s0.(cursor := 1);
    var b := ReadRegister(s0);
    if 1 < |chain| && !chain[1].SequenceBuilderNode? {
      SequenceLoopFrame(a, b, 1);
    }
  }

  /* ---------- sticky selection ---------- */

  /** The first drive after the register names both a coupling and a field (or there is none). */
  predicate FirstDriveSelects(chain: seq<Node>)
  {
    var (addr, _) := ReadAddress(chain, 1);
    addr.spatial.Some? ==> addr.coupling.Some? && addr.field.Some?
  }

  /**
   * When the first drive names its coupling and field, the coupling and field left
   * over from an earlier call on the same parser do not affect `parse_circuit`.
   */
  lemma StickyIrrelevant(st1: ParserState, st2: ParserState, chain: seq<Node>)
    requires |chain| > 0 && chain[0].ArrangementNode? && FirstDriveSelects(chain)
    ensures ParseCircuit(st1, chain).Success? == ParseCircuit(st2, chain).Success?
    ensures ParseCircuit(st1, chain).Success? ==>
      ParseCircuit(st1, chain).value.0 == ParseCircuit(st2, chain).value.0
  {
    var a := ReadRegister(Reset(st1, chain));
    var b := ReadRegister(Reset(st2, chain));
    if 1 < |chain| && !chain[1].SequenceBuilderNode? {
      var (addr, next) := ReadAddress(chain, 1);
      if addr.spatial.Some? {
        var a1 := a.(couplingName := addr.coupling, fieldName := addr.field);
        var b1 := b.(couplingName := addr.coupling, fieldName := addr.field);
        var drive := ReadDrive(chain, addr.spatial.value, addr.field.value);
        if drive.Success? {
          var (c, f) := (addr.coupling.value, addr.field.value);
          var sq := MergeDrive(a1.sequence, c, f, drive.value);
          ReadSequenceLoops(a);
          ReadSequenceLoops(b);
          LoopDriveStep(a, 1, addr, next, c, f, drive.value);
          LoopDriveStep(b, 1, addr, next, c, f, drive.value);
          SequenceLoopFrame(a1.(sequence := sq), b1.(sequence := sq), next);
        }
      }
    }
  }

  /** A fresh parser: nothing selected yet. */
  function Fresh(): ParserState
  {
    ParserState([], 0, {}, Sequence([]), None, [map[]], map[], [], None, None)
  }

  function Unit(): Waveform
  {
    Constant(Lit(1.0), Lit(1.0))
  }

  function SelectingChain(): seq<Node>
  {
    [ArrangementNode("a"), RydbergNode, DetuningNode, UniformNode, PrimitiveNode(Unit(), false)]
  }

  function BareChain(): seq<Node>
  {
    [ArrangementNode("b"), UniformNode, PrimitiveNode(Unit(), false)]
  }

  function UnitDrive(): Field
  {
    Field([(UniformModulation, Unit())])
  }

  /** A fresh parser reads the selecting chain and keeps Rydberg detuning selected. */
  lemma SelectingChainSelects()
    ensures ParseCircuit(Fresh(), SelectingChain()).Success?
    ensures var used := ParseCircuit(Fresh(), SelectingChain()).value.1;
      used.couplingName == Some(Rydberg) && used.fieldName == Some(Detuning)
  {
    var first := SelectingChain();
    assert FindNext(first, 1, IsSpatial) == Some(3);
    assert ReadAddress(first, 1) == (Address(Some(Rydberg), Some(Detuning), Some(3)), 4);
    assert ReadWaveform(first, 4, None, Detuning) == Success((Some(Unit()), 5));
    assert ReadDrive(first, 3, Detuning) == Success(UnitDrive());
    assert FindNext(first, 4, IsSpatial) == None;
    var s1 := ReadRegister(Reset(Fresh(), first));
    assert s1.cursor == 1 && s1.chain == first;
    assert ReadSequence(s1) == SequenceLoop(s1, 1);
    var s2 := s1.(couplingName := Some(Rydberg), fieldName := Some(Detuning),
                  sequence := MergeDrive(s1.sequence, Rydberg, Detuning, UnitDrive()));
    assert SequenceLoop(s1, 1) == SequenceLoop(s2, 4);
    assert SequenceLoop(s2, 4) == Success(s2);
  }

  /**
   * The selection leaks between calls: after parsing a chain that selects Rydberg
   * detuning, the same parser accepts a chain whose drive names no coupling or field,
   * and files it under Rydberg detuning; a fresh parser rejects that chain.
   */
  lemma StickyLeaks()
    ensures ParseCircuit(Fresh(), BareChain()) == Failure(NoCoupling)
    ensures ParseCircuit(Fresh(), SelectingChain()).Success?
    ensures var used := ParseCircuit(Fresh(), SelectingChain()).value.1;
      ParseCircuit(used, BareChain()).Success? &&
      ParseCircuit(used, BareChain()).value.0.sequence ==
        Sequence([(Rydberg, Pulse([(Detuning, UnitDrive())]))])
  {
    var second := BareChain();
    assert FindNext(second, 1, IsSpatial) == Some(1);
    assert ReadAddress(second, 1) == (Address(None, None, Some(1)), 2);
    assert ReadWaveform(second, 2, None, Detuning) == Success((Some(Unit()), 3));
    assert ReadDrive(second, 1, Detuning) == Success(UnitDrive());
    assert FindNext(second, 2, IsSpatial) == None;
    var f1 := ReadRegister(Reset(Fresh(), second));
    assert f1.cursor == 1 && f1.chain == second && f1.couplingName == None;
    assert ReadSequence(f1) == SequenceLoop(f1, 1);
    assert SequenceLoop(f1, 1) == Failure(NoCoupling);

    SelectingChainSelects();
    var used := ParseCircuit(Fresh(), SelectingChain()).value.1;
    var u1 := ReadRegister(Reset(used, second));
    assert u1.cursor == 1 && u1.chain == second && u1.sequence == Sequence([]);
    assert u1.couplingName == Some(Rydberg) && u1.fieldName == Some(Detuning);
    assert ReadSequence(u1) == SequenceLoop(u1, 1);
    var sq := Sequence([(Rydberg, Pulse([(Detuning, UnitDrive())]))]);
    assert MergeDrive(Sequence([]), Rydberg, Detuning, UnitDrive()) == sq;
    var u2 := u1.(sequence := sq);
    assert SequenceLoop(u1, 1) == SequenceLoop(u2, 2);
    assert SequenceLoop(u2, 2) == Success(u2);
  }

  /* ---------- worked chains ---------- */

  function Ramp(): Waveform
  {
    Linear(Lit(0.0), Lit(1.0), Lit(1.0))
  }

  function Fall(): Waveform
  {
    Linear(Lit(1.0), Lit(0.0), Lit(1.0))
  }

  /**
   * Two drives on the same uniform key, the second naming no coupling or field: both
   * land under Rydberg detuning, and the second is added to the first, not written over it.
   */
  lemma SameKeyDrivesAdd()
    ensures var chain := [ArrangementNode("a"), RydbergNode, DetuningNode,
                          UniformNode, PrimitiveNode(Ramp(), false),
                          UniformNode, PrimitiveNode(Ramp(), false)];
      ParseCircuit(Fresh(), chain).Success? &&
      ParseCircuit(Fresh(), chain).value.0.sequence ==
        Sequence([(Rydberg, Pulse([(Detuning, Field([(UniformModulation, Add(Ramp(), Ramp()))]))]))])
  {
    var chain := SameKeyChain();
    SameKeyReads();
    SameKeyMerges();
    var drive := Field([(UniformModulation, Ramp())]);
    var sq1 := Sequence([(Rydberg, Pulse([(Detuning, drive)]))]);
    var s1 := ReadRegister(Reset(Fresh(), chain));
    ReadSequenceLoops(s1);
    LoopDriveStep(s1, 1, Address(Some(Rydberg), Some(Detuning), Some(3)), 4, Rydberg, Detuning, drive);
    var s2 := s1.(couplingName := Some(Rydberg), fieldName := Some(Detuning), sequence := sq1);
    LoopDriveStep(s2, 4, Address(None, None, Some(5)), 6, Rydberg, Detuning, drive);
    LoopEnd(s2.(sequence := MergeDrive(sq1, Rydberg, Detuning, drive)), 6);
  }

  function SameKeyChain(): seq<Node>
  {
    [ArrangementNode("a"), RydbergNode, DetuningNode,
     UniformNode, PrimitiveNode(Ramp(), false),
     UniformNode, PrimitiveNode(Ramp(), false)]
  }

  /** The addresses and drives the sequence pass reads from `SameKeyChain`. */
  lemma SameKeyReads()
    ensures ReadAddress(SameKeyChain(), 1) == (Address(Some(Rydberg), Some(Detuning), Some(3)), 4)
    ensures ReadAddress(SameKeyChain(), 4) == (Address(None, None, Some(5)), 6)
    ensures FindNext(SameKeyChain(), 6, IsSpatial) == None
    ensures ReadDrive(SameKeyChain(), 3, Detuning) == Success(Field([(UniformModulation, Ramp())]))
    ensures ReadDrive(SameKeyChain(), 5, Detuning) == Success(Field([(UniformModulation, Ramp())]))
  {
    var chain := SameKeyChain();
    assert FindNext(chain, 1, IsSpatial) == Some(3);
    assert FindNext(chain, 4, IsSpatial) == Some(5);
    assert ReadWaveform(chain, 4, None, Detuning) == Success((Some(Ramp()), 5));
    assert ReadWaveform(chain, 6, None, Detuning) == Success((Some(Ramp()), 7));
  }

  /** The two merges of `SameKeyChain`'s drives: the first creates the field, the second adds to it. */
  lemma SameKeyMerges()
    ensures var drive := Field([(UniformModulation, Ramp())]);
      var sq1 := Sequence([(Rydberg, Pulse([(Detuning, drive)]))]);
      MergeDrive(Sequence([]), Rydberg, Detuning, drive) == sq1 &&
      MergeDrive(sq1, Rydberg, Detuning, drive) ==
        Sequence([(Rydberg, Pulse([(Detuning, Field([(UniformModulation, Add(Ramp(), Ramp()))]))]))])
  {
    var drive := Field([(UniformModulation, Ramp())]);
    var sq1 := Sequence([(Rydberg, Pulse([(Detuning, drive)]))]);
    assert FieldAdd(drive, drive) == Field([(UniformModulation, Add(Ramp(), Ramp()))]);
    var sq2 := Sequence([(Rydberg, Pulse([(Detuning, Field([(UniformModulation, Add(Ramp(), Ramp()))]))]))]);
    assert GetOr(sq1.pulses, Rydberg, Pulse([])) == Pulse([(Detuning, drive)]);
    assert GetOr([(Detuning, drive)], Detuning, Field([])) == drive;
    var added := Field([(UniformModulation, Add(Ramp(), Ramp()))]);
    assert Put([(Detuning, drive)], Detuning, added) == [(Detuning, added)];
    assert Put(sq1.pulses, Rydberg, Pulse([(Detuning, added)])) == sq2.pulses;
  }

  function RampThenFall(): seq<Node>
  {
    [ArrangementNode("a"), RydbergNode, DetuningNode,
     UniformNode, PrimitiveNode(Ramp(), false), PrimitiveNode(Fall(), false)]
  }

  /** The drive read at the uniform node of `RampThenFall` appends the two primitives. */
  lemma RampThenFallDrive()
    ensures ReadDrive(RampThenFall(), 3, Detuning) == Success(Field([(UniformModulation, Append([Ramp(), Fall()]))]))
  {
    var chain := RampThenFall();
    assert Flatten([Ramp(), Fall()]) == [Ramp(), Fall()];
    assert CanonicalizeAll([Ramp(), Fall()]) == Success([Ramp(), Fall()]);
    assert AppendWave(Ramp(), Fall()) == Success(Append([Ramp(), Fall()]));
    assert ReadWaveform(chain, 6, Some(Append([Ramp(), Fall()])), Detuning)
        == Success((Some(Append([Ramp(), Fall()])), 6));
    assert ReadWaveform(chain, 5, Some(Ramp()), Detuning)
        == Success((Some(Append([Ramp(), Fall()])), 6));
    assert ReadWaveform(chain, 4, None, Detuning) == Success((Some(Append([Ramp(), Fall()])), 6));
  }

  /** Two chained primitives under one drive become their Append, in call order. */
  lemma ChainedPrimitivesAppend()
    ensures var chain := RampThenFall();
      ParseCircuit(Fresh(), chain).Success? &&
      ParseCircuit(Fresh(), chain).value.0.sequence ==
        Sequence([(Rydberg, Pulse([(Detuning, Field([(UniformModulation, Append([Ramp(), Fall()]))]))]))])
  {
    var chain := RampThenFall();
    assert FindNext(chain, 1, IsSpatial) == Some(3);
    assert ReadAddress(chain, 1) == (Address(Some(Rydberg), Some(Detuning), Some(3)), 4);
    RampThenFallDrive();
    var drive := Field([(UniformModulation, Append([Ramp(), Fall()]))]);
    var s1 := ReadRegister(Reset(Fresh(), chain));
    assert ReadSequence(s1) == SequenceLoop(s1, 1);
    var sq := Sequence([(Rydberg, Pulse([(Detuning, drive)]))]);
    assert MergeDrive(Sequence([]), Rydberg, Detuning, drive) == sq;
    LoopDriveStep(s1, 1, Address(Some(Rydberg), Some(Detuning), Some(3)), 4, Rydberg, Detuning, drive);
    assert FindNext(chain, 4, IsSpatial) == None;
    LoopEnd(s1.(couplingName := Some(Rydberg), fieldName := Some(Detuning), sequence := sq), 4);
  }

  /** One drive of the sequence pass: select, read the drive, merge it, and go on after it. */
  lemma LoopDriveStep(st: ParserState, pos: nat, addr: Address, next: nat, c: Coupling, f: FieldName, drive: Field)
    requires pos < |st.chain| && ReadAddress(st.chain, pos) == (addr, next)
    requires addr.spatial.Some? && addr.spatial.value < |st.chain| && IsSpatial(st.chain[addr.spatial.value])
    requires (if addr.coupling.Some? then addr.coupling else st.couplingName) == Some(c)
    requires (if addr.field.Some? then addr.field else st.fieldName) == Some(f)
    requires ReadDrive(st.chain, addr.spatial.value, f) == Success(drive)
    ensures SequenceLoop(st, pos) ==
      SequenceLoop(st.(couplingName := Some(c), fieldName := Some(f), sequence := MergeDrive(st.sequence, c, f, drive)), next)
  {
  }

  /** Without a SequenceBuilder at the cursor, the sequence pass is the drive loop from there. */
  lemma ReadSequenceLoops(st: ParserState)
    requires Valid(st) && st.cursor < |st.chain| && !st.chain[st.cursor].SequenceBuilderNode?
    ensures ReadSequence(st) == SequenceLoop(st, st.cursor)
  {
  }

  /** With no spatial modulation left, the sequence pass is done. */
  lemma LoopEnd(st: ParserState, pos: nat)
    requires FindNext(st.chain, pos, IsSpatial) == None
    ensures SequenceLoop(st, pos) == Success(st)
  {
  }
}

=== FILE: parser.dfy ===
/**
 * `Parser` (bloqade/builder/parse/builder.py): lowers a builder chain into a register,
 * a Sequence and execution parameters. The parser's attributes are an explicit state
 * record threaded through every pass; the stream is the chain with a cursor.
 */
module Parser {
  import opened Wrappers
  import opened Scalars
  import opened Waveforms
  import opened OrderedMaps
  import opened Ir
  import opened Builder

  /** What a parse can raise. */
  datatype ParseError =
    | EndOfStream               // the stream's current node is read past the end
    | NoCoupling                // a drive before any coupling was ever selected
    | NoFieldName               // a drive before any field was ever selected
    | NoWaveform                // Slice or Record with no waveform accumulated yet
    | NotLowerable              // a Sample whose parent is not a waveform primitive
    | EmptyDrive                // a spatial modulation followed by no waveform
    | NoRegister                // Parallelize with no register read
    | DuplicateNames(dup: seq<string>)
    | VectorNameArgs(names: set<string>)
    | Wave(err: WaveError)      // raised by the waveform IR while building

  /**
   * The parser's attributes. `couplingName` and `fieldName` are only ever assigned by
   * the sequence pass and are absent until then.
   */
  datatype ParserState = ParserState(
    chain: seq<Node>,
    cursor: nat,
    vectorNodeNames: set<string>,
    sequence: Sequence,
    register: Option<Register>,
    batchParams: seq<ParamMap>,
    staticParams: ParamMap,
    order: seq<string>,
    couplingName: Option<Coupling>,
    fieldName: Option<FieldName>)

  predicate Valid(st: ParserState)
  {
    st.cursor <= |st.chain|
  }

  /**
   * `reset`: a fresh stream over `chain`, an empty sequence, no register, one empty
   * batch, no static parameters, no argument order. The current coupling and field
   * name are left as they were.
   */
  function Reset(st: ParserState, chain: seq<Node>): (r: ParserState)
    ensures Valid(r) && r.chain == chain && r.cursor == 0
    ensures r.couplingName == st.couplingName && r.fieldName == st.fieldName
    ensures r.sequence.pulses == [] && r.register.None? && r.vectorNodeNames == {}
    ensures r.batchParams == [map[]] && r.staticParams == map[] && r.order == []
  {
    ParserState(chain, 0, {}, Sequence([]), None, [map[]], map[], [],
                st.couplingName, st.fieldName)
  }

  /* ---------- the stream ---------- */

  /**
   * `read_next`: the index of the first node at or after `from` satisfying `p`; the
   * nodes skipped over do not satisfy it.
   */
  function FindNext(chain: seq<Node>, from: nat, p: Node -> bool): (r: Option<nat>)
    ensures r.Some? ==> from <= r.value < |chain| && p(chain[r.value])
    ensures r.Some? ==> forall j :: from <= j < r.value ==> !p(chain[j])
    ensures r.None? ==> forall j :: from <= j < |chain| ==> !p(chain[j])
    decreases |chain| - from
  {
    if from >= |chain| then None
    else if p(chain[from]) then Some(from)
    else FindNext(chain, from + 1, p)
  }

  /** The node `k` steps up the parent chain from index `i`, if there is one. */
  function Ancestor(chain: seq<Node>, i: nat, k: nat): Option<Node>
    requires i < |chain|
  {
    if k <= i then Some(chain[i - k]) else None
  }

  /* ---------- addresses ---------- */

  /** What `read_address` reports: a new coupling, a new field name, the spatial node. */
  datatype Address = Address(coupling: Option<Coupling>, field: Option<FieldName>, spatial: Option<nat>)

  /**
   * `read_address`: find the next spatial modulation. If its parent is a field node,
   * that field is reported, with the coupling two steps up (Detuning) or three steps
   * up past the rabi router (amplitude, phase), unless that node is not a coupling.
   * Returns the address and where the stream's cursor is left.
   */
  function ReadAddress(chain: seq<Node>, from: nat): (Address, nat)
  {
    match FindNext(chain, from, IsSpatial)
    case None => (Address(None, None, None), |chain|)
    case Some(i) =>
      var parent := Ancestor(chain, i, 1);
      if parent.Some? && IsField(parent.value) then
        var up := if parent.value.DetuningNode? then 2 else 3;
        var c := Ancestor(chain, i, up);
        var coupling := if c.Some? then CouplingOf(c.value) else None;
        (Address(coupling, Some(FieldNameOf(parent.value)), Some(i)), i + 1)
      else (Address(None, None, Some(i)), i + 1)
  }

  /* ---------- waveforms ---------- */

  function LiftWave<T>(r: Result<T, WaveError>): Result<T, ParseError>
  {
    match r
    case Success(v) => Success(v)
    case Failure(e) => Failure(Wave(e))
  }

  /** The accumulated waveform followed by `w`: `w` itself, or `acc.append(w)`. */
  function Join(acc: Option<Waveform>, w: Waveform): Result<Waveform, ParseError>
  {
    if acc.None? then Success(w) else LiftWave(AppendWave(acc.value, w))
  }

  /** The interpolation a Sample uses: its own, else Constant on rabi phase and Linear otherwise. */
  function SampleInterpolation(given: Option<Interpolation>, field: FieldName): (r: Interpolation)
    ensures given.Some? ==> r == given.value
    ensures given.None? ==> (r == ConstantInterpolation <==> field == RabiPhase)
  {
    if given.Some? then given.value
    else if field == RabiPhase then ConstantInterpolation
    else LinearInterpolation
  }

  /** `node.__parent__.__bloqade_ir__()` for a Sample node at index `j`. */
  function ParentIr(chain: seq<Node>, j: nat): Result<Waveform, ParseError>
    requires j < |chain|
  {
    if j >= 1 && chain[j - 1].PrimitiveNode? then Success(chain[j - 1].ir) else Failure(NotLowerable)
  }

  /**
   * `read_waveform` from index `j` with `acc` accumulated so far: fold the waveform
   * nodes into one waveform, stopping at the first node of any other kind (or the end).
   * Returns the waveform, if any, and the index where the fold stopped.
   */
  function ReadWaveform(chain: seq<Node>, j: nat, acc: Option<Waveform>, field: FieldName)
    : (r: Result<(Option<Waveform>, nat), ParseError>)
    ensures r.Success? ==> j <= r.value.1
    decreases |chain| - j
  {
    if j >= |chain| then Success((acc, j))
    else match chain[j]
      case SliceNode(a, b) =>
        if acc.None? then Failure(NoWaveform)
        else
          var w :- LiftWave(Canonicalize(Slice(acc.value, Interval(a, b))));
          ReadWaveform(chain, j + 1, Some(w), field)
      case RecordNode(name) =>
        if acc.None? then Failure(NoWaveform)
        else ReadWaveform(chain, j + 1, Some(Record(acc.value, name)), field)
      case SampleNode(interp, dt) =>
        var fn :- ParentIr(chain, j);
        var w :- Join(acc, Sample(fn, SampleInterpolation(interp, field), dt));
        ReadWaveform(chain, j + 1, Some(w), field)
      case PrimitiveNode(ir, isFn) =>
        if isFn && j + 1 < |chain| && chain[j + 1].SampleNode? then
          ReadWaveform(chain, j + 1, acc, field)
        else
          var w :- Join(acc, ir);
          ReadWaveform(chain, j + 1, Some(w), field)
      case _ => Success((acc, j))
  }

  /**
   * `read_drive` at a spatial node: its key bound to the waveform read from the next
   * node on. It fails with the waveform read's error, or with `EmptyDrive` exactly
   * when that read finds no waveform.
   */
  function ReadDrive(chain: seq<Node>, i: nat, field: FieldName): (r: Result<Field, ParseError>)
    requires i < |chain| && IsSpatial(chain[i])
    ensures r.Success? ==> |r.value.drives| == 1 && r.value.drives[0].0 == SpatialKey(chain[i])
    ensures var read := ReadWaveform(chain, i + 1, None, field);
      r.Success? <==> read.Success? && read.value.0.Some?
    ensures var read := ReadWaveform(chain, i + 1, None, field);
      r.Success? ==> r.value.drives[0].1 == read.value.0.value
    ensures var read := ReadWaveform(chain, i + 1, None, field);
      read.Failure? ==> r == Failure(read.error)
    ensures var read := ReadWaveform(chain, i + 1, None, field);
      read.Success? && read.value.0.None? ==> r == Failure(EmptyDrive)
  {
    var (wf, _) :- ReadWaveform(chain, i + 1, None, field);
    if wf.None? then Failure(EmptyDrive)
    else Success(Field([(SpatialKey(chain[i]), wf.value)]))
  }

  /* ---------- the sequence pass ---------- */

  /**
   * Merge `drive` into the field at (`c`, `f`) of `sq` with `Field.add`, writing the
   * updated pulse and field back.
   */
  function MergeDrive(sq: Sequence, c: Coupling, f: FieldName, drive: Field): Sequence
  {
    var pulse := GetOr(sq.pulses, c, Pulse([]));
    var field := GetOr(pulse.fields, f, Field([]));
    Sequence(Put(sq.pulses, c, Pulse(Put(pulse.fields, f, FieldAdd(field, drive)))))
  }

  /** The loop of `read_sequence`, scanning from `pos` on a copy of the stream. */
  function SequenceLoop(st: ParserState, pos: nat): (r: Result<ParserState, ParseError>)
    ensures r.Success? ==> r.value.chain == st.chain && r.value.cursor == st.cursor
    ensures r.Success? ==> r.value.register == st.register && r.value.order == st.order
    ensures r.Success? ==> r.value.staticParams == st.staticParams && r.value.batchParams == st.batchParams
    ensures r.Success? ==> r.value.vectorNodeNames == st.vectorNodeNames
    decreases |st.chain| - pos
  {
    if pos >= |st.chain| then Success(st)
    else
      var (addr, next) := ReadAddress(st.chain, pos);
      var st1 := st.(couplingName := if addr.coupling.Some? then addr.coupling else st.couplingName,
                     fieldName := if addr.field.Some? then addr.field else st.fieldName);
      if addr.spatial.None? then Success(st1)
      else
        var i := addr.spatial.value;
        var c :- if st1.couplingName.Some? then Success(st1.couplingName.value) else Failure(NoCoupling);
        var f :- if st1.fieldName.Some? then Success(st1.fieldName.value) else Failure(NoFieldName);
        var drive :- ReadDrive(st.chain, i, f);
        SequenceLoop(st1.(sequence := MergeDrive(st1.sequence, c, f, drive)), next)
  }

  /**
   * `read_sequence`: adopt a SequenceBuilder's sequence at the cursor (consuming that
   * node), or else run the drive loop on a copy of the stream.
   */
  function ReadSequence(st: ParserState): (r: Result<ParserState, ParseError>)
    requires Valid(st)
    ensures r.Success? ==> Valid(r.value) && r.value.chain == st.chain
    ensures r.Success? ==> r.value.register == st.register && r.value.order == st.order
    ensures r.Success? ==> r.value.staticParams == st.staticParams && r.value.batchParams == st.batchParams
    ensures r.Success? ==> r.value.vectorNodeNames == st.vectorNodeNames
  {
    if st.cursor == |st.chain| then Failure(EndOfStream)
    else match st.chain[st.cursor]
      case SequenceBuilderNode(sq) => Success(st.(sequence := sq, cursor := st.cursor + 1))
      case _ => SequenceLoop(st, st.cursor)
  }

  /* ---------- the register and pragma passes ---------- */

  /** `read_register`: the node at the cursor is the register; the cursor moves past it. */
  function ReadRegister(st: ParserState): (r: ParserState)
    requires Valid(st) && st.cursor < |st.chain| && st.chain[st.cursor].ArrangementNode?
    ensures Valid(r) && r.register == Some(Arrangement(st.chain[st.cursor].name))
    ensures r == st.(register := r.register, cursor := st.cursor + 1)
  {
    st.(register := Some(Arrangement(st.chain[st.cursor].name)), cursor := st.cursor + 1)
  }

  /** Every name that occurs in `xs` after an earlier occurrence or after being in `seen`. */
  function DupScan(xs: seq<string>, seen: set<string>): seq<string>
  {
    if xs == [] then []
    else if xs[0] in seen then [xs[0]] + DupScan(xs[1..], seen)
    else DupScan(xs[1..], seen + {xs[0]})
  }

  /** The duplicates `read_pragmas` reports for an `Args` order: each repeat occurrence. */
  function Duplicates(order: seq<string>): seq<string>
  {
    DupScan(order, {})
  }

  /** The `Args` checks: no repeated name, no name that is a run-time vector's. */
  function ArgsCheck(order: seq<string>, vectorNames: set<string>): Result<seq<string>, ParseError>
  {
    var dup := Duplicates(order);
    if dup != [] then Failure(DuplicateNames(dup))
    else
      var clash := set x | x in order && x in vectorNames;
      if clash != {} then Failure(VectorNameArgs(clash))
      else Success(order)
  }

  /** The pragma loop: apply consecutive pragma nodes from `j`, stopping at any other kind. */
  function PragmaLoop(st: ParserState, j: nat): (r: Result<ParserState, ParseError>)
    ensures r.Success? ==> r.value.chain == st.chain && r.value.cursor == st.cursor
    ensures r.Success? ==> r.value.sequence == st.sequence && r.value.vectorNodeNames == st.vectorNodeNames
    ensures r.Success? ==> r.value.couplingName == st.couplingName && r.value.fieldName == st.fieldName
    ensures r.Success? && st.register.Some? ==> r.value.register.Some?
    decreases |st.chain| - j
  {
    if j >= |st.chain| then Success(st)
    else match st.chain[j]
      case AssignNode(p) => PragmaLoop(st.(staticParams := p), j + 1)
      case BatchAssignNode(b) => PragmaLoop(st.(batchParams := b), j + 1)
      case ListAssignNode(b) => PragmaLoop(st.(batchParams := b), j + 1)
      case ArgsNode(order) =>
        var o :- ArgsCheck(order, st.vectorNodeNames);
        PragmaLoop(st.(order := o), j + 1)
      case ParallelizeNode(spacing) =>
        if st.register.None? then Failure(NoRegister)
        else PragmaLoop(st.(register := Some(ParallelRegister(st.register.value, spacing))), j + 1)
      case _ => Success(st)
  }

  /** `read_pragmas`: find the first pragma after the cursor, then apply the run it starts. */
  function ReadPragmas(st: ParserState): (r: Result<ParserState, ParseError>)
    requires Valid(st)
    ensures r.Success? ==> Valid(r.value) && r.value.chain == st.chain && r.value.cursor == st.cursor
    ensures r.Success? ==> r.value.sequence == st.sequence && r.value.vectorNodeNames == st.vectorNodeNames
    ensures r.Success? ==> r.value.couplingName == st.couplingName && r.value.fieldName == st.fieldName
    ensures r.Success? && st.register.Some? ==> r.value.register.Some?
  {
    match FindNext(st.chain, st.cursor, IsPragma)
    case None => Success(st)
    case Some(i) => PragmaLoop(st, i)
  }

  /* ---------- entry points ---------- */

  /** `parse_register`: reset, read the register, apply the pragmas. */
  function ParseRegister(st: ParserState, chain: seq<Node>): Result<(Register, ParserState), ParseError>
    requires |chain| > 0 && chain[0].ArrangementNode?
  {
    var s1 := ReadRegister(Reset(st, chain));
    var s2 :- ReadPragmas(s1);
    Success((s2.register.value, s2))
  }

  /** `parse_sequence`: reset, run the sequence pass. */
  function ParseSequence(st: ParserState, chain: seq<Node>): Result<(Sequence, ParserState), ParseError>
  {
    var s1 :- ReadSequence(Reset(st, chain));
    Success((s1.sequence, s1))
  }

  /** `parse_circuit`: reset, read the register, run the sequence pass. */
  function ParseCircuit(st: ParserState, chain: seq<Node>): Result<(AnalogCircuit, ParserState), ParseError>
    requires |chain| > 0 && chain[0].ArrangementNode?
  {
    var s1 := ReadRegister(Reset(st, chain));
    var s2 :- ReadSequence(s1);
    Success((AnalogCircuit(s2.register.value, s2.sequence), s2))
  }

  /** `parse`: reset, register, sequence, pragmas; then the circuit and its parameters. */
  function Parse(st: ParserState, chain: seq<Node>): Result<(Routine, ParserState), ParseError>
    requires |chain| > 0 && chain[0].ArrangementNode?
  {
    var s1 := ReadRegister(Reset(st, chain));
    var s2 :- ReadSequence(s1);
    var s3 :- ReadPragmas(s2);
    var params := Params(s3.staticParams, s3.batchParams, s3.order);
    Success((Routine(AnalogCircuit(s3.register.value, s3.sequence), params), s3))
  }
}

=== FILE: parser_props.dfy ===
/**
 * Properties of the parser: what an address scan reports, how a drive's waveform
 * nodes fold, what the sequence pass rewrites, the `Args` checks, the pragma scan,
 * and how the entry points relate.
 */
module ParserProps {
  import opened Wrappers
  import opened Scalars
  import opened Waveforms
  import opened OrderedMaps
  import opened Ir
  import opened Builder
  import opened Parser
  import CanonicalizeProps

  /* ---------- addresses ---------- */

  /**
   * `read_address` reports the first spatial node at or after `from` and leaves the
   * cursor just past it. A field is reported exactly when the node's parent is a field
   * node, and a coupling only together with a field, read from the coupling node above
   * it (two steps up for Detuning, three past the rabi router otherwise).
   */
  lemma ReadAddressSpec(chain: seq<Node>, from: nat)
    ensures var (a, next) := ReadAddress(chain, from);
      (a.spatial.None? <==> forall j :: from <= j < |chain| ==> !IsSpatial(chain[j])) &&
      (a.spatial.None? ==> a.coupling.None? && a.field.None?) &&
      (a.spatial.Some? ==>
        var i := a.spatial.value;
        from <= i < |chain| && IsSpatial(chain[i]) && next == i + 1 &&
        (forall j :: from <= j < i ==> !IsSpatial(chain[j])) &&
        (a.field.Some? <==> i >= 1 && IsField(chain[i - 1])) &&
        (a.field.Some? ==> a.field.value == FieldNameOf(chain[i - 1])) &&
        (a.coupling.Some? ==>
          a.field.Some? &&
          var up := if chain[i - 1].DetuningNode? then 2 else 3;
          up <= i && CouplingOf(chain[i - up]) == a.coupling) &&
        (a.field.Some? ==>
          var up := if chain[i - 1].DetuningNode? then 2 else 3;
          up <= i && CouplingOf(chain[i - up]).Some? ==> a.coupling.Some?))
  {
  }

  /* ---------- waveforms ---------- */

  /** A node that `read_waveform` folds rather than stopping at. */
  predicate IsWaveformNode(n: Node)
  {
    n.PrimitiveNode? || n.SliceNode? || n.RecordNode? || n.SampleNode?
  }

  /** A single leaf shape. */
  predicate IsLeaf(w: Waveform)
  {
    w.Constant? || w.Linear? || w.Poly? || w.PythonFn?
  }

  /**
   * What a waveform primitive lowers to: a leaf, or an Append of leaves (the piecewise
   * primitives).
   */
  predicate IsPiece(w: Waveform)
  {
    IsLeaf(w) || (w.Append? && forall i :: 0 <= i < |w.waveforms| ==> IsLeaf(w.waveforms[i]))
  }

  /**
   * The waveform a run of chained primitives denotes: the first alone, or one flat
   * Append of all their leaves in call order.
   */
  function Chained(ps: seq<Waveform>): Waveform
    requires |ps| >= 1
  {
    if |ps| == 1 then ps[0] else Append(Flatten(ps))
  }

  /** The IRs of the `n` primitive nodes from index `j`, in order. */
  function RunIrs(chain: seq<Node>, j: nat, n: nat): (ps: seq<Waveform>)
    requires j + n <= |chain| && forall m :: j <= m < j + n ==> chain[m].PrimitiveNode?
    ensures |ps| == n && forall i :: 0 <= i < n ==> ps[i] == chain[j + i].ir
  {
    if n == 0 then [] else RunIrs(chain, j, n - 1) + [chain[j + n - 1].ir]
  }

  lemma {:induction false} CanonicalizeLeaves(ws: seq<Waveform>)
    requires forall i :: 0 <= i < |ws| ==> !ws[i].Append? && !ws[i].Add?
    ensures CanonicalizeAll(ws) == Success(ws)
  {
    CanonicalizeProps.CanonicalizeAllEach(ws);
    assert forall i :: 0 <= i < |ws| ==> Canonicalize(ws[i]) == Success(ws[i]);
    var cs := CanonicalizeAll(ws).value;
    assert cs == ws;
  }

  /** Flattening pieces leaves only leaves. */
  lemma {:induction false} FlattenPieces(ps: seq<Waveform>)
    requires forall i :: 0 <= i < |ps| ==> IsPiece(ps[i])
    ensures forall i :: 0 <= i < |Flatten(ps)| ==> IsLeaf(Flatten(ps)[i])
  {
    if ps != [] {
      FlattenPieces(ps[1..]);
      var a, b := Splice(ps[0]), Flatten(ps[1..]);
      assert forall i :: 0 <= i < |a| ==> IsLeaf(a[i]);
      assert forall i :: 0 <= i < |a + b| ==> (a + b)[i] == if i < |a| then a[i] else b[i - |a|];
    }
  }

  /** Appending one more piece to a chained run extends the run. */
  lemma {:induction false} AppendPiece(ps: seq<Waveform>, p: Waveform)
    requires |ps| >= 1 && forall i :: 0 <= i < |ps| ==> IsPiece(ps[i])
    requires IsPiece(p)
    ensures AppendWave(Chained(ps), p) == Success(Chained(ps + [p]))
  {
    var qs := ps + [p];
    assert forall i :: 0 <= i < |qs| ==> IsPiece(qs[i]);
    FlattenPieces(qs);
    CanonicalizeLeaves(Flatten(qs));
    CanonicalizeProps.FlattenConcat(ps, [p]);
    if |ps| == 1 {
      assert [ps[0], p] == qs;
    } else {
      CanonicalizeProps.FlattenOne(p);
      CanonicalizeProps.FlattenConcat([Append(Flatten(ps))], [p]);
      CanonicalizeProps.FlattenOne(Append(Flatten(ps)));
      assert [Append(Flatten(ps)), p] == [Append(Flatten(ps))] + [p];
    }
  }

  /** A primitive node that is not a sampled function appends its IR and moves on. */
  lemma ReadPrimitiveStep(chain: seq<Node>, i: nat, a: Waveform, w: Waveform, field: FieldName)
    requires i < |chain| && chain[i].PrimitiveNode?
    requires !(chain[i].isFn && i + 1 < |chain| && chain[i + 1].SampleNode?)
    requires AppendWave(a, chain[i].ir) == Success(w)
    ensures ReadWaveform(chain, i, Some(a), field) == ReadWaveform(chain, i + 1, Some(w), field)
  {
  }

  /** One more primitive of the run extends the chained waveform by its IR. */
  lemma RunStep(chain: seq<Node>, j: nat, k: nat, n: nat)
    requires 1 <= k < n && j + n <= |chain|
    requires forall m :: j <= m < j + n ==> chain[m].PrimitiveNode? && IsPiece(chain[m].ir)
    requires j + n == |chain| || !IsWaveformNode(chain[j + n])
    ensures AppendWave(Chained(RunIrs(chain, j, k)), chain[j + k].ir) == Success(Chained(RunIrs(chain, j, k + 1)))
    ensures !(chain[j + k].isFn && j + k + 1 < |chain| && chain[j + k + 1].SampleNode?)
  {
    var ps := RunIrs(chain, j, k);
    assert RunIrs(chain, j, k + 1) == ps + [chain[j + k].ir];
    assert forall i :: 0 <= i < |ps| ==> IsPiece(ps[i]) by {
      forall i | 0 <= i < |ps| ensures IsPiece(ps[i]) {
        assert ps[i] == chain[j + i].ir;
      }
    }
    AppendPiece(ps, chain[j + k].ir);
  }

  /** Reading one more primitive of the run moves the fold on to the longer run. */
  lemma ReadPieceStep(chain: seq<Node>, j: nat, k: nat, n: nat, field: FieldName)
    requires 1 <= k < n && j + n <= |chain|
    requires forall m :: j <= m < j + n ==> chain[m].PrimitiveNode? && IsPiece(chain[m].ir)
    requires j + n == |chain| || !IsWaveformNode(chain[j + n])
    ensures ReadWaveform(chain, j + k, Some(Chained(RunIrs(chain, j, k))), field)
         == ReadWaveform(chain, j + k + 1, Some(Chained(RunIrs(chain, j, k + 1))), field)
  {
    RunStep(chain, j, k, n);
    ReadPrimitiveStep(chain, j + k, Chained(RunIrs(chain, j, k)), Chained(RunIrs(chain, j, k + 1)), field);
  }

  lemma {:induction false} ReadPieceRun(chain: seq<Node>, j: nat, k: nat, n: nat, field: FieldName)
    requires 1 <= k <= n && j + n <= |chain|
    requires forall m :: j <= m < j + n ==> chain[m].PrimitiveNode? && IsPiece(chain[m].ir)
    requires j + n == |chain| || !IsWaveformNode(chain[j + n])
    ensures ReadWaveform(chain, j + k, Some(Chained(RunIrs(chain, j, k))), field)
         == Success((Some(Chained(RunIrs(chain, j, n))), j + n))
    decreases n - k
  {
    if k < n {
      ReadPieceRun(chain, j, k + 1, n, field);
      ReadPieceStep(chain, j, k, n, field);
    } else {
      ReadRunEnd(chain, j + n, Some(Chained(RunIrs(chain, j, n))), field);
    }
  }

  /** Past the run, at a non-waveform node or at the end, the fold returns what it holds. */
  lemma ReadRunEnd(chain: seq<Node>, i: nat, acc: Option<Waveform>, field: FieldName)
    requires i <= |chain| && (i == |chain| || !IsWaveformNode(chain[i]))
    ensures ReadWaveform(chain, i, acc, field) == Success((acc, i))
  {
    if i < |chain| {
      ReadWaveformHalts(chain, i, acc, field);
    }
  }

  /**
   * Chained primitive calls with no explicit append: a run of primitives (leaves or
   * piecewise Appends of leaves) followed by a non-waveform node (or the end) reads as
   * the first primitive alone or as one flat Append of all their leaves in call order,
   * and the fold stops at that node.
   */
  lemma ReadPrimitives(chain: seq<Node>, j: nat, n: nat, field: FieldName)
    requires 1 <= n && j + n <= |chain|
    requires forall m :: j <= m < j + n ==> chain[m].PrimitiveNode? && IsPiece(chain[m].ir)
    requires j + n == |chain| || !IsWaveformNode(chain[j + n])
    ensures ReadWaveform(chain, j, None, field) == Success((Some(Chained(RunIrs(chain, j, n))), j + n))
  {
    var node := chain[j];
    assert RunIrs(chain, j, 1) == [node.ir];
    assert !(node.isFn && j + 1 < |chain| && chain[j + 1].SampleNode?);
    ReadPieceRun(chain, j, 1, n, field);
  }

  /**
   * An `Fn` node followed by a `Sample` is passed over, and the Sample lowers the Fn's
   * IR, sampled at its step with its own interpolation or the field's default; the
   * result starts the waveform or is appended to it.
   */
  lemma FnThenSample(chain: seq<Node>, j: nat, acc: Option<Waveform>, field: FieldName)
    requires j + 1 < |chain| && chain[j].PrimitiveNode? && chain[j].isFn && chain[j + 1].SampleNode?
    ensures var s := Sample(chain[j].ir, SampleInterpolation(chain[j + 1].interpolation, field), chain[j + 1].dt);
      (acc.None? ==> ReadWaveform(chain, j, acc, field) == ReadWaveform(chain, j + 2, Some(s), field)) &&
      (acc.Some? && AppendWave(acc.value, s).Success? ==>
        ReadWaveform(chain, j, acc, field) == ReadWaveform(chain, j + 2, Some(AppendWave(acc.value, s).value), field))
  {
  }

  /** Any node that is not a waveform node ends the fold, unconsumed. */
  lemma ReadWaveformHalts(chain: seq<Node>, j: nat, acc: Option<Waveform>, field: FieldName)
    requires j < |chain| && !IsWaveformNode(chain[j])
    ensures ReadWaveform(chain, j, acc, field) == Success((acc, j))
  {
  }

  /**
   * A spatial modulation followed by a run of chained primitives: the drive binds the
   * modulation's key to the run's waveform.
   */
  lemma DriveOfPrimitives(chain: seq<Node>, i: nat, n: nat, field: FieldName)
    requires i < |chain| && IsSpatial(chain[i])
    requires 1 <= n && i + 1 + n <= |chain|
    requires forall m :: i + 1 <= m < i + 1 + n ==> chain[m].PrimitiveNode? && IsPiece(chain[m].ir)
    requires i + 1 + n == |chain| || !IsWaveformNode(chain[i + 1 + n])
    ensures ReadDrive(chain, i, field) == Success(Field([(SpatialKey(chain[i]), Chained(RunIrs(chain, i + 1, n)))]))
  {
    ReadPrimitives(chain, i + 1, n, field);
  }

  /** A spatial modulation with no waveform after it is an empty drive. */
  lemma DriveWithoutWaveform(chain: seq<Node>, i: nat, field: FieldName)
    requires i < |chain| && IsSpatial(chain[i])
    requires i + 1 == |chain| || !IsWaveformNode(chain[i + 1])
    ensures ReadDrive(chain, i, field) == Failure(EmptyDrive)
  {
    ReadRunEnd(chain, i + 1, None, field);
  }

  /* ---------- the sequence pass ---------- */

  /**
   * One drive of the sequence pass rewrites only the field at (`c`, `f`): every other
   * coupling's pulse and every other field of `c`'s pulse are as before, and the field
   * at (`c`, `f`) is the previous one (empty if absent) with the drive merged in by
   * `Field.add`. A new coupling or field name is appended after the existing ones.
   */
  lemma MergeDriveRewritesOne(sq: Sequence, c: Coupling, f: FieldName, drive: Field)
    requires Unique(drive.drives)
    ensures var r := MergeDrive(sq, c, f, drive);
      var before := GetOr(sq.pulses, c, Pulse([]));
      var prev := GetOr(before.fields, f, Field([]));
      (forall c' :: c' != c ==> Get(r.pulses, c') == Get(sq.pulses, c')) &&
      Keys(r.pulses) == (if c in Keys(sq.pulses) then Keys(sq.pulses) else Keys(sq.pulses) + [c]) &&
      Get(r.pulses, c).Some? &&
      var after := Get(r.pulses, c).value;
      (forall f' :: f' != f ==> Get(after.fields, f') == Get(before.fields, f')) &&
      Keys(after.fields) == (if f in Keys(before.fields) then Keys(before.fields) else Keys(before.fields) + [f]) &&
      Get(after.fields, f) == Some(FieldAdd(prev, drive)) &&
      forall k :: Get(FieldAdd(prev, drive).drives, k) == MergedDrive(Get(prev.drives, k), Get(drive.drives, k))
  {
    var before := GetOr(sq.pulses, c, Pulse([]));
    var prev := GetOr(before.fields, f, Field([]));
    forall k
      ensures Get(FieldAdd(prev, drive).drives, k) == MergedDrive(Get(prev.drives, k), Get(drive.drives, k))
    {
      FieldAddMerges(prev, drive, k);
    }
  }

  /* ---------- Args ---------- */

  predicate Distinct(xs: seq<string>)
  {
    forall i, j :: 0 <= i < j < |xs| ==> xs[i] != xs[j]
  }

  function Pred(n: nat): nat
  {
    if n == 0 then 0 else n - 1
  }

  lemma {:induction false} DupScanCounts(xs: seq<string>, seen: set<string>, x: string)
    ensures multiset(DupScan(xs, seen))[x] ==
      if x in seen then multiset(xs)[x] else Pred(multiset(xs)[x])
  {
    if xs != [] {
      var y, rest := xs[0], xs[1..];
      assert xs == [y] + rest;
      if y in seen {
        DupScanCounts(rest, seen, x);
      } else {
        DupScanCounts(rest, seen + {y}, x);
      }
    }
  }

  lemma {:induction false} DupScanEmpty(xs: seq<string>, seen: set<string>)
    ensures DupScan(xs, seen) == [] <==> Distinct(xs) && forall i :: 0 <= i < |xs| ==> xs[i] !in seen
  {
    if xs != [] {
      var y, rest := xs[0], xs[1..];
      DupScanEmpty(rest, seen + {y});
      assert forall i :: 1 <= i < |xs| ==> xs[i] == rest[i - 1];
      if Distinct(xs) && (forall i :: 0 <= i < |xs| ==> xs[i] !in seen) {
        assert Distinct(rest);
      }
      if Distinct(rest) && (forall i :: 0 <= i < |rest| ==> rest[i] !in seen + {y}) && y !in seen {
        forall i, j | 0 <= i < j < |xs|
          ensures xs[i] != xs[j]
        {
          if i > 0 {
            assert rest[i - 1] != rest[j - 1];
          } else {
            assert rest[j - 1] !in seen + {y};
          }
        }
      }
    }
  }

  /**
   * The names an `Args` pragma reports as duplicates: every occurrence after the
   * first, so each name appears one time fewer than in the order; there are none
   * exactly when the names are pairwise distinct.
   */
  lemma DuplicatesSpec(order: seq<string>)
    ensures forall x :: multiset(Duplicates(order))[x] == Pred(multiset(order)[x])
    ensures Duplicates(order) == [] <==> Distinct(order)
  {
    forall x
      ensures multiset(Duplicates(order))[x] == Pred(multiset(order)[x])
    {
      DupScanCounts(order, {}, x);
    }
    DupScanEmpty(order, {});
  }

  /**
   * `Args` is accepted exactly when its names are distinct and none is a run-time
   * vector's name; duplicates are reported before collisions.
   */
  lemma ArgsCheckSpec(order: seq<string>, vectorNames: set<string>)
    ensures ArgsCheck(order, vectorNames).Success? <==>
      Distinct(order) && forall i :: 0 <= i < |order| ==> order[i] !in vectorNames
    ensures ArgsCheck(order, vectorNames).Success? ==> ArgsCheck(order, vectorNames).value == order
    ensures !Distinct(order) ==> ArgsCheck(order, vectorNames) == Failure(DuplicateNames(Duplicates(order)))
    ensures Distinct(order) && (exists i :: 0 <= i < |order| && order[i] in vectorNames) ==>
      ArgsCheck(order, vectorNames) == Failure(VectorNameArgs(set x | x in order && x in vectorNames))
  {
    DuplicatesSpec(order);
    var clash := set x | x in order && x in vectorNames;
    if exists i :: 0 <= i < |order| && order[i] in vectorNames {
      var i :| 0 <= i < |order| && order[i] in vectorNames;
      assert order[i] in clash;
    }
    if clash != {} {
      var x :| x in clash;
      assert exists i :: 0 <= i < |order| && order[i] == x;
    }
  }

  /* ---------- pragmas ---------- */

  /** With no pragma node after the cursor, the pragma pass changes nothing and cannot fail. */
  lemma PragmasAbsent(st: ParserState)
    requires Valid(st)
    requires forall j :: st.cursor <= j < |st.chain| ==> !IsPragma(st.chain[j])
    ensures ReadPragmas(st) == Success(st)
  {
  }

  /**
   * The pragma run ends at the first node of another kind: cutting the chain at any
   * non-pragma node `k` at or after `j` gives the same outcome.
   */
  lemma {:induction false} PragmaStopsAt(st: ParserState, j: nat, k: nat)
    requires j <= k < |st.chain| && !IsPragma(st.chain[k])
    ensures var cut := st.(chain := st.chain[..k]);
      PragmaLoop(st, j).Success? == PragmaLoop(cut, j).Success? &&
      (PragmaLoop(st, j).Failure? ==> PragmaLoop(st, j).error == PragmaLoop(cut, j).error) &&
      (PragmaLoop(st, j).Success? ==> PragmaLoop(st, j).value == PragmaLoop(cut, j).value.(chain := st.chain))
    decreases k - j
  {
    var cut := st.(chain := st.chain[..k]);
    if j < k {
      assert cut.chain[j] == st.chain[j];
      match st.chain[j]
      case AssignNode(p) => PragmaStep(st, st.(staticParams := p), j, k);
      case BatchAssignNode(b) => PragmaStep(st, st.(batchParams := b), j, k);
      case ListAssignNode(b) => PragmaStep(st, st.(batchParams := b), j, k);
      case ArgsNode(order) =>
        if ArgsCheck(order, st.vectorNodeNames).Success? {
          PragmaStep(st, st.(order := order), j, k);
        }
      case ParallelizeNode(spacing) =>
        if st.register.Some? {
          PragmaStep(st, st.(register := Some(ParallelRegister(st.register.value, spacing))), j, k);
        }
      case _ =>
    }
  }
  /**
   * One pragma step of PragmaStopsAt: when the loop at `j` moves on to `next`, on the
   * whole chain and on the cut one alike, the outcomes agree from `j + 1` on.
   */
  lemma {:induction false} PragmaStep(st: ParserState, next: ParserState, j: nat, k: nat)
    requires j < k < |st.chain| && !IsPragma(st.chain[k])
    requires next.chain == st.chain
    requires PragmaLoop(st, j) == PragmaLoop(next, j + 1)
    requires PragmaLoop(st.(chain := st.chain[..k]), j) == PragmaLoop(next.(chain := st.chain[..k]), j + 1)
    ensures var cut := st.(chain := st.chain[..k]);
      PragmaLoop(st, j).Success? == PragmaLoop(cut, j).Success? &&
      (PragmaLoop(st, j).Failure? ==> PragmaLoop(st, j).error == PragmaLoop(cut, j).error) &&
      (PragmaLoop(st, j).Success? ==> PragmaLoop(st, j).value == PragmaLoop(cut, j).value.(chain := st.chain))
    decreases k - j, 0
  {
    PragmaStopsAt(next, j + 1, k);
  }

}

=== FILE: scalars.dfy ===
/**
 * Symbolic scalar expressions (bloqade's `Scalar`), evaluated under an assignment of
 * decimal numbers to variable names. Decimals are modelled as exact reals.
 * Only the expression forms the waveform layer builds are represented: literals,
 * variables, the sum that accumulates an `Append`'s duration, the maximum that gives
 * an `Add`'s duration, and the difference that gives the span of a sliced interval.
 */
module Scalars {
  import opened Wrappers

  datatype Scalar =
    | Lit(v: real)
    | Var(name: string)
    | Plus(lhs: Scalar, rhs: Scalar)
    | Max(lhs: Scalar, rhs: Scalar)
    | Minus(lhs: Scalar, rhs: Scalar)

  /** A slice bound pair as written by `w[start:stop]`. */
  datatype Interval = Interval(start: Option<Scalar>, stop: Option<Scalar>)

  /** Keyword arguments `**kwargs`: variable name to decimal value. */
  type Env = map<string, real>

  function OptVars(o: Option<Scalar>): set<string>
  {
    match o
    case None => {}
    case Some(s) => Vars(s)
  }

  /** The free variables of an expression. */
  function Vars(s: Scalar): set<string>
  {
    match s
    case Lit(_) => {}
    case Var(n) => {n}
    case Plus(a, b) => Vars(a) + Vars(b)
    case Max(a, b) => Vars(a) + Vars(b)
    case Minus(a, b) => Vars(a) + Vars(b)
  }

  /** Every variable of `s` has a value: evaluation cannot fail on a missing name. */
  predicate Bound(s: Scalar, env: Env)
  {
    Vars(s) <= env.Keys
  }

  function RealMax(a: real, b: real): real
  {
    if a >= b then a else b
  }

  /** The value of `s` under `env` (calling a bloqade scalar with `**kwargs`). */
  function Val(s: Scalar, env: Env): real
    requires Bound(s, env)
  {
    match s
    case Lit(v) => v
    case Var(n) => env[n]
    case Plus(a, b) => Val(a, env) + Val(b, env)
    case Max(a, b) => RealMax(Val(a, env), Val(b, env))
    case Minus(a, b) => Val(a, env) - Val(b, env)
  }
}

=== FILE: waveform.dfy ===
/**
 * The waveform IR (bloqade.ir.control.waveform): a closed recursive datatype with
 * its durations, its exact evaluation at a point in time, and the `canonicalize`
 * rewrite that `add` and `append` go through.
 */
module Waveforms {
  import opened Wrappers
  import opened Scalars

  datatype Interpolation = LinearInterpolation | ConstantInterpolation

  datatype Alignment = LeftAligned | RightAligned

  datatype AlignedValue = LeftValue | RightValue | ScalarValue(s: Scalar)

  datatype Kernel =
    | Gaussian | Logistic | Sigmoid | Triangle | UniformKernel
    | Parabolic | Biweight | Triweight | Tricube | Cosine

  datatype Waveform =
    | Constant(value: Scalar, dur: Scalar)
    | Linear(start: Scalar, stop: Scalar, dur: Scalar)
    | Poly(coeffs: seq<Scalar>, dur: Scalar)
      /** A user Python function of time: opaque, only its duration is visible. */
    | PythonFn(fnName: string, dur: Scalar)
    | Append(waveforms: seq<Waveform>)
    | Add(left: Waveform, right: Waveform)
    | Negative(waveform: Waveform)
    | Scale(factor: Scalar, waveform: Waveform)
    | Record(waveform: Waveform, varName: string)
    | Slice(waveform: Waveform, interval: Interval)
    | Sample(waveform: Waveform, interpolation: Interpolation, dt: Scalar)
    | Aligned(waveform: Waveform, alignment: Alignment, alignValue: AlignedValue)
    | Smooth(radius: Scalar, kernel: Kernel, waveform: Waveform)

  /** What evaluating or canonicalizing a waveform can raise. */
  datatype WaveError =
    | UnboundedSlice    // Slice.duration on an interval with neither start nor stop
    | DivisionByZero    // a Decimal division by zero
    | NotImplemented    // eval_decimal of a variant that does not define it
    | SampleDiverges    // Sample.samples with a step that never reaches the duration

  /**
   * Values of the variants whose evaluation is foreign or floating-point code
   * (a PythonFn inside its duration, a Smooth convolution), supplied from outside.
   */
  type Oracle = (Waveform, real) -> real

  /* ---------- free variables ---------- */

  function SeqVars(cs: seq<Scalar>): set<string>
  {
    if cs == [] then {} else Vars(cs[0]) + SeqVars(cs[1..])
  }

  function AlignedVars(a: AlignedValue): set<string>
  {
    if a.ScalarValue? then Vars(a.s) else {}
  }

  /** Every scalar variable read anywhere in the waveform. */
  function WaveVars(w: Waveform): set<string>
  {
    match w
    case Constant(v, d) => Vars(v) + Vars(d)
    case Linear(a, b, d) => Vars(a) + Vars(b) + Vars(d)
    case Poly(cs, d) => SeqVars(cs) + Vars(d)
    case PythonFn(_, d) => Vars(d)
    case Append(ws) => WaveVarsSeq(ws)
    case Add(l, r) => WaveVars(l) + WaveVars(r)
    case Negative(x) => WaveVars(x)
    case Scale(s, x) => Vars(s) + WaveVars(x)
    case Record(x, _) => WaveVars(x)
    case Slice(x, iv) => WaveVars(x) + OptVars(iv.start) + OptVars(iv.stop)
    case Sample(x, _, dt) => WaveVars(x) + Vars(dt)
    case Aligned(x, _, av) => WaveVars(x) + AlignedVars(av)
    case Smooth(rad, _, x) => Vars(rad) + WaveVars(x)
  }

  function WaveVarsSeq(ws: seq<Waveform>): set<string>
  {
    if ws == [] then {} else WaveVars(ws[0]) + WaveVarsSeq(ws[1..])
  }

  /** The assignment binds every variable of `w`: a missing name is the caller's error. */
  predicate Closed(w: Waveform, env: Env)
  {
    WaveVars(w) <= env.Keys
  }

  /* ---------- duration ---------- */

  /** The `duration` property, as a symbolic scalar; only an unbounded Slice raises. */
  function Duration(w: Waveform): (r: Result<Scalar, WaveError>)
    ensures r.Success? ==> Vars(r.value) <= WaveVars(w)
    ensures r.Failure? ==> r.error == UnboundedSlice
  {
    match w
    case Constant(_, d) => Success(d)
    case Linear(_, _, d) => Success(d)
    case Poly(_, d) => Success(d)
    case PythonFn(_, d) => Success(d)
    case Append(ws) => DurationFold(ws, Lit(0.0))
    case Add(l, r) =>
      var dl :- Duration(l);
      var dr :- Duration(r);
      Success(Max(dl, dr))
    case Slice(x, iv) =>
      if iv.start.None? && iv.stop.None? then Failure(UnboundedSlice)
      else
        var d :- Duration(x);
        Success(Minus(iv.stop.GetOr(d), iv.start.GetOr(Lit(0.0))))
    case Negative(x) => Duration(x)
    case Scale(_, x) => Duration(x)
    case Record(x, _) => Duration(x)
    case Sample(x, _, _) => Duration(x)
    case Aligned(x, _, _) => Duration(x)
    case Smooth(_, _, x) => Duration(x)
  }

  /** The loop of Append.duration: `acc + d1 + d2 + ...`, left to right. */
  function DurationFold(ws: seq<Waveform>, acc: Scalar): (r: Result<Scalar, WaveError>)
    ensures r.Success? ==> Vars(r.value) <= Vars(acc) + WaveVarsSeq(ws)
    ensures r.Failure? ==> r.error == UnboundedSlice
  {
    if ws == [] then Success(acc)
    else
      var d :- Duration(ws[0]);
      DurationFold(ws[1..], Plus(acc, d))
  }

  /* ---------- evaluation ---------- */

  /** The Poly loop: `value += c * power; power *= t` over the coefficients in order. */
  function PolyLoop(cs: seq<Scalar>, env: Env, t: real, power: real): real
    requires SeqVars(cs) <= env.Keys
  {
    if cs == [] then 0.0
    else Val(cs[0], env) * power + PolyLoop(cs[1..], env, t, power * t)
  }

  /** `bisect_left`: the first index whose element is at least `t` (|xs| if none). */
  function BisectLeft(xs: seq<real>, t: real): (i: nat)
    ensures i <= |xs|
    ensures forall j :: 0 <= j < i ==> xs[j] < t
    ensures i < |xs| ==> xs[i] >= t
  {
    if xs == [] || xs[0] >= t then 0 else 1 + BisectLeft(xs[1..], t)
  }

  /** `eval_decimal(t, **env)`: the exact value of `w` at time `t`. */
  function Eval(w: Waveform, t: real, env: Env, oracle: Oracle): Result<real, WaveError>
    requires Closed(w, env)
    decreases w, 1, 0
  {
    match w
    case Constant(v, d) =>
      if t > Val(d, env) then Success(0.0) else Success(Val(v, env))
    case Linear(a, b, d) =>
      var span := Val(d, env);
      if t > span then Success(0.0)
      else if span == 0.0 then Failure(DivisionByZero)
      else Success((Val(b, env) - Val(a, env)) / span * t + Val(a, env))
    case Poly(cs, d) =>
      if t > Val(d, env) then Success(0.0) else Success(PolyLoop(cs, env, t, 1.0))
    case PythonFn(_, d) =>
      if t > Val(d, env) then Success(0.0) else Success(oracle(w, t))
    case Append(ws) => EvalAppend(ws, t, 0.0, env, oracle)
    case Add(l, r) =>
      var a :- Eval(l, t, env, oracle);
      var b :- Eval(r, t, env, oracle);
      Success(a + b)
    case Negative(x) =>
      var a :- Eval(x, t, env, oracle);
      Success(-a)
    case Scale(s, x) =>
      var a :- Eval(x, t, env, oracle);
      Success(Val(s, env) * a)
    case Record(x, _) => Eval(x, t, env, oracle)
    case Slice(x, iv) =>
      var d :- Duration(w);
      if t > Val(d, env) then Success(0.0)
      else
        var offset := if iv.start.Some? then Val(iv.start.value, env) else 0.0;
        Eval(x, t + offset, env, oracle)
    case Sample(x, interp, dt) =>
      var d :- Duration(x);
      var s :- Samples(x, Val(d, env), Val(dt, env), env, oracle);
      Interpolate(s.0, s.1, interp, t)
    case Aligned(_, _, _) => Failure(NotImplemented)
    case Smooth(_, _, x) =>
      var _ :- Duration(x);
      Success(oracle(w, t))
  }

  /** The Append loop: the first child whose cumulative end reaches `t`, at local time. */
  function EvalAppend(ws: seq<Waveform>, t: real, acc: real, env: Env, oracle: Oracle)
    : Result<real, WaveError>
    requires WaveVarsSeq(ws) <= env.Keys
    decreases ws, 0, 0
  {
    if ws == [] then Success(0.0)
    else
      var d :- Duration(ws[0]);
      var span := Val(d, env);
      if t <= acc + span then Eval(ws[0], t - acc, env, oracle)
      else EvalAppend(ws[1..], t, acc + span, env, oracle)
  }

  /** Number of further steps of the sampling loop starting at `clock`. */
  function StepsLeft(clock: real, span: real, dt: real): nat
  {
    if dt > 0.0 && clock <= span - dt then ((span - clock) / dt).Floor else 0
  }

  lemma DivStep(a: real, dt: real)
    requires dt > 0.0
    ensures (a - dt) / dt == a / dt - 1.0
  {
    var q := a / dt;
    var q' := (a - dt) / dt;
    assert q * dt == a;
    assert q' * dt == a - dt;
    assert (q - 1.0) * dt == a - dt;
    MulCancel(q', q - 1.0, dt);
  }

  lemma MulCancel(x: real, y: real, k: real)
    requires k > 0.0 && x * k == y * k
    ensures x == y
  {
  }

  /** The body of Sample.samples: the clocks 0, dt, 2dt, ... up to `span - dt`, with values. */
  function SampleLoop(x: Waveform, clock: real, span: real, dt: real, env: Env, oracle: Oracle)
    : (r: Result<(seq<real>, seq<real>), WaveError>)
    requires Closed(x, env)
    requires dt > 0.0 || clock > span - dt
    ensures r.Success? ==> |r.value.0| == |r.value.1|
    decreases x, 2, StepsLeft(clock, span, dt)
  {
    if clock <= span - dt then
      var v :- Eval(x, clock, env, oracle);
      DivStep(span - clock, dt);
      var rest :- SampleLoop(x, clock + dt, span, dt, env, oracle);
      Success(([clock] + rest.0, [v] + rest.1))
    else Success(([], []))
  }

  /** Sample.samples: the loop's clocks and values, then the end point itself. */
  function Samples(x: Waveform, span: real, dt: real, env: Env, oracle: Oracle)
    : (r: Result<(seq<real>, seq<real>), WaveError>)
    requires Closed(x, env)
    ensures r.Success? ==> |r.value.0| == |r.value.1| > 0
    decreases x, 3, 0
  {
    if dt <= 0.0 && 0.0 <= span - dt then Failure(SampleDiverges)
    else
      var s :- SampleLoop(x, 0.0, span, dt, env, oracle);
      var last :- Eval(x, span, env, oracle);
      Success((s.0 + [span], s.1 + [last]))
  }

  /** Sample.eval_decimal once the samples are known. */
  function Interpolate(times: seq<real>, values: seq<real>, interp: Interpolation, t: real)
    : Result<real, WaveError>
    requires |times| == |values|
  {
    var i := BisectLeft(times, t);
    if i == |times| then Success(0.0)
    else if i == 0 then Success(values[0])
    else if interp.ConstantInterpolation? then Success(values[i - 1])
    else if times[i] - times[i - 1] == 0.0 then Failure(DivisionByZero)
    else
      var slope := (values[i] - values[i - 1]) / (times[i] - times[i - 1]);
      Success(slope * (t - times[i - 1]) + values[i - 1])
  }

  /* ---------- canonicalize ---------- */

  function Size(w: Waveform): (n: nat)
    ensures n >= 1
  {
    match w
    case Append(ws) => 1 + SizeSeq(ws)
    case Add(l, r) => 1 + Size(l) + Size(r)
    case Negative(x) => 1 + Size(x)
    case Scale(_, x) => 1 + Size(x)
    case Record(x, _) => 1 + Size(x)
    case Slice(x, _) => 1 + Size(x)
    case Sample(x, _, _) => 1 + Size(x)
    case Aligned(x, _, _) => 1 + Size(x)
    case Smooth(_, _, x) => 1 + Size(x)
    case _ => 1
  }

  function SizeSeq(ws: seq<Waveform>): nat
  {
    if ws == [] then 0 else Size(ws[0]) + SizeSeq(ws[1..])
  }

  /** The children of an Append are spliced into place; any other waveform stands for itself. */
  function Splice(w: Waveform): seq<Waveform>
  {
    if w.Append? then w.waveforms else [w]
  }

  /** One level of Append flattening, in order. */
  function Flatten(ws: seq<Waveform>): seq<Waveform>
  {
    if ws == [] then [] else Splice(ws[0]) + Flatten(ws[1..])
  }

  lemma {:induction false} SizeSeqConcat(a: seq<Waveform>, b: seq<Waveform>)
    ensures SizeSeq(a + b) == SizeSeq(a) + SizeSeq(b)
  {
    if a != [] {
      assert (a + b)[0] == a[0];
      assert (a + b)[1..] == a[1..] + b;
      SizeSeqConcat(a[1..], b);
    } else {
      assert a + b == b;
    }
  }

  lemma {:induction false} FlattenSize(ws: seq<Waveform>)
    ensures SizeSeq(Flatten(ws)) <= SizeSeq(ws)
  {
    if ws != [] {
      FlattenSize(ws[1..]);
      SizeSeqConcat(Splice(ws[0]), Flatten(ws[1..]));
      if !ws[0].Append? {
        assert SizeSeq([ws[0]]) == Size(ws[0]) by {
          assert [ws[0]][1..] == [];
        }
      }
    }
  }

  /** `Waveform.canonicalize`. */
  function Canonicalize(w: Waveform): (r: Result<Waveform, WaveError>)
    ensures !w.Append? && !w.Add? ==> r == Success(w)
    ensures r.Failure? ==> r.error == UnboundedSlice
    decreases Size(w), 0
  {
    match w
    case Append(ws) =>
      FlattenSize(ws);
      var cs :- CanonicalizeAll(Flatten(ws));
      Success(Append(cs))
    case Add(l, r) =>
      var cl :- Canonicalize(l);
      var cr :- Canonicalize(r);
      if cl == cr then Success(Scale(Lit(2.0), cl))
      else
        var dl :- Duration(cl);
        if dl == Lit(0.0) then Success(cr)
        else
          var dr :- Duration(cr);
          if dr == Lit(0.0) then Success(cl) else Success(w)
    case _ => Success(w)
  }

  /** `map(Waveform.canonicalize, ws)`, raising at the first element that raises. */
  function CanonicalizeAll(ws: seq<Waveform>): (r: Result<seq<Waveform>, WaveError>)
    ensures r.Success? ==> |r.value| == |ws|
    ensures r.Failure? ==> r.error == UnboundedSlice
    decreases SizeSeq(ws), 1
  {
    if ws == [] then Success([])
    else
      var c :- Canonicalize(ws[0]);
      var rest :- CanonicalizeAll(ws[1..]);
      Success([c] + rest)
  }

  /** `w.add(other)`. */
  function AddWave(w: Waveform, other: Waveform): Result<Waveform, WaveError>
  {
    Canonicalize(Add(w, other))
  }

  /** `w.append(other)`. */
  function AppendWave(w: Waveform, other: Waveform): Result<Waveform, WaveError>
  {
    Canonicalize(Append([w, other]))
  }
}

=== FILE: waveform_props.dfy ===
/**
 * Properties of the waveform IR: what `duration`, `eval_decimal` and `canonicalize`
 * mean, stated against independent reference definitions.
 */
module WaveformProps {
  import opened Wrappers
  import opened Scalars
  import opened Waveforms

  /* ---------- reference definitions ---------- */

  predicate AllTimed(ws: seq<Waveform>)
  {
    forall i :: 0 <= i < |ws| ==> Duration(ws[i]).Success?
  }

  lemma {:induction false} ClosedSeq(ws: seq<Waveform>, env: Env)
    ensures WaveVarsSeq(ws) <= env.Keys <==> (forall i :: 0 <= i < |ws| ==> Closed(ws[i], env))
  {
    if ws != [] {
      ClosedSeq(ws[1..], env);
      assert forall i :: 1 <= i < |ws| ==> ws[i] == ws[1..][i - 1];
    }
  }

  /** The evaluated duration of a waveform whose duration is defined. */
  function Span(w: Waveform, env: Env): real
    requires Closed(w, env) && Duration(w).Success?
  {
    Val(Duration(w).value, env)
  }

  /** The sum of the evaluated durations, as a plain right-nested sum. */
  function TotalSpan(ws: seq<Waveform>, env: Env): real
    requires WaveVarsSeq(ws) <= env.Keys && AllTimed(ws)
  {
    if ws == [] then 0.0 else Span(ws[0], env) + TotalSpan(ws[1..], env)
  }

  /** Total duration of the first `n` children. */
  function PrefixSpan(ws: seq<Waveform>, n: nat, env: Env): real
    requires n <= |ws|
    requires WaveVarsSeq(ws) <= env.Keys && AllTimed(ws)
  {
    if n == 0 then 0.0 else Span(ws[0], env) + PrefixSpan(ws[1..], n - 1, env)
  }

  function Pow(x: real, n: nat): real
  {
    if n == 0 then 1.0 else x * Pow(x, n - 1)
  }

  /** Σ cᵢ·t^(k+i) over the coefficients: the polynomial's terms with explicit powers from `k`. */
  function PolyTerms(cs: seq<Scalar>, env: Env, t: real, k: nat): real
    requires SeqVars(cs) <= env.Keys
  {
    if cs == [] then 0.0 else Val(cs[0], env) * Pow(t, k) + PolyTerms(cs[1..], env, t, k + 1)
  }

  lemma {:induction false} ClosedElem(ws: seq<Waveform>, i: nat, env: Env)
    requires i < |ws| && WaveVarsSeq(ws) <= env.Keys
    ensures Closed(ws[i], env)
  {
    if i > 0 {
      ClosedElem(ws[1..], i - 1, env);
    }
  }

  lemma {:induction false} AllTimedTail(ws: seq<Waveform>)
    requires ws != [] && AllTimed(ws)
    ensures Duration(ws[0]).Success? && AllTimed(ws[1..])
  {
    assert Duration(ws[0]).Success?;
    forall k | 0 <= k < |ws[1..]|
      ensures Duration(ws[1..][k]).Success?
    {
      assert ws[1..][k] == ws[k + 1];
    }
  }

  /* ---------- duration ---------- */

  lemma {:induction false} DurationFoldSum(ws: seq<Waveform>, acc: Scalar, env: Env)
    requires WaveVarsSeq(ws) <= env.Keys && Bound(acc, env)
    ensures DurationFold(ws, acc).Success? <==> AllTimed(ws)
    ensures AllTimed(ws) ==>
      Val(DurationFold(ws, acc).value, env) == Val(acc, env) + TotalSpan(ws, env)
  {
    if ws != [] {
      var rest := ws[1..];
      assert forall i :: 1 <= i < |ws| ==> ws[i] == rest[i - 1];
      if Duration(ws[0]).Success? {
        var d := Duration(ws[0]).value;
        DurationFoldSum(rest, Plus(acc, d), env);
        assert AllTimed(ws) <==> AllTimed(rest);
      } else {
        assert !AllTimed(ws);
      }
    }
  }

  /** Append.duration: defined exactly when every child's is, and it is the sum of theirs. */
  lemma AppendDuration(ws: seq<Waveform>, env: Env)
    requires WaveVarsSeq(ws) <= env.Keys
    ensures Duration(Append(ws)).Success? <==> AllTimed(ws)
    ensures AllTimed(ws) ==> Span(Append(ws), env) == TotalSpan(ws, env)
  {
    DurationFoldSum(ws, Lit(0.0), env);
  }

  /** Add.duration: defined when both operands' are, and it is the larger of the two. */
  lemma AddDuration(l: Waveform, r: Waveform, env: Env)
    requires Closed(Add(l, r), env)
    ensures Duration(Add(l, r)).Success? <==> Duration(l).Success? && Duration(r).Success?
    ensures Duration(Add(l, r)).Success? ==>
      Span(Add(l, r), env) >= Span(l, env) && Span(Add(l, r), env) >= Span(r, env) &&
      (Span(Add(l, r), env) == Span(l, env) || Span(Add(l, r), env) == Span(r, env))
  {
  }

  /* ---------- evaluation of the leaves ---------- */

  /** Linear: zero past the end; `start` at 0 and `stop` at the end; a zero span divides by zero. */
  lemma LinearEval(a: Scalar, b: Scalar, d: Scalar, t: real, env: Env, oracle: Oracle)
    requires Closed(Linear(a, b, d), env)
    ensures t > Val(d, env) ==> Eval(Linear(a, b, d), t, env, oracle) == Success(0.0)
    ensures t <= Val(d, env) && Val(d, env) == 0.0 ==>
      Eval(Linear(a, b, d), t, env, oracle) == Failure(DivisionByZero)
    ensures Val(d, env) > 0.0 ==>
      Eval(Linear(a, b, d), 0.0, env, oracle) == Success(Val(a, env)) &&
      Eval(Linear(a, b, d), Val(d, env), env, oracle) == Success(Val(b, env))
  {
    var span := Val(d, env);
    if span > 0.0 {
      var x, y := Val(a, env), Val(b, env);
      var e := Eval(Linear(a, b, d), span, env, oracle);
      assert !(span > span);
      assert e.Success? && e.value == (y - x) / span * span + x;
      assert (y - x) / span * span == y - x;
    }
  }

  lemma PowStep(t: real, k: nat)
    ensures Pow(t, k) * t == Pow(t, k + 1)
  {
    var p := Pow(t, k);
    assert Pow(t, k + 1) == t * p;
  }

  lemma {:induction false} PolyLoopIsTerms(cs: seq<Scalar>, env: Env, t: real, k: nat)
    requires SeqVars(cs) <= env.Keys
    ensures PolyLoop(cs, env, t, Pow(t, k)) == PolyTerms(cs, env, t, k)
  {
    if cs != [] {
      PowStep(t, k);
      PolyLoopIsTerms(cs[1..], env, t, k + 1);
    }
  }

  /** Poly: within its duration the value is Σ cᵢ·tⁱ; past it, zero. */
  lemma PolyEval(cs: seq<Scalar>, d: Scalar, t: real, env: Env, oracle: Oracle)
    requires Closed(Poly(cs, d), env)
    ensures t > Val(d, env) ==> Eval(Poly(cs, d), t, env, oracle) == Success(0.0)
    ensures t <= Val(d, env) ==> Eval(Poly(cs, d), t, env, oracle) == Success(PolyTerms(cs, env, t, 0))
  {
    PolyLoopIsTerms(cs, env, t, 0);
  }

  /* ---------- evaluation of Append ---------- */

  /** The index of the first child whose cumulative end reaches `t`, or |ws| if none does. */
  function FirstReaching(ws: seq<Waveform>, t: real, env: Env): (i: nat)
    requires WaveVarsSeq(ws) <= env.Keys && AllTimed(ws)
    ensures i <= |ws|
  {
    if ws == [] then 0
    else if t <= Span(ws[0], env) then 0
    else 1 + FirstReaching(ws[1..], t - Span(ws[0], env), env)
  }

  lemma {:induction false} EvalAppendPicks(ws: seq<Waveform>, t: real, acc: real, env: Env, oracle: Oracle)
    requires WaveVarsSeq(ws) <= env.Keys && AllTimed(ws)
    ensures FirstReaching(ws, t - acc, env) == |ws| ==> EvalAppend(ws, t, acc, env, oracle) == Success(0.0)
    ensures FirstReaching(ws, t - acc, env) < |ws| ==>
      var i := FirstReaching(ws, t - acc, env);
      (ClosedElem(ws, i, env);
       EvalAppend(ws, t, acc, env, oracle) == Eval(ws[i], t - acc - PrefixSpan(ws, i, env), env, oracle))
    decreases |ws|, 1
  {
    if ws != [] {
      ClosedElem(ws, 0, env);
      if t > acc + Span(ws[0], env) {
        EvalAppendPicksLater(ws, t, acc, env, oracle);
      }
    }
  }

  /** EvalAppendPicks when `t` lies past the first child: the loop moves on to the rest. */
  lemma {:induction false} EvalAppendPicksLater(ws: seq<Waveform>, t: real, acc: real, env: Env, oracle: Oracle)
    requires WaveVarsSeq(ws) <= env.Keys && AllTimed(ws) && ws != []
    requires (ClosedElem(ws, 0, env); t > acc + Span(ws[0], env))
    ensures FirstReaching(ws, t - acc, env) == |ws| ==> EvalAppend(ws, t, acc, env, oracle) == Success(0.0)
    ensures FirstReaching(ws, t - acc, env) < |ws| ==>
      var i := FirstReaching(ws, t - acc, env);
      (ClosedElem(ws, i, env);
       EvalAppend(ws, t, acc, env, oracle) == Eval(ws[i], t - acc - PrefixSpan(ws, i, env), env, oracle))
    decreases |ws|, 0
  {
    var rest := ws[1..];
    AllTimedTail(ws);
    var span := Span(ws[0], env);
    EvalAppendPicks(rest, t, acc + span, env, oracle);
    EvalAppendSkip(ws, t, acc, env, oracle);
    ReachingStep(ws, t, acc, env);
    var j := FirstReaching(rest, t - (acc + span), env);
    if j < |rest| {
      assert ws[1 + j] == rest[j];
      ClosedElem(ws, 1 + j, env);
      SameClock(ws[1 + j], t - (acc + span) - PrefixSpan(rest, j, env), t - acc - PrefixSpan(ws, 1 + j, env), env, oracle);
    }
  }

  /** Past the first child's end, Append's loop carries on with the rest. */
  lemma EvalAppendSkip(ws: seq<Waveform>, t: real, acc: real, env: Env, oracle: Oracle)
    requires WaveVarsSeq(ws) <= env.Keys && AllTimed(ws) && ws != []
    requires (ClosedElem(ws, 0, env); t > acc + Span(ws[0], env))
    ensures (AllTimedTail(ws);
      EvalAppend(ws, t, acc, env, oracle) == EvalAppend(ws[1..], t, acc + Span(ws[0], env), env, oracle))
  {
    AllTimedTail(ws);
  }

  /** Past the first child, the search goes on in the rest, one index and one span later. */
  lemma ReachingStep(ws: seq<Waveform>, t: real, acc: real, env: Env)
    requires WaveVarsSeq(ws) <= env.Keys && AllTimed(ws) && ws != []
    requires (ClosedElem(ws, 0, env); t > acc + Span(ws[0], env))
    ensures (AllTimedTail(ws);
      var j := FirstReaching(ws[1..], t - (acc + Span(ws[0], env)), env);
      FirstReaching(ws, t - acc, env) == 1 + j &&
      (j < |ws| - 1 ==> t - acc - PrefixSpan(ws, 1 + j, env) == t - (acc + Span(ws[0], env)) - PrefixSpan(ws[1..], j, env)))
  {
    AllTimedTail(ws);
    var span := Span(ws[0], env);
    assert t - (acc + span) == (t - acc) - span;
    var j := FirstReaching(ws[1..], t - (acc + span), env);
    if j < |ws| - 1 {
      assert PrefixSpan(ws, 1 + j, env) == span + PrefixSpan(ws[1..], j, env);
    }
  }

  lemma {:induction false} FirstReachingBounds(ws: seq<Waveform>, t: real, env: Env)
    requires WaveVarsSeq(ws) <= env.Keys && AllTimed(ws)
    ensures FirstReaching(ws, t, env) < |ws| ==>
      var i := FirstReaching(ws, t, env);
      (ClosedElem(ws, i, env);
       t <= PrefixSpan(ws, i, env) + Span(ws[i], env))
    ensures forall j :: 0 <= j < FirstReaching(ws, t, env) ==>
      (ClosedElem(ws, j, env);
       t > PrefixSpan(ws, j, env) + Span(ws[j], env))
  {
    if ws != [] {
      var rest := ws[1..];
      AllTimedTail(ws);
      var span := Span(ws[0], env);
      if t > span {
        FirstReachingBounds(rest, t - span, env);
        var i := FirstReaching(ws, t, env);
        if i < |ws| {
          ClosedElem(ws, i, env);
          assert ws[i] == rest[i - 1];
          assert PrefixSpan(ws, i, env) == span + PrefixSpan(rest, i - 1, env);
        }
        forall j | 0 <= j < i
          ensures (ClosedElem(ws, j, env); t > PrefixSpan(ws, j, env) + Span(ws[j], env))
        {
          ClosedElem(ws, j, env);
          if j > 0 {
            ClosedElem(rest, j - 1, env);
            assert ws[j] == rest[j - 1];
            assert t - span > PrefixSpan(rest, j - 1, env) + Span(rest[j - 1], env);
          }
        }
      }
    }
  }

  /**
   * Append.eval_decimal: the value of the first child whose cumulative end reaches `t`,
   * at `t` minus the total duration of the children before it; zero past every end.
   */
  lemma AppendEval(ws: seq<Waveform>, t: real, env: Env, oracle: Oracle)
    requires WaveVarsSeq(ws) <= env.Keys && AllTimed(ws)
    ensures FirstReaching(ws, t, env) < |ws| ==>
      var i := FirstReaching(ws, t, env);
      (ClosedElem(ws, i, env);
       t <= PrefixSpan(ws, i, env) + Span(ws[i], env))
    ensures FirstReaching(ws, t, env) < |ws| ==>
      var i := FirstReaching(ws, t, env);
      (ClosedElem(ws, i, env);
       Eval(Append(ws), t, env, oracle) == Eval(ws[i], t - PrefixSpan(ws, i, env), env, oracle))
    ensures forall j :: 0 <= j < FirstReaching(ws, t, env) ==>
      (ClosedElem(ws, j, env);
       t > PrefixSpan(ws, j, env) + Span(ws[j], env))
    ensures FirstReaching(ws, t, env) == |ws| ==> Eval(Append(ws), t, env, oracle) == Success(0.0)
  {
    EvalAppendPicks(ws, t, 0.0, env, oracle);
    AppendStartsAtZero(ws, t, env, oracle);
    FirstReachingBounds(ws, t, env);
    var i := FirstReaching(ws, t, env);
    if i < |ws| {
      ClosedElem(ws, i, env);
      SameClock(ws[i], t - 0.0 - PrefixSpan(ws, i, env), t - PrefixSpan(ws, i, env), env, oracle);
    }
  }

  /** Equal clocks give equal values. */
  lemma SameClock(w: Waveform, a: real, b: real, env: Env, oracle: Oracle)
    requires Closed(w, env) && a == b
    ensures Eval(w, a, env, oracle) == Eval(w, b, env, oracle)
  {
  }

  /** Append's loop starts with nothing elapsed. */
  lemma AppendStartsAtZero(ws: seq<Waveform>, t: real, env: Env, oracle: Oracle)
    requires WaveVarsSeq(ws) <= env.Keys
    ensures Eval(Append(ws), t, env, oracle) == EvalAppend(ws, t, 0.0, env, oracle)
  {
  }
  /* ---------- Sample ---------- */

  /** The loop's clocks start at `clock`, step by `dt`, stay at most `span - dt`, and stop just past it. */
  predicate LoopClocks(ts: seq<real>, clock: real, span: real, dt: real)
  {
    (ts == [] ==> clock > span - dt) &&
    (ts != [] ==> ts[0] == clock && ts[|ts| - 1] + dt > span - dt) &&
    (forall k :: 0 <= k < |ts| - 1 ==> ts[k + 1] == ts[k] + dt) &&
    (forall k :: 0 <= k < |ts| ==> ts[k] <= span - dt)
  }

  /** Each value is the waveform's value at the clock beside it. */
  predicate LoopValues(ts: seq<real>, vs: seq<real>, x: Waveform, env: Env, oracle: Oracle)
    requires Closed(x, env)
  {
    |ts| == |vs| && forall k :: 0 <= k < |ts| ==> Eval(x, ts[k], env, oracle) == Success(vs[k])
  }

  predicate LoopShape(ts: seq<real>, vs: seq<real>, clock: real, span: real, dt: real,
                      x: Waveform, env: Env, oracle: Oracle)
    requires Closed(x, env)
  {
    LoopClocks(ts, clock, span, dt) && LoopValues(ts, vs, x, env, oracle)
  }

  /** One more clock in front of the clocks of a loop that starts a step later. */
  lemma LoopClocksCons(ts: seq<real>, clock: real, span: real, dt: real)
    requires clock <= span - dt && LoopClocks(ts, clock + dt, span, dt)
    ensures LoopClocks([clock] + ts, clock, span, dt)
  {
    var ts' := [clock] + ts;
    forall k | 0 <= k < |ts'| - 1
      ensures ts'[k + 1] == ts'[k] + dt
    {
      assert ts'[k + 1] == ts[k];
      if k > 0 {
        assert ts'[k] == ts[k - 1];
      }
    }
    assert forall k :: 1 <= k < |ts'| ==> ts'[k] == ts[k - 1];
    if ts != [] {
      assert ts'[|ts'| - 1] == ts[|ts| - 1];
    }
  }

  /** One more value in front of the values of a loop that starts a step later. */
  lemma LoopValuesCons(ts: seq<real>, vs: seq<real>, clock: real, v: real, x: Waveform, env: Env, oracle: Oracle)
    requires Closed(x, env) && LoopValues(ts, vs, x, env, oracle)
    requires Eval(x, clock, env, oracle) == Success(v)
    ensures LoopValues([clock] + ts, [v] + vs, x, env, oracle)
  {
    var ts', vs' := [clock] + ts, [v] + vs;
    forall k | 0 <= k < |ts'|
      ensures Eval(x, ts'[k], env, oracle) == Success(vs'[k])
    {
      if k > 0 {
        assert ts'[k] == ts[k - 1] && vs'[k] == vs[k - 1];
      }
    }
  }

  lemma {:induction false} SampleLoopShape(x: Waveform, clock: real, span: real, dt: real, env: Env, oracle: Oracle)
    requires Closed(x, env) && dt > 0.0
    requires SampleLoop(x, clock, span, dt, env, oracle).Success?
    ensures var (ts, vs) := SampleLoop(x, clock, span, dt, env, oracle).value;
      LoopShape(ts, vs, clock, span, dt, x, env, oracle)
    decreases StepsLeft(clock, span, dt)
  {
    if clock <= span - dt {
      DivStep(span - clock, dt);
      var (ts, vs) := SampleLoop(x, clock, span, dt, env, oracle).value;
      var (ts', vs') := SampleLoop(x, clock + dt, span, dt, env, oracle).value;
      SampleLoopShape(x, clock + dt, span, dt, env, oracle);
      var v := Eval(x, clock, env, oracle).value;
      assert ts == [clock] + ts' && vs == [v] + vs';
      LoopClocksCons(ts', clock, span, dt);
      LoopValuesCons(ts', vs', clock, v, x, env, oracle);
    }
  }

  /**
   * Sample.samples with a positive step: the clocks 0, dt, 2·dt, ... while they stay
   * at most `duration - dt`, each paired with the waveform's value there, and then the
   * duration itself with the value at the end.
   */
  lemma SamplesShape(x: Waveform, span: real, dt: real, env: Env, oracle: Oracle)
    requires Closed(x, env) && dt > 0.0
    requires Samples(x, span, dt, env, oracle).Success?
    ensures var (ts, vs) := Samples(x, span, dt, env, oracle).value;
      var n := |ts| - 1;
      ts[n] == span && Eval(x, span, env, oracle) == Success(vs[n]) &&
      LoopShape(ts[..n], vs[..n], 0.0, span, dt, x, env, oracle)
  {
    SampleLoopShape(x, 0.0, span, dt, env, oracle);
    var (ts, vs) := Samples(x, span, dt, env, oracle).value;
    var (ls, lv) := SampleLoop(x, 0.0, span, dt, env, oracle).value;
    assert ts[..|ts| - 1] == ls && vs[..|vs| - 1] == lv;
  }

  /** With a positive step, the sampling loop succeeds whenever the sampled waveform is defined everywhere. */
  lemma {:induction false} SampleLoopDefined(x: Waveform, clock: real, span: real, dt: real, env: Env, oracle: Oracle)
    requires Closed(x, env) && dt > 0.0
    requires forall t :: Eval(x, t, env, oracle).Success?
    ensures SampleLoop(x, clock, span, dt, env, oracle).Success?
    decreases StepsLeft(clock, span, dt)
  {
    if clock <= span - dt {
      DivStep(span - clock, dt);
      SampleLoopDefined(x, clock + dt, span, dt, env, oracle);
    }
  }

  predicate StrictlyIncreasing(ts: seq<real>)
  {
    forall k :: 0 <= k < |ts| - 1 ==> ts[k] < ts[k + 1]
  }

  /** With a positive step, the sample clocks strictly increase, the end point included. */
  lemma SamplesIncreasing(x: Waveform, span: real, dt: real, env: Env, oracle: Oracle)
    requires Closed(x, env) && dt > 0.0
    requires Samples(x, span, dt, env, oracle).Success?
    ensures StrictlyIncreasing(Samples(x, span, dt, env, oracle).value.0)
  {
    SamplesShape(x, span, dt, env, oracle);
    var ts := Samples(x, span, dt, env, oracle).value.0;
    var n := |ts| - 1;
    var loop := ts[..n];
    forall k | 0 <= k < |ts| - 1
      ensures ts[k] < ts[k + 1]
    {
      assert ts[k] == loop[k] && loop[k] <= span - dt;
      if k + 1 < n {
        assert ts[k + 1] == loop[k + 1];
      }
    }
  }

  /** Interpolating between strictly increasing clocks never divides by zero. */
  lemma InterpolateIncreasing(ts: seq<real>, vs: seq<real>, interp: Interpolation, t: real)
    requires |ts| == |vs| && StrictlyIncreasing(ts)
    ensures Interpolate(ts, vs, interp, t).Success?
  {
    var i := BisectLeft(ts, t);
    if 0 < i < |ts| {
      assert ts[i - 1] < ts[i];
    }
  }

  /**
   * A Sample with a positive step of a waveform that is defined at every time is
   * itself defined at every time.
   */
  lemma SampleDefined(x: Waveform, interp: Interpolation, dt: Scalar, t: real, env: Env, oracle: Oracle)
    requires Closed(Sample(x, interp, dt), env) && Val(dt, env) > 0.0 && Duration(x).Success?
    requires forall s :: Eval(x, s, env, oracle).Success?
    ensures Eval(Sample(x, interp, dt), t, env, oracle).Success?
  {
    var span := Val(Duration(x).value, env);
    var step := Val(dt, env);
    SampleLoopDefined(x, 0.0, span, step, env, oracle);
    assert Samples(x, span, step, env, oracle).Success?;
    SamplesIncreasing(x, span, step, env, oracle);
    var (ts, vs) := Samples(x, span, step, env, oracle).value;
    InterpolateIncreasing(ts, vs, interp, t);
  }

  /** Sample.samples with a non-positive step: diverges unless the duration is below the step. */
  lemma SamplesNonPositiveStep(x: Waveform, span: real, dt: real, env: Env, oracle: Oracle)
    requires Closed(x, env) && dt <= 0.0
    ensures 0.0 <= span - dt ==> Samples(x, span, dt, env, oracle) == Failure(SampleDiverges)
    ensures span - dt < 0.0 && Eval(x, span, env, oracle).Success? ==>
      Samples(x, span, dt, env, oracle) == Success(([span], [Eval(x, span, env, oracle).value]))
  {
    if span - dt < 0.0 && Eval(x, span, env, oracle).Success? {
      var e: seq<real> := [];
      assert SampleLoop(x, 0.0, span, dt, env, oracle) == Success((e, e));
      var last := Eval(x, span, env, oracle).value;
      assert e + [span] == [span] && e + [last] == [last];
    }
  }
}

=== FILE: wrappers.dfy ===
/** Failure-compatible Option and Result types used throughout the model. */
module Wrappers {

  /** A value that may be absent (Python's `None`). */
  datatype Option<+T> = None | Some(value: T) {

    function GetOr(default: T): T {
      match this
      case Some(v) => v
      case None => default
    }
  }

  /** The outcome of a computation that may raise: `Failure` carries the raised error. */
  datatype Result<+R, +E> = Success(value: R) | Failure(error: E) {

    predicate IsFailure() {
      Failure?
    }

    function PropagateFailure<U>(): Result<U, E>
      requires Failure?
    {
      Failure(error)
    }

    function Extract(): R
      requires Success?
    {
      value
    }
  }
}
